=== FILE: README.md ===
# LMS ledger and enrolment model

A Dafny model of the server core of a course-marketplace learning-management system (an Express and
Mongoose application), together with the course editor's client-side checks. It covers:

- **The simulated bank.** Accounts open with 10000 and hold salted-hash secrets. Generic transfers are
  authenticated by the sender's secret. There is one LMS account, created lazily.
- **The 70/30 revenue split of a purchase.** The learner pays the price. The instructor is credited 70%
  and the LMS 30%. Three ledger records are written, and the learner is enrolled.
- **The two ways a sale payment is confirmed.**
  - The instructor's *collect payment* only marks the record.
  - The bank's *validate* marks the record and transfers 70% of its amount a second time.
- **The course upload.** At most five active courses may exist, an instructor's titles must be unique
  ignoring case, and the LMS pays the instructor 5000 when it can afford it.
- **The generic course handlers.** Create, update, delete, add a material and read the materials.
- **The instructor's edits.** Adding a quiz question, editing a course and deleting a material.
- **Course completion, the quiz and certificates.** The quiz a learner is served and the scoring of a
  submission. A pass completes the enrolment and issues a certificate at most once.
- **The instructor's earnings and pending-payment summaries, and the admin's statistics.**
- **The maintenance script** that resets instructor-payment statuses to `completed`.
- **The editor's rules** for queueing quiz questions and media files, and the ten-question submit gate.

Every handler is a pure function from the persisted `Lms.State` to a `Reply`: `Ok(state, value)` or
`Err(state, error)`. An error carries a state too, because several handlers save documents before a
later step fails:
- a purchase creates the LMS account before it checks the instructor;
- an upload saves the course before the instructor's account is found missing;
- a balance save can fail the schema's `min: 0` after earlier saves went through.

Documents loaded separately and saved one after another are modelled as successive map updates. Each
update writes a value computed from what was loaded before any of them. This is why a transfer to the
sender's own account mints money.

The process environment is a `Config` parameter: the LMS account number and the secret hasher. Fresh
ids (uuids and ObjectIds) are also parameters, and so is the quiz shuffle, given as a permutation.

Behaviours of the code worth noting, each modelled as written:
- The LMS commission is computed as `price * 0.3` on its own, not as the price less the instructor's
  share. Over the reals the three records still balance exactly (`LearnerRoutes.PurchaseRecords`).
- A failing purchase is not free of side effects: a missing LMS account is created before the
  instructor checks (`LearnerRoutes.PurchaseCreatesLmsBeforeInstructorCheck`).
- A purchase first refuses a missing secret, and a transfer first refuses missing fields.
- A transfer saves both balances before its record is validated. An unknown `type` or a course id
  that is not an ObjectId therefore fails with the money moved and no record written
  (`BankRoutes.TransferRefusedRecordMovesMoney`).
- `POST /api/bank/validate` checks neither the record's type nor who it pays, and it moves money a
  second time (`BankRoutes.ValidateMovesShare`). `POST /api/instructor/collect-payment` checks both and
  moves nothing (`InstructorRoutes.CollectPayment`). Each refuses a record the other confirmed
  (`InstructorRoutes.CollectThenValidateRefused`, `InstructorRoutes.ValidateThenCollectRefused`).
- A transfer to oneself grows the balance (`BankRoutes.TransferToSelfMints`).
- Reactivating a course through an update can pass the five-course limit
  (`CourseRoutes.ReactivationPassesLimit`).
- The quiz score counts answers, not distinct questions, so ten copies of one right answer pass
  (`LearnerRoutes.ScoreCountsRepeats`).
- Resetting statuses brings collected payments back into the earnings summary
  (`StatusReset.ResetCountsCollected`).

Files:
- `wrappers.dfy`: `Option` and the first-match lookup.
- `text.dfy`: trim, lower-casing and the case-insensitive title match.
- Documents and their schema rules: `bank_account.dfy`, `transaction.dfy`, `course.dfy` and
  `quiz_attempt.dfy`.
- `money.dfy`: the total of all balances.
- `lms.dfy`: the state, the errors, guard order, the ledger invariant, the active-course count and the
  enrolment lookups.
- One file per route group: `bank_routes.dfy`, `learner_routes.dfy`, `instructor_routes.dfy`,
  `course_routes.dfy` and `admin_routes.dfy`.
- `status_reset.dfy`: the maintenance script.
- `edit_course.dfy`: the course editor's checks.

## Model

| member | source | states |
|---|---|---|
| Lms.FirstFailureMeans | routes/bank.js:156-196 | A fail-fast guard chain reports the error of a failing guard that no earlier guard precedes, and reports nothing exactly when every guard passes |
| Lms.FirstFailureIs | routes/bank.js:156-196 | When guard i fails and no earlier one does, guard i's error is the one reported |
| Lms.NoFailure | routes/bank.js:156-196 | When no guard fails, no error is reported |
| Lms.EnsureLms | routes/learner.js:170-185 | Afterwards the LMS account exists. An existing one is left untouched. Otherwise only that account is added, with the given seed balance and the LMS kind |
| Lms.SaveKeepsAccountsOk | models/BankAccount.js:18-22 | Saving an account under its own number with a balance of at least 0 keeps every stored balance at least 0 |
| Lms.AppendKeepsAmountsOk | models/Transaction.js:18-22 | Appending records whose amounts are at least 0 keeps every amount in the collection at least 0 |
| Lms.FindEnrollment | routes/learner.js:301-303 | Finds the first enrolment for the course. It finds nothing exactly when no enrolment names the course |
| Lms.FindEnrollmentAppend | routes/learner.js:261-269 | Pushing an enrolment for another course does not move the lookup of any course |
| Lms.FindEnrollmentSameIds | routes/learner.js:322-325 | Setting an enrolment's completed flag does not move any lookup |
| Lms.ActiveCountUpdate | routes/courses.js:206-213 | Saving a course changes the count of active courses by the change in that course's isActive flag |
| Lms.ActiveCountAdd | routes/courses.js:141-161 | A new course raises the active count by one exactly when it is active |
| Lms.ActiveCountRemove | routes/courses.js:251 | Deleting a course lowers the active count by one exactly when it was active |
| Lms.AccountOfUser | routes/bank.js:268-272 | The caller's account is found exactly when the profile's pointer is set and names a stored account |
| BankAccount.PreSave | models/BankAccount.js:36-49 | The pre-save hook hashes the secret exactly when it was modified and changes no other field |
| BankAccount.NewAccount | routes/bank.js:31-40 | A new account stores the hash of the given secret and the given number, owner, holder, balance and kind |
| BankAccount.SaveBalance | routes/bank.js:198-203 | A balance-only save stores the new balance and keeps the number and the stored hash |
| BankAccount.BalanceSaveKeepsVerification | models/BankAccount.js:51-54 | After a balance-only save, every candidate secret verifies exactly as before |
| Transactions.NewTransaction | models/Transaction.js:4-32 | A new record gets the id prefix TXN- before the uuid, the pending status and validated false. It keeps the given parties, amount, type, course and user |
| Transactions.CompletedTransaction | routes/bank.js:206-215 | A record written with an explicit completed status is otherwise the schema's new record |
| Transactions.ParseTxKind | models/Transaction.js:23-27 | A request's type string is accepted exactly when it is one of the four enum values, and then names the kind whose value it is |
| Transactions.ParseKindName | models/Transaction.js:23-27 | Every kind's enum value parses back to that kind |
| Transactions.Find | routes/bank.js:252-259 | Finds the first record with the id. It finds nothing exactly when no record carries the id |
| Transactions.Filter | routes/instructor.js:355-361 | The query's result holds only matching records of the collection, and every matching record appears in it |
| Transactions.SumIfNonNegative | models/Transaction.js:18-22 | With amounts of at least 0, every sum over a condition is at least 0 |
| Text.TrimStart | routes/instructor.js:116 | Drops exactly the leading white space and leaves a suffix of the input |
| Text.TrimEnd | routes/instructor.js:116 | Drops exactly the trailing white space and leaves a prefix of the input |
| Text.TrimIsSlice | routes/instructor.js:116 | The trimmed title is a slice of the input with only white space cut at either end |
| Text.TrimBounds | routes/instructor.js:116 | The trimmed text lies between two positions of the input, with only white space before the first and after the second |
| Text.TrimIdempotent | models/Course.js:4-8 | The schema's trim setter is stable: trimming a trimmed title changes nothing |
| Text.Lower | client/src/pages/instructor/EditCourse.js:208 | Lower-casing keeps the length and maps each character on its own |
| Text.NormIdempotent | client/src/pages/instructor/EditCourse.js:207-209 | Normalising with trim then toLowerCase is stable, so comparing normalised keys again gives the same answer |
| Text.TitleMatchesIsSameText | routes/instructor.js:114-117 | Against a stored trimmed title, the anchored case-insensitive regex match is the same relation as equal trimmed lower-cased text |
| Courses.ParseMaterialKind | models/Course.js:27-32 | A material type is accepted exactly when it is one of text, audio, video or mcq, and it maps to that kind |
| Courses.NewCourse | routes/courses.js:150-159 | A new course has the trimmed title and the given price and owner. It is active, with no materials, students or questions, and the category and duration default when empty |
| Courses.NewCourseValid | models/Course.js:3-26 | A new course passes the schema exactly when its trimmed title, description and instructor name are non-empty and its price is at least 0 |
| Courses.SetTitle | models/Course.js:4-8 | Assigning a title stores its trim, which is its own trim, and changes no other field |
| Courses.PullMaterial | routes/instructor.js:788 | Pulling an id leaves no material with that id |
| Courses.PullRemovesOnlyThat | routes/instructor.js:783-789 | With unique ids, pulling one material's id removes exactly that material and keeps the rest in order |
| Courses.FindQuestion | routes/learner.js:464 | The lookup returns a question of the course carrying the id, and none exactly when no question carries it |
| CourseRoutes.CreateCourse | routes/courses.js:130-180 | Succeeds exactly when title, description and price are given, fewer than five courses are active and the schema accepts the course. Each failure carries its own error and changes nothing. On success the course is stored and its id is appended to the creator's uploaded courses. No other user, no other field of the creator's profile, and no account, record, certificate or attempt changes |
| CourseRoutes.CreateKeepsCourseLimit | routes/courses.js:141-148 | Creating a course never takes the active count past five |
| CourseRoutes.ApplyFields | routes/courses.js:204-211 | An update assigns only truthy fields (non-empty strings, a non-zero price) and isActive whenever it is given. Every other field is kept |
| CourseRoutes.UpdateFields | routes/courses.js:185-227 | Only the owner's update of an existing course that still passes the schema succeeds. It stores exactly the course with the truthy fields applied, replaces only that course, and keeps its id, owner, materials, questions and students |
| CourseRoutes.UpdateIgnoresZeroPrice | routes/courses.js:208 | A price of 0 is falsy and leaves the stored price unchanged |
| CourseRoutes.ReactivationPassesLimit | routes/courses.js:211 | Reactivating an inactive course through an update is accepted and raises the active count by one, whatever the count was |
| CourseRoutes.Without | routes/courses.js:253-256 | The pull removes every occurrence of the id and keeps every other entry |
| CourseRoutes.DeleteCourse | routes/courses.js:232-269 | Only the owner deletes. The course leaves the catalogue and the owner's uploads. The owner's profile changes only in its uploads, with every occurrence of the id removed. Accounts, records, certificates, attempts and other users are untouched |
| CourseRoutes.DeleteKeepsCourseLimit | routes/courses.js:251 | Deleting never raises the active count |
| CourseRoutes.AddMaterial | routes/courses.js:274-327 | Succeeds exactly when the owner supplies a type and title, the type is one of the four kinds and the content is non-empty. The material is appended to that course alone |
| CourseRoutes.AddThenDeleteMaterial | routes/courses.js:302-313 | Adding a material under a fresh id and then deleting it through the instructor route restores the state exactly |
| CourseRoutes.Materials | routes/courses.js:332-365 | The materials are returned exactly to an enrolled student or to the instructor |
| CourseRoutes.PurchaseGrantsMaterials | routes/learner.js:271-274 | After a successful purchase the buyer may read the course's materials |
| BankRoutes.CreateAccount | routes/bank.js:11-64 | Succeeds exactly when number and secret are given and the number is unused, replying with the number and the 10000 opening balance. A failure changes nothing |
| BankRoutes.CreateAccountEffect | routes/bank.js:31-46 | The new account holds 10000, is a user account owned by the caller and verifies against the hash of the secret. The caller's pointer names it, nothing else changes and the total grows by 10000 |
| BankRoutes.CreateAccountTwiceFails | routes/bank.js:22-29 | Opening the same account number again, by anyone, is refused |
| BankRoutes.CreateAccountKeepsLedgerOk | models/BankAccount.js:18-22 | Account creation keeps every stored balance and amount at least 0 |
| BankRoutes.Transfer | routes/bank.js:152-236 | A success needs both accounts, a positive amount, a type in the enum (or none) and a course id that is an ObjectId (or none). It replies with the amount and the sender's new balance, which is at least 0 |
| BankRoutes.TransferReportsFirstFailure | routes/bank.js:156-196 | A failing guard's error is the reply and the state is unchanged. When all guards pass, the transfer succeeds exactly when the amount is positive and the record's type and course id pass the schema |
| BankRoutes.TransferConserves | routes/bank.js:198-217 | Between two different accounts: the sender is debited and the receiver credited by the amount, the total is unchanged, no other account changes, and one completed record is appended carrying the requested type (a course purchase when none is given) and course id |
| BankRoutes.TransferKeepsLedgerOk | routes/bank.js:198-217 | Whatever the reply, every stored balance and amount stays at least 0 |
| BankRoutes.TransferToSelfMints | routes/bank.js:199-203 | A transfer from an account to itself raises its balance and the total by the amount |
| BankRoutes.TransferRefusedRecordMovesMoney | routes/bank.js:199-217 | When every guard passes but the record's type or course id fails the schema, the reply is a server error, yet both balances have moved and no record is written |
| BankRoutes.Validate | routes/bank.js:241-339 | A success needs an existing record not yet validated, and pays 70% of its amount. A failure other than a failed save changes nothing |
| BankRoutes.ValidateReportsFirstFailure | routes/bank.js:245-311 | A failing guard's error is the reply and the state is unchanged. When all guards pass, validation succeeds |
| BankRoutes.ValidateKeepsLedgerOk | routes/bank.js:313-324 | Whatever the reply, every stored balance and amount stays at least 0 |
| BankRoutes.ValidateAtMostOnce | routes/bank.js:261-266 | Right after a successful validation the same request is refused as already validated |
| BankRoutes.ValidateMovesShare | routes/bank.js:302-324 | The LMS pays 70% of the record's amount to the caller's account, keeping the total when the two differ. Only that record changes, and only in its flag and status |
| InstructorRoutes.PayForUpload | routes/instructor.js:184-224 | Nothing is paid exactly when the LMS holds less than 5000. Otherwise the LMS pays 5000 to the instructor, no other account changes, and one completed upload-payment record is appended |
| InstructorRoutes.Publish | routes/instructor.js:155-182 | After the course is stored, a missing LMS account is created with 30000. A missing instructor account then fails with that creation kept. On success nothing is paid exactly when the LMS holds less than 5000. Otherwise the LMS pays 5000 into the instructor's account, no other account changes, and one completed upload-payment record for the course is appended |
| InstructorRoutes.StoreAndPublish | routes/instructor.js:134-153 | The built course passes the schema, is stored with the trimmed title and its id is appended to the instructor's uploaded courses. No other user or profile field changes, whatever the reply, and certificates and attempts never change. On success the upload payment is made exactly as `Publish` states it. Failures append no record |
| InstructorRoutes.Store | routes/instructor.js:148-153 | Saves the course and appends its id to the owner's uploaded courses. The users stay the same, every other profile and every other field of the owner's is unchanged, and nothing outside courses and users changes |
| InstructorRoutes.UploadCourse | routes/instructor.js:93-232 | A success needs fewer than five active courses and no course of the instructor matching the title. It stores an active, valid course, changes the catalogue only by that course, and appends its id to the instructor's uploaded courses with no other user or profile field changed. The LMS then pays the instructor 5000 with one completed record exactly when it holds that much, and otherwise nothing is paid. Certificates and attempts never change. Guard failures change nothing |
| InstructorRoutes.UploadGuardIsFirstFailure | routes/instructor.js:97-132 | The upload's guard chain reports like the ordered guard list: missing fields, the course limit, a duplicate title, then no bank account |
| InstructorRoutes.UploadReportsFirstFailure | routes/instructor.js:97-132 | A failing upload guard's error is the reply and the state is unchanged |
| InstructorRoutes.UploadConserves | routes/instructor.js:155-192 | The upload payment only moves money between the LMS and the instructor. The total grows exactly by the 30000 of an LMS account the upload created |
| InstructorRoutes.PublishKeepsLedgerOk | routes/instructor.js:155-206 | Publishing keeps every stored balance and amount at least 0 |
| InstructorRoutes.PayKeepsLedgerOk | routes/instructor.js:187-206 | The upload payment saves only balances of at least 0 and a record of 5000 |
| InstructorRoutes.UploadKeepsCourseLimit | routes/instructor.js:104-111 | Uploading never takes the active count past five |
| InstructorRoutes.CollectPayment | routes/instructor.js:237-338 | A success needs an unvalidated sale-payment record of the caller's own course. Only that record is marked validated, no money moves, and the reply carries its amount and the unchanged balance. A failure changes nothing |
| InstructorRoutes.CollectReportsFirstFailure | routes/instructor.js:242-313 | A failing guard's error is the reply. When all guards pass, the collection succeeds |
| InstructorRoutes.FindAfterUpdate | routes/instructor.js:320-323 | Updating a record in place keeps the lookup of its id at the same position |
| InstructorRoutes.CollectThenValidateRefused | routes/instructor.js:265-270 | Once a payment is collected, a second collection is refused as already collected and the bank's validation as already validated |
| InstructorRoutes.ValidateThenCollectRefused | routes/instructor.js:258-270 | Once the bank validated a record, collecting it is refused: as the wrong type for a record that is not a sale payment, otherwise as already collected |
| InstructorRoutes.InstructorEarnings | routes/instructor.js:343-394 | Without a bank pointer the request fails. Otherwise it reports the sums of the caller's completed upload and sale payments, their total and the balance (0 when the account is gone). It lists every stored upload or sale record of the caller, whatever its status, and nothing else |
| InstructorRoutes.EarningsOverMine | routes/instructor.js:355-370 | Summing the filtered records is summing the whole collection under the combined condition |
| InstructorRoutes.CollectLowersReportedEarnings | routes/instructor.js:363-370 | Collecting a completed sale payment of the caller removes its amount from the reported course payments |
| InstructorRoutes.PurchaseCreditsEarnings | routes/learner.js:233-243 | A sale raises the instructor's reported course payments by exactly 70% of the price and leaves the reported upload payments unchanged |
| InstructorRoutes.PendingPayments | routes/instructor.js:399-424 | Lists exactly the unvalidated sale payments of the caller's courses |
| InstructorRoutes.CollectLeavesPending | routes/instructor.js:406-410 | A collected payment was pending and no longer is. No other record changes |
| InstructorRoutes.AddQuizQuestion | routes/instructor.js:492-520 | Succeeds exactly when a question, four options and an answer are given, the caller owns the course and the schema accepts the answer index 0..3. The question is appended to that course only |
| InstructorRoutes.AddedQuestionIsGraded | routes/learner.js:461-466 | A question added under a fresh id is the one the quiz lookup finds, and an answer to it is right exactly when it picks the stored correct answer |
| InstructorRoutes.ApplyEdit | routes/instructor.js:752-757 | Strings are assigned only when non-empty and the price whenever it is given. Every other field is kept |
| InstructorRoutes.UpdateCourse | routes/instructor.js:723-766 | Succeeds exactly when the owner edits an existing course, a changed title matches no other course of the owner, and the edited course passes the schema. It stores exactly the course with the supplied fields applied and replaces only that course |
| InstructorRoutes.UpdateKeepsOwnTitlesDistinct | routes/instructor.js:738-750 | With stored titles trimmed, a successful edit keeps the owner's titles pairwise different up to white space and case |
| InstructorRoutes.ReplaceKeepsOwnTitlesDistinct | routes/instructor.js:738-757 | Replacing an owner's course by one whose title no other course of the owner has keeps the titles pairwise different |
| InstructorRoutes.UnmatchedIsDifferent | routes/instructor.js:738-744 | A trimmed stored title that the requested one does not match differs from the title the request stores |
| InstructorRoutes.UpdateAppliesZeroPrice | routes/instructor.js:754 | This handler stores a supplied price of 0 |
| InstructorRoutes.DeleteMaterial | routes/instructor.js:771-796 | Succeeds exactly when the owner names an existing material. Afterwards no material with that id remains, and the state differs only in that course's materials, pulled by the id. Each failure carries its own error and changes nothing |
| InstructorRoutes.DeleteMaterialRemovesOnlyThat | routes/instructor.js:783-789 | With unique ids, deleting a material removes exactly that one and keeps the others in order |
| LearnerRoutes.SaleRecords | routes/learner.js:220-259 | A sale writes three completed records: learner to LMS for the price, LMS to instructor for 70%, LMS to itself for 30% |
| LearnerRoutes.Purchase | routes/learner.js:91-288 | A success needs an existing course the learner is not enrolled in, and replies with the balance less the price. It appends the enrolment and the student and touches no certificate. A failure before the LMS lookup changes nothing |
| LearnerRoutes.Checkout | routes/learner.js:133-205 | With the learner's account, secret and balance confirmed, the sale goes through or fails. Only failures on the instructor or a save leave a change (the created LMS account or partial saves) |
| LearnerRoutes.Sell | routes/learner.js:207-274 | The sale succeeds exactly when no balance save would go negative and the price is at least 0. It then stores the three saves, the three records, the enrolment and the student |
| LearnerRoutes.SaveSale | routes/learner.js:211-218 | The three saves go through exactly when the instructor's and the LMS's new balances are at least 0. A learner who can pay keeps every balance at least 0 |
| LearnerRoutes.PurchaseReportsFirstFailure | routes/learner.js:96-205 | On a consistent ledger and catalogue, a failing guard's error is the reply, and when no guard fails the purchase succeeds |
| LearnerRoutes.PurchaseRequestGuards | routes/learner.js:96-131 | A failure on the secret, the course, the enrolment or the bank pointer is the reply and changes nothing |
| LearnerRoutes.PurchaseLearnerGuards | routes/learner.js:133-168 | A failure on the learner's account, secret or balance is the reply and changes nothing |
| LearnerRoutes.PurchaseInstructorGuards | routes/learner.js:170-205 | The instructor guards report in order after the LMS lookup, and when they pass the purchase succeeds |
| LearnerRoutes.PurchaseGoesThrough | routes/learner.js:207-218 | With every guard passed on a consistent ledger and catalogue, no save fails |
| LearnerRoutes.PurchaseCreatesLmsBeforeInstructorCheck | routes/learner.js:170-194 | A purchase failing on the instructor's account still leaves a created LMS account with balance 0 and no other account change |
| LearnerRoutes.PurchaseSplit | routes/learner.js:207-218 | The learner is debited the price, the instructor credited 70% and the LMS 30%, and no other account changes. For three different accounts the total is unchanged |
| LearnerRoutes.SaleSaves | routes/learner.js:211-218 | The sale's saves touch only the three accounts and keep the set of accounts |
| LearnerRoutes.SaleSavesConserve | routes/learner.js:207-214 | On three different accounts the saves move the price from the learner, 70% to the instructor and 30% to the LMS, and keep the total |
| LearnerRoutes.PurchaseKeepsLedgerOk | routes/learner.js:170-259 | Whatever the reply, every stored balance and amount stays at least 0 |
| LearnerRoutes.CheckoutKeepsLedgerOk | routes/learner.js:170-218 | The created LMS account starts at 0 and the sale saves nothing negative |
| LearnerRoutes.SellKeepsLedgerOk | routes/learner.js:211-259 | A sale by a learner who can pay keeps every stored balance and amount at least 0 |
| LearnerRoutes.PurchaseRecords | routes/learner.js:220-259 | A success appends exactly the three sale records in order. The purchase amount equals the payment plus the commission |
| LearnerRoutes.PurchaseTwiceFails | routes/learner.js:112-123 | Buying the same course again is refused as already enrolled |
| LearnerRoutes.Complete | routes/learner.js:293-354 | Succeeds exactly when the caller has an uncompleted enrolment, the course exists and the name and title are non-empty, and issues a certificate for the pair. A deleted course still leaves the enrolment completed. On success or a server error the caller's first enrolment for the course is the one marked completed, and nothing but the users and the certificates changes |
| LearnerRoutes.MarkCompletedKeeps | routes/learner.js:322-325 | Marking an enrolment completed keeps every completed enrolment completed |
| LearnerRoutes.CompleteKeepsCertificatesOk | routes/learner.js:305-336 | Completion keeps certificates unique per learner and course, and each backed by a completed enrolment |
| LearnerRoutes.QuizQuestions | routes/learner.js:410-446 | Serves exactly when the course exists, the caller is enrolled and it has at least ten questions. Ten distinct questions are served in shuffled order, without answers and with their positions. Each failure carries its own error |
| LearnerRoutes.Grade | routes/learner.js:461-473 | Each answer is recorded as correct exactly when the first question with its id has that correct answer. Unknown ids are wrong |
| LearnerRoutes.FirstQuestion | routes/learner.js:464 | The question lookup returns the first question with the id |
| LearnerRoutes.ScoreCountsCorrect | routes/learner.js:462-466 | The score is the number of answers recorded as correct |
| LearnerRoutes.GradeCounts | routes/learner.js:461-475 | The score of a submission is the number of right answers in it |
| LearnerRoutes.SubmitQuiz | routes/learner.js:451-528 | A submission never changes accounts, records or courses. It records one valid attempt whose score is the number of right answers (at most ten) and which passes at eight. A fail changes nothing else. A pass marks the caller's first enrolment for the course completed when it was not, and then issues the caller's certificate for the course unless the pair has one. With no uncompleted enrolment a pass changes nothing but the attempts. A server error after the attempt is saved happens only when the certificate lacks a name or a title |
| LearnerRoutes.CompleteOnPass | routes/learner.js:489-515 | Without an uncompleted first enrolment the state is unchanged. Otherwise that enrolment is marked completed. An existing certificate for the pair means none is added. With none, the step succeeds exactly when the learner's name and the course title are non-empty, and then appends the certificate naming the learner and the course |
| LearnerRoutes.ScoreCountsRepeats | routes/learner.js:462-475 | For a learner with a name and a course with a title, ten copies of one right answer are accepted, score ten and pass |
| LearnerRoutes.SubmitKeepsCertificatesOk | routes/learner.js:489-515 | A submission keeps certificates unique per learner and course, and each backed by a completed enrolment |
| LearnerRoutes.CompleteOnPassKeepsCertificatesOk | routes/learner.js:493-513 | The pass branch keeps certificates unique and backed |
| LearnerRoutes.MarkKeepsCertificatesOk | routes/learner.js:489-496 | Marking the learner's first enrolment for a course completed keeps certificates unique per learner and course and backed by a completed enrolment, and the pair is then completed |
| LearnerRoutes.AppendCertificateKeepsOk | routes/learner.js:498-512 | Saving a certificate for a completed pair that has none keeps certificates unique and backed |
| LearnerRoutes.PurchaseKeepsCertificatesOk | routes/learner.js:261-269 | A purchase keeps certificates unique and backed, since it only adds an enrolment for a course the learner had none for |
| AdminRoutes.LmsBalance | routes/admin.js:12-38 | Replies with the LMS balance exactly when the account exists, otherwise not found, and changes nothing |
| AdminRoutes.StatsShowLmsBalance | routes/admin.js:118 | The statistics show the balance the balance endpoint reports, and 0 when it reports the LMS account missing |
| AdminRoutes.Cap | routes/admin.js:54 | A cursor limit of 0 returns everything. Any other limit returns at most its absolute value of rows |
| AdminRoutes.Window | routes/admin.js:45-56 | The matching records, newest first, cut to the limit, all of them records of the collection |
| AdminRoutes.Tally | routes/admin.js:58-75 | Revenue and courses sold are the sum and count of purchases. Instructor payments and commission are the sums of their kinds |
| AdminRoutes.BucketsPartition | routes/admin.js:66-75 | The three sums together are the sum of every record that is not an upload payment |
| AdminRoutes.RecentTransactions | routes/admin.js:43-90 | The window defaults to fifty rows: at most fifty, and fifty when that many match. The statistics are computed over the returned rows and the count is their number |
| AdminRoutes.DefaultWindow | routes/admin.js:45 | Without a limit, at most fifty rows come back, and exactly fifty when that many match |
| AdminRoutes.UsersWithRole | routes/admin.js:104-105 | Exactly the users with the role |
| AdminRoutes.Stats | routes/admin.js:95-128 | Counts instructors, learners, courses and active courses. The LMS balance is the one the balance endpoint reports, and 0 when the account is missing |
| AdminRoutes.StatsConsistent | routes/admin.js:97-119 | Active courses are at most all courses, instructors plus learners at most all users, and the shown balance is at least 0 |
| StatusReset.Reset | fix_pending_transactions.js:35-43 | A selected record becomes completed and any other is unchanged. Only the status changes |
| StatusReset.ResetAll | fix_pending_transactions.js:35-43 | The update applies the reset to every record in place |
| StatusReset.FixPending | fix_pending_transactions.js:10-48 | The summary counts pending, completed and validated instructor payments. Afterwards none is pending or validated, only statuses changed, and the modified count is the number selected |
| StatusReset.SelectedAreCounted | fix_pending_transactions.js:22-38 | The update selects exactly the records the pending and validated counts count |
| StatusReset.NoneSelected | fix_pending_transactions.js:31-47 | With both counts zero, no record needs resetting, so skipping the update is sound |
| StatusReset.FixPendingIdempotent | fix_pending_transactions.js:31-48 | A second run finds nothing to fix and changes nothing |
| StatusReset.ResetCountsCollected | fix_pending_transactions.js:35-43 | After the reset, every instructor payment of a caller that has not failed counts in the earnings summary |
| EditCourse.AddQuestion | client/src/pages/instructor/EditCourse.js:199-228 | Queues the draft exactly when it is complete and neither its text nor its options match a course or queued question, then resets the form. Otherwise it reports which check refused it |
| EditCourse.AddQuestionKeepsTextsDistinct | client/src/pages/instructor/EditCourse.js:204-213 | Queueing keeps the texts of the course's and the queued questions pairwise different |
| EditCourse.AddQuestionTwiceRefused | client/src/pages/instructor/EditCourse.js:204-213 | The same question queued a second time is refused on its text |
| EditCourse.RemoveAt | client/src/pages/instructor/EditCourse.js:230 | Removing an index in range drops exactly that element and keeps the order. Any other index changes nothing |
| EditCourse.RemoveKeepsTextsDistinct | client/src/pages/instructor/EditCourse.js:230 | Removing a queued question keeps the texts pairwise different |
| EditCourse.RemoveAtKeepsPairwise | client/src/pages/instructor/EditCourse.js:230 | A relation between every earlier and later element survives a removal |
| EditCourse.CanSubmit | client/src/pages/instructor/EditCourse.js:233-242 | The form submits exactly when the course's and queued questions number at least ten |
| EditCourse.AddThenRemoveQuestion | client/src/pages/instructor/EditCourse.js:226-242 | Removing the question just queued restores the queue exactly, and the gate counts it once while it is queued |
| EditCourse.AddMedia | client/src/pages/instructor/EditCourse.js:137-160 | Queues the file exactly when one is chosen, its content is not already queued and no saved material has its shown title. No file is reported exactly when none is chosen |
| EditCourse.AddMediaKeepsHashesDistinct | client/src/pages/instructor/EditCourse.js:143-148 | Queued files keep pairwise different contents |
| EditCourse.RenamedCopyRefused | client/src/pages/instructor/EditCourse.js:143-148 | A renamed copy of a queued file is refused as the same content |

## Left out

- Concurrency: every handler runs to completion on its own. Interleavings of concurrent requests, and the stale-read double spend they allow, are not modelled.
- JavaScript numbers are modelled as reals. There is no floating-point rounding, so 0.7p + 0.3p is exactly p here.
- `parseInt` and `parseFloat` on malformed input (NaN) are not modelled. Numeric request fields are either a number or absent.
- `process.env` overrides of the commission rate and the upload payment are left out. The defaults 0.7 and 5000 are constants.
- The uuids, the ObjectIds and the `Date` fields are left out. Fresh ids are parameters, and timestamps are not modelled.
- bcrypt is left out: hashing and comparison are the function-valued `Hasher` parameter.
- `Math.random` in the quiz shuffle is left out: the shuffle is a supplied permutation, so the comparator-sort's bias is not modelled.
- Cloudinary, multer, thumbnails and the video, audio and textbook upload routes are file plumbing and are not modelled. The materials an upload form may carry are not modelled either: an uploaded course starts with none.
- Read-only endpoints that only list documents (my courses, students, certificates, the enrolled list, the instructor's quiz view, content and download) are not modelled.
- The admin's instructor, learner and course lists and the bank's account, balance and transaction listings are left out for the same reason.
- The instructor's delete-quiz-question route is not modelled. It is a plain subdocument pull, like the material pull that is modelled.
- The second registrations of `/pending-payments` and `/courses/:id/quiz` in routes/instructor.js are shadowed by the first, so they are not modelled.
- Authentication and role middleware are left out: the caller is a given user id.
- The seeding, admin-creation and test scripts, the server bootstrap and the React UI beyond the course editor's checks are not modelled.
- Mongo mechanics are not modelled: connection failures, indexes, populate, and a unique-index race on account numbers.
- Course ids in paths and bodies are taken to be well-formed ObjectIds. In the source, `Course.findById` on a malformed id throws a cast error, which the handler's catch turns into a 500. The handlers below answer course not found (404) for such an id instead, as for any absent id. Only the transfer models the ObjectId cast (`BankRoutes.Transfer`).
- LearnerRoutes.Purchase: a malformed course id answers course not found, not a server error.
- LearnerRoutes.QuizQuestions: a malformed course id answers course not found, not a server error.
- LearnerRoutes.SubmitQuiz: a malformed course id answers course not found, not a server error.
- CourseRoutes.UpdateFields: a malformed course id answers course not found, not a server error.
- CourseRoutes.DeleteCourse: a malformed course id answers course not found, not a server error.
- CourseRoutes.AddMaterial: a malformed course id answers course not found, not a server error.
- CourseRoutes.Materials: a malformed course id answers course not found, not a server error.
- InstructorRoutes.AddQuizQuestion: a malformed course id answers course not found, not a server error.
- InstructorRoutes.UpdateCourse: a malformed course id answers course not found, not a server error.
- InstructorRoutes.DeleteMaterial: a malformed course id answers course not found, not a server error.
- BankRoutes.Transfer: a request `type` that is not a string, and the 12-byte string form some drivers also cast to an ObjectId, are not modelled. A course id is accepted exactly when it is 24 hexadecimal digits.
- AdminRoutes.Window: "newest first" is taken as reverse insertion order. Records saved within the same instant, like the three records of one sale, have no defined order between them in the database.
- Regular-expression metacharacters in a course title are left out. `Text.TitleMatches` treats the title as literal text.
- Text.Lower: lower-cases ASCII letters only, where `toLowerCase` maps every Unicode letter.
- Text.IsSpace: lists the usual white-space characters, not every Unicode space separator that `trim` removes.
- CourseRoutes.DeleteCourse: enrolments, certificates and records that still name a deleted course are left dangling, as in the source, and no invariant about them is claimed.
- EditCourse.AddQuestion: requires every loaded and queued question to have four options, as the form builds them. The source would compare against missing options otherwise.
- EditCourse.AddMedia: the SHA-256 content hash is given with the file, not computed.
- InstructorRoutes.UploadConserves: requires the caller's account to differ from the LMS account. When they are the same, the second save overwrites the first and the total is not stated.
- BankRoutes.TransferConserves: requires two different accounts. The self-transfer case is `BankRoutes.TransferToSelfMints`.
- LearnerRoutes.PurchaseSplit: states conservation only when the learner's, the instructor's and the LMS account are three different accounts.
- LearnerRoutes.PurchaseReportsFirstFailure: requires stored balances and prices to be at least 0. Otherwise a save can still fail after every guard passed.
- BankRoutes.ValidateReportsFirstFailure: requires stored balances to be at least 0, for the same reason.
- LearnerRoutes.QuizQuestions: requires the supplied order to be a permutation of the course's questions.
- A user profile whose bank pointer was never set is taken to find no account, rather than matching an account stored without a number.

=== FILE: admin_routes.dfy ===
/** The admin handlers: the LMS balance, the recent-transactions window with its statistics, and
    the platform statistics. All of them only read. */
module AdminRoutes {
  import opened Wrappers
  import opened BankAccount
  import opened Transactions
  import opened Lms

  /** GET /api/admin/balance: the LMS account's balance, or not found. */
  function LmsBalance(cfg: Config, s: State): (r: Reply<real>)
    ensures r.st == s
    ensures r.Ok? <==> cfg.lmsAccount in s.accounts
    ensures r.Ok? ==> r.value == s.accounts[cfg.lmsAccount].balance
    ensures r.Err? ==> r.error == LmsAccountNotFound
  {
    if cfg.lmsAccount in s.accounts then Ok(s, s.accounts[cfg.lmsAccount].balance)
    else Err(s, LmsAccountNotFound)
  }

  // ---------------------------------------------------------------------------------------------
  // The transactions window

  /** The `type` query parameter: absent, one of the four kinds, or a string no record carries. */
  datatype TypeFilter = AllTypes | OnlyType(kind: TxKind) | UnknownType

  predicate Matches(f: TypeFilter, t: Transaction) {
    match f
    case AllTypes => true
    case OnlyType(k) => t.kind == k
    case UnknownType => false
  }

  /** Rows returned when the `limit` query parameter is absent. */
  const DefaultLimit: int := 50

  /** How many rows a cursor limit lets through: 0 means no limit, a negative limit counts like its
      absolute value. */
  function Cap(limit: int, available: nat): (n: nat)
    ensures n <= available
    ensures limit == 0 ==> n == available
    ensures limit != 0 ==> n == if available <= Abs(limit) then available else Abs(limit)
  {
    if limit == 0 || available <= Abs(limit) then available else Abs(limit)
  }

  function Abs(x: int): nat {
    if x < 0 then -x else x
  }

  /** The records of `ts` that match `f`, newest first, cut to the limit. Records are kept in
      insertion order, which is creation order. The element-wise clause is the definition of newest
      first: position k holds the k-th matching record counted from the end. */
  function Window(ts: seq<Transaction>, f: TypeFilter, limit: int): (r: seq<Transaction>)
    ensures var matching := Filter(ts, (t: Transaction) => Matches(f, t));
      && |r| == Cap(limit, |matching|)
      && forall k :: 0 <= k < |r| ==> r[k] == matching[|matching| - 1 - k]
    ensures forall k :: 0 <= k < |r| ==> Matches(f, r[k]) && r[k] in ts
  {
    var matching := Filter(ts, (t: Transaction) => Matches(f, t));
    seq(Cap(limit, |matching|), k requires 0 <= k < Cap(limit, |matching|) => matching[|matching| - 1 - k])
  }

  /** The four statistics of the window. */
  datatype TxStats = TxStats(totalRevenue: real, instructorPayments: real, lmsCommission: real, totalCoursesSold: nat)

  function OfKind(k: TxKind): Transaction -> bool {
    (t: Transaction) => t.kind == k
  }

  /** The handler's one pass over the window: each record goes to the bucket of its type, and an
      upload payment goes to none. */
  function Tally(ts: seq<Transaction>): (r: TxStats)
    ensures r.totalRevenue == SumIf(ts, OfKind(CoursePurchase))
    ensures r.totalCoursesSold == CountIf(ts, OfKind(CoursePurchase))
    ensures r.instructorPayments == SumIf(ts, OfKind(InstructorPayment))
    ensures r.lmsCommission == SumIf(ts, OfKind(LmsCommission))
  {
    if |ts| == 0 then TxStats(0.0, 0.0, 0.0, 0)
    else
      var r := Tally(ts[..|ts| - 1]);
      var t := ts[|ts| - 1];
      match t.kind
      case CoursePurchase => r.(totalRevenue := r.totalRevenue + t.amount, totalCoursesSold := r.totalCoursesSold + 1)
      case InstructorPayment => r.(instructorPayments := r.instructorPayments + t.amount)
      case LmsCommission => r.(lmsCommission := r.lmsCommission + t.amount)
      case CourseUploadPayment => r
  }

  /** Every record counts in at most one bucket and upload payments in none: the three sums
      together are the sum of the amounts of every record that is not an upload payment. */
  lemma {:induction false} BucketsPartition(ts: seq<Transaction>)
    ensures var r := Tally(ts);
      r.totalRevenue + r.instructorPayments + r.lmsCommission
        == SumIf(ts, (t: Transaction) => t.kind != CourseUploadPayment)
    decreases |ts|
  {
    if |ts| > 0 {
      BucketsPartition(ts[..|ts| - 1]);
    }
  }

  datatype TxReport = TxReport(transactions: seq<Transaction>, stats: TxStats, count: nat)

  /** GET /api/admin/transactions?limit&type. */
  function RecentTransactions(s: State, limit: Option<int>, f: TypeFilter): (r: Reply<TxReport>)
    ensures r.Ok? && r.st == s
    ensures r.value.transactions == Window(s.txns, f, if limit.Some? then limit.value else DefaultLimit)
    ensures r.value.count == |r.value.transactions|
    ensures r.value.stats.totalRevenue == SumIf(r.value.transactions, OfKind(CoursePurchase))
    ensures r.value.stats.totalCoursesSold == CountIf(r.value.transactions, OfKind(CoursePurchase))
    ensures r.value.stats.instructorPayments == SumIf(r.value.transactions, OfKind(InstructorPayment))
    ensures r.value.stats.lmsCommission == SumIf(r.value.transactions, OfKind(LmsCommission))
    ensures limit.None? ==> && |r.value.transactions| <= DefaultLimit
                            && (|Filter(s.txns, (t: Transaction) => Matches(f, t))| >= DefaultLimit
                                ==> |r.value.transactions| == DefaultLimit)
  {
    var w := Window(s.txns, f, if limit.Some? then limit.value else DefaultLimit);
    Ok(s, TxReport(w, Tally(w), |w|))
  }

  /** Without a limit parameter at most 50 rows come back, and exactly 50 when that many match. */
  lemma DefaultWindow(s: State, f: TypeFilter)
    ensures var w := RecentTransactions(s, None, f).value.transactions;
            var matching := Filter(s.txns, (t: Transaction) => Matches(f, t));
      && |w| <= 50
      && (|matching| >= 50 ==> |w| == 50)
  {
  }

  // ---------------------------------------------------------------------------------------------
  // Platform statistics

  datatype PlatformStats = PlatformStats(totalInstructors: nat, totalLearners: nat, totalCourses: nat,
                                         activeCourses: nat, lmsBalance: real)

  function UsersWithRole(users: map<string, User>, role: Role): (r: set<string>)
    ensures forall uid :: uid in r <==> uid in users && users[uid].role == role
  {
    set uid | uid in users && users[uid].role == role
  }

  /** GET /api/admin/stats. A missing LMS account shows a balance of 0. */
  function Stats(cfg: Config, s: State): (r: Reply<PlatformStats>)
    ensures r.Ok? && r.st == s
    ensures r.value.lmsBalance == if cfg.lmsAccount in s.accounts then s.accounts[cfg.lmsAccount].balance else 0.0
    ensures r.value.totalCourses == |s.courses| && r.value.activeCourses == ActiveCount(s.courses)
    ensures r.value.totalInstructors == |UsersWithRole(s.users, Instructor)|
    ensures r.value.totalLearners == |UsersWithRole(s.users, Learner)|
    ensures LmsBalance(cfg, s).Ok? ==> r.value.lmsBalance == LmsBalance(cfg, s).value
  {
    Ok(s, PlatformStats(|UsersWithRole(s.users, Instructor)|, |UsersWithRole(s.users, Learner)|, |s.courses|,
                        ActiveCount(s.courses),
                        if cfg.lmsAccount in s.accounts then s.accounts[cfg.lmsAccount].balance else 0.0))
  }

  /** The balance endpoint and the statistics agree: the statistics show the LMS balance when the
      balance endpoint finds the account, and 0 when it reports the account missing. */
  lemma StatsShowLmsBalance(cfg: Config, s: State)
    ensures var b := LmsBalance(cfg, s);
      && (b.Ok? ==> Stats(cfg, s).value.lmsBalance == b.value)
      && (b.Err? ==> b.error == LmsAccountNotFound && Stats(cfg, s).value.lmsBalance == 0.0)
  {
  }

  /** A set inside another is no larger. */
  lemma {:induction false} SubsetSize(a: set<string>, b: set<string>)
    requires a <= b
    ensures |a| <= |b|
    decreases a
  {
    if a != {} {
      var x :| x in a;
      SubsetSize(a - {x}, b - {x});
    }
  }

  /** The counts agree with each other: active courses are among the courses, instructors and
      learners are different users, and the balance shown is never negative on a consistent ledger. */
  lemma StatsConsistent(cfg: Config, s: State)
    requires LedgerOk(s)
    ensures var st := Stats(cfg, s).value;
      && st.activeCourses <= st.totalCourses
      && st.totalInstructors + st.totalLearners <= |s.users|
      && st.lmsBalance >= 0.0
  {
    SubsetSize(ActiveIds(s.courses), s.courses.Keys);
    var ins, lrn := UsersWithRole(s.users, Instructor), UsersWithRole(s.users, Learner);
    assert ins * lrn == {};
    SubsetSize(ins + lrn, s.users.Keys);
  }
}

=== FILE: bank_account.dfy ===
/** The bank-account document: a balance that may not go negative, a salted-hash secret that is
    re-hashed only when it changes, and an account kind from a fixed set. */
module BankAccount {
  import opened Wrappers

  type AccountNo = string

  /** A stored secret after hashing. */
  type Digest = string

  datatype AccountKind = UserKind | LmsKind | InstructorKind

  const DefaultKind: AccountKind := UserKind

  /** Opening balance of every account created through bank set-up. */
  const DefaultBalance: real := 10000.0

  datatype Account = Account(
    number: AccountNo,
    owner: Option<string>,
    holder: string,
    balance: real,
    secret: Digest,
    kind: AccountKind)

  /** The salted slow hash and its comparison, supplied from outside the model. */
  datatype Hasher = Hasher(hash: string -> Digest, verify: (string, Digest) -> bool)

  /** An account about to be saved, with whether its secret path was assigned since loading. */
  datatype Draft = Draft(account: Account, secretModified: bool)

  /** The pre-save hook: hash the secret if and only if it was modified; every other field is kept. */
  function PreSave(h: Hasher, d: Draft): (a: Account)
    ensures a.(secret := d.account.secret) == d.account
    ensures d.secretModified ==> a.secret == h.hash(d.account.secret)
    ensures !d.secretModified ==> a == d.account
  {
    if d.secretModified then d.account.(secret := h.hash(d.account.secret)) else d.account
  }

  /** `verifySecret`: compare a candidate with the stored hash; the account is not touched. */
  predicate VerifySecret(h: Hasher, a: Account, candidate: string) {
    h.verify(candidate, a.secret)
  }

  /** A freshly constructed account; `new BankAccount({...})` followed by its first save. */
  function NewAccount(h: Hasher, number: AccountNo, owner: Option<string>, holder: string,
                      plainSecret: string, balance: real, kind: AccountKind): (a: Account)
    ensures a.number == number && a.owner == owner && a.holder == holder
    ensures a.balance == balance && a.kind == kind
    ensures a.secret == h.hash(plainSecret)
  {
    PreSave(h, Draft(Account(number, owner, holder, balance, plainSecret, kind), true))
  }

  /** Loading an account, changing its balance and saving it: the secret path is not modified. */
  function SaveBalance(h: Hasher, a: Account, newBalance: real): (r: Account)
    ensures r.number == a.number && r.secret == a.secret && r.balance == newBalance
  {
    PreSave(h, Draft(a.(balance := newBalance), false))
  }

  /** A balance-only save leaves verification answering exactly as before, for every candidate. */
  lemma BalanceSaveKeepsVerification(h: Hasher, a: Account, newBalance: real, candidate: string)
    ensures VerifySecret(h, SaveBalance(h, a, newBalance), candidate) <==> VerifySecret(h, a, candidate)
  {
  }

  /** The schema's validators on the fields the ledger changes: a required number and `min: 0` on the balance. */
  predicate Valid(a: Account) {
    a.number != "" && a.balance >= 0.0
  }
}

=== FILE: bank_routes.dfy ===
/** The bank handlers: account creation (also reached through the learner's bank set-up),
    the generic authenticated transfer, and the payment validation that re-transfers the
    instructor's share from the LMS account. */
module BankRoutes {
  import opened Wrappers
  import opened BankAccount
  import opened Transactions
  import opened Lms
  import Money

  datatype Created = Created(accountNumber: AccountNo, balance: real)

  /** POST /account (and POST /bank-setup): open an account with the demo balance for the caller
      and point the caller's profile at it. */
  function CreateAccount(cfg: Config, s: State, caller: string, accountNumber: AccountNo, secret: string): (r: Reply<Created>)
    requires caller in s.users
    ensures r.Err? ==> r.st == s
    ensures r.Ok? <==> accountNumber != "" && secret != "" && accountNumber !in s.accounts
    ensures r.Ok? ==> r.value == Created(accountNumber, DefaultBalance)
  {
    if accountNumber == "" || secret == "" then Err(s, MissingAccountFields)
    else if accountNumber in s.accounts then Err(s, AccountExists)
    else
      var u := s.users[caller];
      var a := NewAccount(cfg.hasher, accountNumber, Some(caller), u.name, secret, DefaultBalance, DefaultKind);
      var s' := s.(accounts := s.accounts[accountNumber := a],
                   users := s.users[caller := u.(bankAccount := accountNumber, bankSetup := true)]);
      Ok(s', Created(accountNumber, a.balance))
  }

  /** A created account holds 10000, is a user account, verifies against the hash of the given secret,
      and the caller's pointer names it; nothing else changes, and the ledger grows by 10000. */
  lemma CreateAccountEffect(cfg: Config, s: State, caller: string, accountNumber: AccountNo, secret: string)
    requires caller in s.users
    requires CreateAccount(cfg, s, caller, accountNumber, secret).Ok?
    ensures var s' := CreateAccount(cfg, s, caller, accountNumber, secret).st;
      && s'.accounts.Keys == s.accounts.Keys + {accountNumber}
      && (forall n :: n in s.accounts ==> s'.accounts[n] == s.accounts[n])
      && s'.accounts[accountNumber].balance == DefaultBalance
      && s'.accounts[accountNumber].kind == UserKind
      && s'.accounts[accountNumber].owner == Some(caller)
      && (forall c :: VerifySecret(cfg.hasher, s'.accounts[accountNumber], c) <==> cfg.hasher.verify(c, cfg.hasher.hash(secret)))
      && s'.users[caller].bankAccount == accountNumber && s'.users[caller].bankSetup
      && s'.users[caller].enrolled == s.users[caller].enrolled
      && (forall u :: u in s.users && u != caller ==> s'.users[u] == s.users[u])
      && s'.txns == s.txns && s'.courses == s.courses
      && Money.Total(s'.accounts) == Money.Total(s.accounts) + DefaultBalance
  {
    var s' := CreateAccount(cfg, s, caller, accountNumber, secret).st;
    Money.TotalAdd(s.accounts, accountNumber, s'.accounts[accountNumber]);
  }

  /** Account numbers stay unique: opening the same number a second time is refused. */
  lemma CreateAccountTwiceFails(cfg: Config, s: State, caller: string, other: string, accountNumber: AccountNo,
                                secret: string, secret2: string)
    requires caller in s.users && other in s.users
    requires CreateAccount(cfg, s, caller, accountNumber, secret).Ok? && secret2 != ""
    ensures var s' := CreateAccount(cfg, s, caller, accountNumber, secret).st;
      other in s'.users && CreateAccount(cfg, s', other, accountNumber, secret2) == Err(s', AccountExists)
  {
  }

  /** Account creation keeps the ledger consistent: the new account is stored under its own number
      with the opening balance. */
  lemma CreateAccountKeepsLedgerOk(cfg: Config, s: State, caller: string, accountNumber: AccountNo, secret: string)
    requires caller in s.users && LedgerOk(s)
    ensures LedgerOk(CreateAccount(cfg, s, caller, accountNumber, secret).st)
  {
  }

  datatype Transferred = Transferred(transactionId: string, amount: real, newBalance: real)

  /** The guards of POST /transaction, in the order the handler tests them. */
  function TransferChecks(cfg: Config, s: State, from: AccountNo, to: AccountNo, amount: real, secret: string): seq<Check> {
    [ Check(from == "" || to == "" || amount == 0.0 || secret == "", MissingFields),
      Check(from !in s.accounts, SenderNotFound),
      Check(from in s.accounts && !VerifySecret(cfg.hasher, s.accounts[from], secret), InvalidSecret),
      Check(from in s.accounts && s.accounts[from].balance < amount, InsufficientBalance),
      Check(to !in s.accounts, ReceiverNotFound) ]
  }

  /** The kind a transfer records: the request's `type`, or a course purchase when none is given. */
  function RequestedKind(kindName: string): Option<TxKind> {
    if kindName == "" then Some(CoursePurchase) else ParseTxKind(kindName)
  }

  /** The transfer's record passes the schema apart from its amount: the type is an enum value
      (or defaults) and a given course id casts to an ObjectId. */
  predicate RecordFieldsOk(kindName: string, courseId: Option<string>) {
    RequestedKind(kindName).Some? && (courseId.None? || IsObjectIdText(courseId.value))
  }

  /** POST /transaction: move `amount` from `from` to `to` and record one completed transaction.
      The two accounts are loaded as separate documents and saved one after the other, so the
      receiver's save overwrites the sender's when they are the same account. A negative amount
      passes the checks; the receiver's save then fails `min: 0` if it would go negative. The
      record is validated only when it is saved, after both balances: a negative amount, a `type`
      outside the enum or a course id that is not an ObjectId fails there, with the money moved. */
  function Transfer(cfg: Config, s: State, caller: string, from: AccountNo, to: AccountNo, amount: real,
                    secret: string, kindName: string, courseId: Option<string>, description: string,
                    uuid: string): (r: Reply<Transferred>)
    ensures r.Ok? ==> amount > 0.0 && from in s.accounts && to in s.accounts && RecordFieldsOk(kindName, courseId)
    ensures r.Ok? ==> r.value.amount == amount && r.value.newBalance == s.accounts[from].balance - amount
    ensures r.Ok? ==> r.value.newBalance >= 0.0
  {
    if from == "" || to == "" || amount == 0.0 || secret == "" then Err(s, MissingFields)
    else if from !in s.accounts then Err(s, SenderNotFound)
    else
      var sender := s.accounts[from];
      if !VerifySecret(cfg.hasher, sender, secret) then Err(s, InvalidSecret)
      else if sender.balance < amount then Err(s, InsufficientBalance)
      else if to !in s.accounts then Err(s, ReceiverNotFound)
      else
        var receiver := s.accounts[to];
        var sent := SaveBalance(cfg.hasher, sender, sender.balance - amount);
        var got := SaveBalance(cfg.hasher, receiver, receiver.balance + amount);
        var s1 := s.(accounts := s.accounts[from := sent]);
        if got.balance < 0.0 then Err(s1, ServerError)
        else
          var s2 := s1.(accounts := s1.accounts[to := got]);
          if amount < 0.0 || !RecordFieldsOk(kindName, courseId) then Err(s2, ServerError)
          else
            var t := CompletedTransaction(uuid, from, to, amount, RequestedKind(kindName).value, courseId, Some(caller), description);
            Ok(s2.(txns := s2.txns + [t]), Transferred(t.id, t.amount, sent.balance))
  }

  /** The reply of a failing transfer is the first failing guard, and such a failure changes nothing;
      when every guard passes, the transfer fails only on a negative amount or on a record the schema
      refuses. */
  lemma TransferReportsFirstFailure(cfg: Config, s: State, caller: string, from: AccountNo, to: AccountNo,
                                    amount: real, secret: string, kindName: string, courseId: Option<string>,
                                    description: string, uuid: string)
    requires LedgerOk(s)
    ensures var r := Transfer(cfg, s, caller, from, to, amount, secret, kindName, courseId, description, uuid);
            var f := FirstFailure(TransferChecks(cfg, s, from, to, amount, secret));
      && (f.Some? ==> r == Err(s, f.value))
      && (f.None? ==> (r.Ok? <==> amount > 0.0 && RecordFieldsOk(kindName, courseId)))
  {
    var cs := TransferChecks(cfg, s, from, to, amount, secret);
    FiveGuards(cs[0], cs[1], cs[2], cs[3], cs[4]);
  }

  /** A successful transfer between two different accounts debits one, credits the other by the
      same amount, leaves every other account and the total alone, and appends exactly one completed
      transaction whose type defaults to a course purchase. */
  lemma TransferConserves(cfg: Config, s: State, caller: string, from: AccountNo, to: AccountNo, amount: real,
                          secret: string, kindName: string, courseId: Option<string>, description: string,
                          uuid: string)
    requires from != to
    requires Transfer(cfg, s, caller, from, to, amount, secret, kindName, courseId, description, uuid).Ok?
    ensures var s' := Transfer(cfg, s, caller, from, to, amount, secret, kindName, courseId, description, uuid).st;
      && s'.accounts.Keys == s.accounts.Keys
      && s'.accounts[from].balance == s.accounts[from].balance - amount
      && s'.accounts[to].balance == s.accounts[to].balance + amount
      && (forall n :: n in s.accounts && n != from && n != to ==> s'.accounts[n] == s.accounts[n])
      && Money.Total(s'.accounts) == Money.Total(s.accounts)
      && |s'.txns| == |s.txns| + 1 && s'.txns[..|s.txns|] == s.txns
      && var t := s'.txns[|s.txns|];
         t.status == Completed && !t.validated && t.from == from && t.to == to && t.amount == amount
         && (kindName == "" ==> t.kind == CoursePurchase) && (kindName != "" ==> KindName(t.kind) == kindName)
         && t.courseId == courseId && t.userId == Some(caller)
  {
    var sender, receiver := s.accounts[from], s.accounts[to];
    var m1 := s.accounts[from := SaveBalance(cfg.hasher, sender, sender.balance - amount)];
    Money.TotalUpdate(s.accounts, from, m1[from]);
    Money.TotalUpdate(m1, to, SaveBalance(cfg.hasher, receiver, receiver.balance + amount));
  }

  /** Whatever a transfer replies, the ledger stays consistent: every save that would store a negative
      balance or amount is refused, including those of a negative amount. */
  lemma TransferKeepsLedgerOk(cfg: Config, s: State, caller: string, from: AccountNo, to: AccountNo, amount: real,
                              secret: string, kindName: string, courseId: Option<string>, description: string,
                              uuid: string)
    requires LedgerOk(s)
    ensures LedgerOk(Transfer(cfg, s, caller, from, to, amount, secret, kindName, courseId, description, uuid).st)
  {
  }

  /** Transferring to the same account mints money: the later save wins, so the balance grows by the amount. */
  lemma TransferToSelfMints(cfg: Config, s: State, caller: string, from: AccountNo, amount: real,
                            secret: string, kindName: string, courseId: Option<string>, description: string,
                            uuid: string)
    requires Transfer(cfg, s, caller, from, from, amount, secret, kindName, courseId, description, uuid).Ok?
    ensures var s' := Transfer(cfg, s, caller, from, from, amount, secret, kindName, courseId, description, uuid).st;
      s'.accounts[from].balance == s.accounts[from].balance + amount
      && Money.Total(s'.accounts) == Money.Total(s.accounts) + amount
  {
    var sender := s.accounts[from];
    var m1 := s.accounts[from := SaveBalance(cfg.hasher, sender, sender.balance - amount)];
    Money.TotalUpdate(s.accounts, from, m1[from]);
    Money.TotalUpdate(m1, from, SaveBalance(cfg.hasher, sender, sender.balance + amount));
  }

  /** A record the schema refuses (an unknown `type`, a course id that is not an ObjectId) fails only
      at its own save, after both balances were saved: the reply is a server error, yet the money
      has moved and no transaction records it. */
  lemma TransferRefusedRecordMovesMoney(cfg: Config, s: State, caller: string, from: AccountNo, to: AccountNo,
                                        amount: real, secret: string, kindName: string, courseId: Option<string>,
                                        description: string, uuid: string)
    requires LedgerOk(s) && from != to && amount > 0.0 && !RecordFieldsOk(kindName, courseId)
    requires FirstFailure(TransferChecks(cfg, s, from, to, amount, secret)).None?
    ensures var r := Transfer(cfg, s, caller, from, to, amount, secret, kindName, courseId, description, uuid);
      && r.Err? && r.error == ServerError
      && r.st.accounts[from].balance == s.accounts[from].balance - amount
      && r.st.accounts[to].balance == s.accounts[to].balance + amount
      && r.st.txns == s.txns
  {
    var cs := TransferChecks(cfg, s, from, to, amount, secret);
    FiveGuards(cs[0], cs[1], cs[2], cs[3], cs[4]);
  }

  datatype Payout = Payout(payment: real, newBalance: real)

  /** The guards of POST /validate, in the order the handler tests them. */
  function ValidateChecks(cfg: Config, s: State, caller: string, txId: string, secret: string): seq<Check>
    requires caller in s.users
  {
    var found := Find(s.txns, txId);
    var instr := AccountOfUser(s, caller);
    [ Check(txId == "" || secret == "", MissingValidationFields),
      Check(found.None?, TransactionNotFound),
      Check(found.Some? && s.txns[found.value].validated, AlreadyValidated),
      Check(instr.None?, InstructorBankNotFound),
      Check(instr.Some? && !VerifySecret(cfg.hasher, instr.value, secret), InvalidSecret),
      Check(cfg.lmsAccount !in s.accounts, LmsAccountNotFound),
      Check(found.Some? && cfg.lmsAccount in s.accounts
            && s.accounts[cfg.lmsAccount].balance < s.txns[found.value].amount * InstructorRate, InsufficientLmsBalance) ]
  }

  /** POST /validate: mark a transaction validated and move 70% of its amount from the LMS account
      to the caller's account. No check is made of the transaction's type or of who it pays. The LMS
      save cannot fail once the balance check passed; the caller's save fails `min: 0` only when the
      new balance would be negative, after the LMS save went through. */
  function Validate(cfg: Config, s: State, caller: string, txId: string, secret: string): (r: Reply<Payout>)
    requires caller in s.users
    ensures r.Err? && r.error != ServerError ==> r.st == s
    ensures r.Ok? ==> Find(s.txns, txId).Some? && !s.txns[Find(s.txns, txId).value].validated
    ensures r.Ok? ==> r.value.payment == s.txns[Find(s.txns, txId).value].amount * InstructorRate
  {
    if txId == "" || secret == "" then Err(s, MissingValidationFields)
    else match Find(s.txns, txId)
      case None => Err(s, TransactionNotFound)
      case Some(i) =>
        var t := s.txns[i];
        if t.validated then Err(s, AlreadyValidated)
        else match AccountOfUser(s, caller)
          case None => Err(s, InstructorBankNotFound)
          case Some(instr) =>
            if !VerifySecret(cfg.hasher, instr, secret) then Err(s, InvalidSecret)
            else if cfg.lmsAccount !in s.accounts then Err(s, LmsAccountNotFound)
            else
              var lms := s.accounts[cfg.lmsAccount];
              var pay := t.amount * InstructorRate;
              if lms.balance < pay then Err(s, InsufficientLmsBalance)
              else
                var s1 := s.(accounts := s.accounts[cfg.lmsAccount := SaveBalance(cfg.hasher, lms, lms.balance - pay)]);
                if instr.balance + pay < 0.0 then Err(s1, ServerError)
                else
                  var accounts := s1.accounts[s.users[caller].bankAccount := SaveBalance(cfg.hasher, instr, instr.balance + pay)];
                  var t' := t.(validated := true, status := Validated);
                  Ok(s.(accounts := accounts, txns := s.txns[i := t']), Payout(pay, instr.balance + pay))
  }

  /** A failing validation reports the first failing guard. */
  lemma ValidateReportsFirstFailure(cfg: Config, s: State, caller: string, txId: string, secret: string)
    requires caller in s.users && LedgerOk(s)
    ensures var r := Validate(cfg, s, caller, txId, secret);
            var f := FirstFailure(ValidateChecks(cfg, s, caller, txId, secret));
      (f.Some? ==> r == Err(s, f.value)) && (f.None? ==> r.Ok?)
  {
    var cs := ValidateChecks(cfg, s, caller, txId, secret);
    SevenGuards(cs[0], cs[1], cs[2], cs[3], cs[4], cs[5], cs[6]);
  }

  /** Whatever a validation replies, the ledger stays consistent. */
  lemma ValidateKeepsLedgerOk(cfg: Config, s: State, caller: string, txId: string, secret: string)
    requires caller in s.users && LedgerOk(s)
    ensures LedgerOk(Validate(cfg, s, caller, txId, secret).st)
  {
  }

  /** Validation succeeds at most once per transaction: right after a success the same request is
      refused as already validated. */
  lemma ValidateAtMostOnce(cfg: Config, s: State, caller: string, txId: string, secret: string)
    requires caller in s.users
    requires Validate(cfg, s, caller, txId, secret).Ok?
    ensures var s' := Validate(cfg, s, caller, txId, secret).st;
      caller in s'.users && Validate(cfg, s', caller, txId, secret) == Err(s', AlreadyValidated)
  {
    var i := Find(s.txns, txId).value;
    var s' := Validate(cfg, s, caller, txId, secret).st;
    assert s'.txns[i].id == txId;
    assert Find(s'.txns, txId) == Some(i) by {
      assert forall j :: 0 <= j < i ==> s'.txns[j] == s.txns[j];
    }
  }

  /** A successful validation moves 70% of the amount from the LMS account to the caller's account,
      keeps the total when those are different accounts, and changes the transaction only in its
      `validated` flag and status. */
  lemma ValidateMovesShare(cfg: Config, s: State, caller: string, txId: string, secret: string)
    requires caller in s.users
    requires Validate(cfg, s, caller, txId, secret).Ok?
    ensures var s' := Validate(cfg, s, caller, txId, secret).st;
            var i := Find(s.txns, txId).value;
            var no := s.users[caller].bankAccount;
            var pay := s.txns[i].amount * InstructorRate;
      && no != cfg.lmsAccount ==>
         && s'.accounts[cfg.lmsAccount].balance == s.accounts[cfg.lmsAccount].balance - pay
         && s'.accounts[no].balance == s.accounts[no].balance + pay
         && Money.Total(s'.accounts) == Money.Total(s.accounts)
    ensures var s' := Validate(cfg, s, caller, txId, secret).st;
            var i := Find(s.txns, txId).value;
      && |s'.txns| == |s.txns|
      && s'.txns[i] == s.txns[i].(validated := true, status := Validated)
      && (forall j :: 0 <= j < |s.txns| && j != i ==> s'.txns[j] == s.txns[j])
      && (forall n :: n in s.accounts && n != cfg.lmsAccount && n != s.users[caller].bankAccount
                      ==> s'.accounts[n] == s.accounts[n])
      && s'.users == s.users && s'.courses == s.courses
  {
    var no := s.users[caller].bankAccount;
    var i := Find(s.txns, txId).value;
    var pay := s.txns[i].amount * InstructorRate;
    var lms, instr := s.accounts[cfg.lmsAccount], s.accounts[no];
    var m1 := s.accounts[cfg.lmsAccount := SaveBalance(cfg.hasher, lms, lms.balance - pay)];
    Money.TotalUpdate(s.accounts, cfg.lmsAccount, m1[cfg.lmsAccount]);
    Money.TotalUpdate(m1, no, SaveBalance(cfg.hasher, instr, instr.balance + pay));
  }
}

=== FILE: course.dfy ===
/** The course document with its embedded materials and quiz questions, and the schema's
    defaults, setters and validators. */
module Courses {
  import opened Wrappers
  import Text

  datatype MaterialKind = TextMaterial | AudioMaterial | VideoMaterial | McqMaterial

  /** The material-type enum check applied to a request string. */
  function ParseMaterialKind(s: string): (r: Option<MaterialKind>)
    ensures r == Some(TextMaterial) <==> s == "text"
    ensures r == Some(AudioMaterial) <==> s == "audio"
    ensures r == Some(VideoMaterial) <==> s == "video"
    ensures r == Some(McqMaterial) <==> s == "mcq"
  {
    if s == "text" then Some(TextMaterial)
    else if s == "audio" then Some(AudioMaterial)
    else if s == "video" then Some(VideoMaterial)
    else if s == "mcq" then Some(McqMaterial)
    else None
  }

  datatype Material = Material(id: string, kind: MaterialKind, title: string, content: string, description: string)

  datatype QuizQuestion = QuizQuestion(id: string, question: string, options: seq<string>, correctAnswer: int)

  datatype Course = Course(
    id: string,
    title: string,
    description: string,
    price: real,
    instructor: string,
    instructorName: string,
    materials: seq<Material>,
    enrolledStudents: seq<string>,
    isActive: bool,
    category: string,
    duration: string,
    quiz: seq<QuizQuestion>)

  const DefaultCategory: string := "General"
  const DefaultDuration: string := "4 weeks"

  /** Required, non-empty material title and content (strings fail `required` when empty). */
  predicate ValidMaterial(m: Material) {
    m.title != "" && m.content != ""
  }

  /** `correctAnswer` has `min: 0, max: 3`; the question text and every option are required. */
  predicate ValidQuestion(q: QuizQuestion) {
    q.question != "" && 0 <= q.correctAnswer <= 3 && "" !in q.options
  }

  /** What `course.save()` validates: required title, description and instructor name, `min: 0` on
      the price, and every embedded material and question. The title setter trims. */
  predicate Valid(c: Course) {
    && c.title != "" && Text.Trim(c.title) == c.title
    && c.description != "" && c.instructorName != ""
    && c.price >= 0.0
    && (forall i :: 0 <= i < |c.materials| ==> ValidMaterial(c.materials[i]))
    && (forall i :: 0 <= i < |c.quiz| ==> ValidQuestion(c.quiz[i]))
  }

  /** `new Course({...})` as the create handlers build it: `category || 'General'`,
      `duration || '4 weeks'`, an active course with no materials, students or questions,
      and the title passed through the schema's `trim` setter. */
  function NewCourse(id: string, title: string, description: string, price: real,
                     instructor: string, instructorName: string,
                     category: string, duration: string): (c: Course)
    ensures c.id == id && c.instructor == instructor && c.price == price
    ensures c.title == Text.Trim(title)
    ensures c.isActive && c.materials == [] && c.enrolledStudents == [] && c.quiz == []
    ensures c.category == (if category == "" then DefaultCategory else category)
    ensures c.duration == (if duration == "" then DefaultDuration else duration)
  {
    Course(id, Text.Trim(title), description, price, instructor, instructorName, [], [], true,
           if category == "" then DefaultCategory else category,
           if duration == "" then DefaultDuration else duration, [])
  }

  /** A course passes the schema check exactly when its inputs do. */
  lemma NewCourseValid(id: string, title: string, description: string, price: real,
                       instructor: string, instructorName: string, category: string, duration: string)
    ensures Valid(NewCourse(id, title, description, price, instructor, instructorName, category, duration))
        <==> Text.Trim(title) != "" && description != "" && instructorName != "" && price >= 0.0
  {
    Text.TrimIdempotent(title);
  }

  /** Assigning `course.title = t` through the trimming setter. */
  function SetTitle(c: Course, t: string): (r: Course)
    ensures r.title == Text.Trim(t) && Text.Trim(r.title) == r.title
    ensures r.(title := c.title) == c
  {
    Text.TrimIdempotent(t);
    c.(title := Text.Trim(t))
  }

  /** `course.materials.id(mid)`: does the course hold a material with this id? */
  predicate HasMaterial(c: Course, mid: string) {
    exists i :: 0 <= i < |c.materials| && c.materials[i].id == mid
  }

  /** `course.materials.pull(mid)`: drop every material with that id, keep the rest in order. */
  function PullMaterial(ms: seq<Material>, mid: string): (r: seq<Material>)
    ensures |r| <= |ms|
    ensures forall i :: 0 <= i < |r| ==> r[i].id != mid
  {
    if |ms| == 0 then []
    else PullMaterial(ms[..|ms| - 1], mid) + (if ms[|ms| - 1].id == mid then [] else [ms[|ms| - 1]])
  }

  lemma {:induction false} PullAppend(a: seq<Material>, b: seq<Material>, mid: string)
    ensures PullMaterial(a + b, mid) == PullMaterial(a, mid) + PullMaterial(b, mid)
    decreases |b|
  {
    if |b| == 0 {
      assert a + b == a;
    } else {
      var b' := b[..|b| - 1];
      assert (a + b)[..|a + b| - 1] == a + b';
      assert (a + b)[|a + b| - 1] == b[|b| - 1];
      PullAppend(a, b', mid);
    }
  }

  lemma {:induction false} PullAbsent(ms: seq<Material>, mid: string)
    requires forall i :: 0 <= i < |ms| ==> ms[i].id != mid
    ensures PullMaterial(ms, mid) == ms
    decreases |ms|
  {
    if |ms| > 0 {
      PullAbsent(ms[..|ms| - 1], mid);
      assert ms[..|ms| - 1] + [ms[|ms| - 1]] == ms;
    }
  }

  /** Material ids are unique within a course (each subdocument gets its own ObjectId). */
  predicate MaterialIdsDistinct(ms: seq<Material>) {
    forall i, j :: 0 <= i < j < |ms| ==> ms[i].id != ms[j].id
  }

  lemma PullSingle(m: Material)
    ensures PullMaterial([m], m.id) == []
  {
    assert [m][..0] == [];
  }

  lemma PullSplit(pre: seq<Material>, m: Material, post: seq<Material>)
    requires PullMaterial(pre, m.id) == pre
    requires PullMaterial(post, m.id) == post
    ensures PullMaterial(pre + [m] + post, m.id) == pre + post
  {
    PullSingle(m);
    PullAppend(pre, [m], m.id);
    assert PullMaterial(pre + [m], m.id) == pre;
    PullAppend(pre + [m], post, m.id);
  }

  /** With unique ids, pulling one id removes exactly that material and keeps the others in order. */
  lemma PullRemovesOnlyThat(ms: seq<Material>, i: nat)
    requires i < |ms| && MaterialIdsDistinct(ms)
    ensures PullMaterial(ms, ms[i].id) == ms[..i] + ms[i + 1..]
  {
    var pre, post := ms[..i], ms[i + 1..];
    assert ms == pre + [ms[i]] + post;
    forall k | 0 <= k < |pre| ensures pre[k].id != ms[i].id {
      assert pre[k] == ms[k];
    }
    forall k | 0 <= k < |post| ensures post[k].id != ms[i].id {
      assert post[k] == ms[i + 1 + k];
    }
    PullAbsent(pre, ms[i].id);
    PullAbsent(post, ms[i].id);
    PullSplit(pre, ms[i], post);
  }

  /** `course.quizQuestions.id(qid)`: a question with that id, scanning from the front
      (`LearnerRoutes.FirstQuestion` shows it is the first one). */
  function FindQuestion(qs: seq<QuizQuestion>, qid: string): (r: Option<QuizQuestion>)
    ensures r.Some? ==> r.value in qs && r.value.id == qid
    ensures r.None? <==> forall i :: 0 <= i < |qs| ==> qs[i].id != qid
  {
    if |qs| == 0 then None
    else if qs[0].id == qid then Some(qs[0])
    else FindQuestion(qs[1..], qid)
  }
}

=== FILE: course_routes.dfy ===
/** The generic course handlers: create, update, delete, add a material, and the rule for who may
    read a course's materials. Unlike the instructor upload these check neither a bank account nor
    a duplicate title, and the update handler takes only truthy fields from a JSON body. */
module CourseRoutes {
  import opened Wrappers
  import opened Courses
  import opened Lms
  import Text
  import LearnerRoutes
  import InstructorRoutes

  /** POST /api/courses. The multipart form makes every supplied field a string, so a price of 0 is
      present; `courseId` is the new document's fresh id. The schema refuses a title that trims to
      nothing, a missing instructor name and a negative price. */
  function CreateCourse(s: State, caller: string, title: string, description: string, price: Option<real>,
                        category: string, duration: string, courseId: string): (r: Reply<Course>)
    requires caller in s.users && courseId !in s.courses
    ensures r.Err? ==> r.st == s
    ensures r.Ok? <==> && title != "" && description != "" && price.Some?
                       && ActiveCount(s.courses) < CourseLimit
                       && Text.Trim(title) != "" && s.users[caller].name != "" && price.value >= 0.0
    ensures r.Err? ==> r.error == (if title == "" || description == "" || price.None? then MissingFields
                                  else if ActiveCount(s.courses) >= CourseLimit then CourseLimitReached
                                  else ServerError)
    ensures r.Ok? ==> (
      && r.value.instructor == caller && r.value.title == Text.Trim(title) && r.value.price == price.value
      && r.value.isActive && r.value.materials == [] && r.value.quiz == [] && Courses.Valid(r.value)
      && r.st == s.(courses := r.st.courses, users := r.st.users)
      && r.st.courses == s.courses[courseId := r.value]
      && UploadRecorded(s.users, r.st.users, caller, courseId))
  {
    if title == "" || description == "" || price.None? then Err(s, MissingFields)
    else if ActiveCount(s.courses) >= CourseLimit then Err(s, CourseLimitReached)
    else
      var u := s.users[caller];
      var c := NewCourse(courseId, title, description, price.value, caller, u.name, category, duration);
      NewCourseValid(courseId, title, description, price.value, caller, u.name, category, duration);
      if !Courses.Valid(c) then Err(s, ServerError)
      else Ok(s.(courses := s.courses[courseId := c], users := s.users[caller := u.(uploaded := u.uploaded + [courseId])]), c)
  }

  /** Creating a course never pushes the platform past its limit of active courses. */
  lemma CreateKeepsCourseLimit(s: State, caller: string, title: string, description: string, price: Option<real>,
                               category: string, duration: string, courseId: string)
    requires caller in s.users && courseId !in s.courses
    requires ActiveCount(s.courses) <= CourseLimit
    ensures ActiveCount(CreateCourse(s, caller, title, description, price, category, duration, courseId).st.courses)
            <= CourseLimit
  {
    var r := CreateCourse(s, caller, title, description, price, category, duration, courseId);
    if r.Ok? {
      ActiveCountAdd(s.courses, courseId, r.value);
    }
  }

  /** The JSON body of PUT /api/courses/:id; `price` and `isActive` are `None` when absent. */
  datatype FieldEdit = FieldEdit(title: string, description: string, price: Option<real>, category: string,
                                 duration: string, isActive: Option<bool>)

  /** Assign the truthy fields: non-empty strings, a non-zero price; `isActive` whenever it is given. */
  function ApplyFields(c: Course, e: FieldEdit): (r: Course)
    ensures r.title == (if e.title != "" then Text.Trim(e.title) else c.title)
    ensures r.description == (if e.description != "" then e.description else c.description)
    ensures r.price == (if e.price.Some? && e.price.value != 0.0 then e.price.value else c.price)
    ensures r.category == (if e.category != "" then e.category else c.category)
    ensures r.duration == (if e.duration != "" then e.duration else c.duration)
    ensures r.isActive == (if e.isActive.Some? then e.isActive.value else c.isActive)
    ensures r.(title := c.title, description := c.description, price := c.price, category := c.category,
               duration := c.duration, isActive := c.isActive) == c
  {
    var c1 := if e.title != "" then SetTitle(c, e.title) else c;
    c1.(description := if e.description != "" then e.description else c.description,
        price := if e.price.Some? && e.price.value != 0.0 then e.price.value else c.price,
        category := if e.category != "" then e.category else c.category,
        duration := if e.duration != "" then e.duration else c.duration,
        isActive := if e.isActive.Some? then e.isActive.value else c.isActive)
  }

  /** PUT /api/courses/:id: the owner's edit of the supplied fields, checked by the schema on save. */
  function UpdateFields(s: State, caller: string, courseId: string, e: FieldEdit): (r: Reply<Course>)
    ensures r.Err? ==> r.st == s
    ensures r.Ok? <==> courseId in s.courses && s.courses[courseId].instructor == caller
                       && Courses.Valid(ApplyFields(s.courses[courseId], e))
    ensures r.Err? ==> r.error == (if courseId !in s.courses then CourseNotFound
                                  else if s.courses[courseId].instructor != caller then NotAuthorized
                                  else ServerError)
    ensures r.Ok? ==> r.st == s.(courses := s.courses[courseId := r.value])
    ensures r.Ok? ==> r.value == ApplyFields(s.courses[courseId], e)
    ensures r.Ok? ==> r.value.id == s.courses[courseId].id && r.value.instructor == caller
                      && r.value.materials == s.courses[courseId].materials && r.value.quiz == s.courses[courseId].quiz
                      && r.value.enrolledStudents == s.courses[courseId].enrolledStudents
  {
    if courseId !in s.courses then Err(s, CourseNotFound)
    else
      var c := s.courses[courseId];
      if c.instructor != caller then Err(s, NotAuthorized)
      else
        var c' := ApplyFields(c, e);
        if !Courses.Valid(c') then Err(s, ServerError)
        else Ok(s.(courses := s.courses[courseId := c']), c')
  }

  /** A price of 0 is falsy, so it leaves the stored price alone. */
  lemma UpdateIgnoresZeroPrice(s: State, caller: string, courseId: string, e: FieldEdit)
    requires e.price == Some(0.0)
    requires UpdateFields(s, caller, courseId, e).Ok?
    ensures UpdateFields(s, caller, courseId, e).value.price == s.courses[courseId].price
  {
  }

  /** The limit of active courses is checked only on creation: reactivating a course through an
      update is accepted and raises the active count, so the limit can be passed. */
  lemma ReactivationPassesLimit(s: State, caller: string, courseId: string)
    requires courseId in s.courses && s.courses[courseId].instructor == caller
    requires !s.courses[courseId].isActive && Courses.Valid(s.courses[courseId])
    ensures var r := UpdateFields(s, caller, courseId, FieldEdit("", "", None, "", "", Some(true)));
      && r.Ok? && ActiveCount(r.st.courses) == ActiveCount(s.courses) + 1
  {
    var c := s.courses[courseId];
    var e := FieldEdit("", "", None, "", "", Some(true));
    var c' := c.(isActive := true);
    assert ApplyFields(c, e) == c';
    assert Courses.Valid(c') by {
      assert c'.materials == c.materials && c'.quiz == c.quiz;
    }
    ActiveCountUpdate(s.courses, courseId, c');
  }

  /** `$pull`: every occurrence of `id` removed, the rest kept in order. */
  function Without(ids: seq<string>, id: string): (r: seq<string>)
    ensures forall k :: 0 <= k < |r| ==> r[k] != id && r[k] in ids
    ensures forall k :: 0 <= k < |ids| && ids[k] != id ==> ids[k] in r
    ensures id !in ids ==> r == ids
  {
    if |ids| == 0 then []
    else (if ids[0] == id then [] else [ids[0]]) + Without(ids[1..], id)
  }

  /** DELETE /api/courses/:id: the owner removes the course, and its id leaves the owner's uploads.
      Enrolments, certificates and ledger entries that name the course are left as they are. */
  function DeleteCourse(s: State, caller: string, courseId: string): (r: Reply<()>)
    requires caller in s.users
    ensures r.Err? ==> r.st == s
    ensures r.Ok? <==> courseId in s.courses && s.courses[courseId].instructor == caller
    ensures r.Err? ==> r.error == (if courseId !in s.courses then CourseNotFound else NotAuthorized)
    ensures r.Ok? ==> (r.st.courses == s.courses - {courseId}
      && r.st.users.Keys == s.users.Keys && courseId !in r.st.users[caller].uploaded
      && r.st.users[caller].enrolled == s.users[caller].enrolled
      && r.st.users[caller] == s.users[caller].(uploaded := Without(s.users[caller].uploaded, courseId))
      && (forall uid :: uid in s.users && uid != caller ==> r.st.users[uid] == s.users[uid])
      && r.st.accounts == s.accounts && r.st.txns == s.txns && r.st.certificates == s.certificates
      && r.st.attempts == s.attempts)
  {
    if courseId !in s.courses then Err(s, CourseNotFound)
    else if s.courses[courseId].instructor != caller then Err(s, NotAuthorized)
    else
      var u := s.users[caller];
      Ok(s.(courses := s.courses - {courseId}, users := s.users[caller := u.(uploaded := Without(u.uploaded, courseId))]), ())
  }

  /** Deleting a course never raises the active count. */
  lemma DeleteKeepsCourseLimit(s: State, caller: string, courseId: string)
    requires caller in s.users
    ensures ActiveCount(DeleteCourse(s, caller, courseId).st.courses) <= ActiveCount(s.courses)
  {
    ActiveCountRemove(s.courses, courseId);
  }

  /** POST /api/courses/:id/materials. The pushed material is checked by the update's validators:
      the type must be one of the four kinds and the content, defaulted to "", is required.
      `materialId` is the new subdocument's fresh id. */
  function AddMaterial(s: State, caller: string, courseId: string, kind: string, title: string, content: string,
                       materialId: string): (r: Reply<Material>)
    ensures r.Err? ==> r.st == s
    ensures r.Ok? <==> && courseId in s.courses && s.courses[courseId].instructor == caller
                       && kind != "" && title != "" && ParseMaterialKind(kind).Some? && content != ""
    ensures r.Err? ==> r.error == (if courseId !in s.courses then CourseNotFound
                                  else if s.courses[courseId].instructor != caller then NotAuthorized
                                  else if kind == "" || title == "" then MissingMaterialFields
                                  else ServerError)
    ensures r.Ok? ==> (
      && r.value == Material(materialId, ParseMaterialKind(kind).value, title, content, "")
      && ValidMaterial(r.value)
      && r.st == s.(courses := s.courses[courseId := s.courses[courseId].(materials := s.courses[courseId].materials + [r.value])]))
  {
    if courseId !in s.courses then Err(s, CourseNotFound)
    else
      var c := s.courses[courseId];
      if c.instructor != caller then Err(s, NotAuthorized)
      else if kind == "" || title == "" then Err(s, MissingMaterialFields)
      else match ParseMaterialKind(kind)
        case None => Err(s, ServerError)
        case Some(k) =>
          var m := Material(materialId, k, title, content, "");
          if !ValidMaterial(m) then Err(s, ServerError)
          else Ok(s.(courses := s.courses[courseId := c.(materials := c.materials + [m])]), m)
  }

  /** Adding a material under a fresh id and then deleting it through the instructor route gives back
      the state before the addition. */
  lemma AddThenDeleteMaterial(s: State, caller: string, courseId: string, kind: string, title: string,
                              content: string, materialId: string)
    requires courseId in s.courses && Courses.Valid(s.courses[courseId])
    requires !HasMaterial(s.courses[courseId], materialId)
    requires AddMaterial(s, caller, courseId, kind, title, content, materialId).Ok?
    ensures var s' := AddMaterial(s, caller, courseId, kind, title, content, materialId).st;
      InstructorRoutes.DeleteMaterial(s', caller, courseId, materialId) == Ok(s, ())
  {
    var c := s.courses[courseId];
    var added := AddMaterial(s, caller, courseId, kind, title, content, materialId);
    var m, s' := added.value, added.st;
    var c1 := c.(materials := c.materials + [m]);
    assert s'.courses == s.courses[courseId := c1];
    assert HasMaterial(c1, materialId) by {
      assert c1.materials[|c.materials|].id == materialId;
    }
    PullAppend(c.materials, [m], materialId);
    PullAbsent(c.materials, materialId);
    PullSingle(m);
    assert c1.(materials := PullMaterial(c1.materials, materialId)) == c;
    RestoreEntry(s.courses, courseId, c1);
  }

  /** Overwriting an entry and then writing its old value back leaves the map as it was. */
  lemma RestoreEntry<K, V>(m: map<K, V>, k: K, v: V)
    requires k in m
    ensures m[k := v][k := m[k]] == m
  {
  }

  /** GET /api/courses/:id/materials: the materials, for an enrolled student or the instructor only. */
  function Materials(s: State, caller: string, courseId: string): (r: Reply<seq<Material>>)
    ensures r.st == s
    ensures r.Ok? <==> courseId in s.courses
                       && (caller in s.courses[courseId].enrolledStudents || s.courses[courseId].instructor == caller)
    ensures r.Ok? ==> r.value == s.courses[courseId].materials
    ensures r.Err? ==> r.error == (if courseId !in s.courses then CourseNotFound else MustEnroll)
  {
    if courseId !in s.courses then Err(s, CourseNotFound)
    else
      var c := s.courses[courseId];
      if caller !in c.enrolledStudents && c.instructor != caller then Err(s, MustEnroll)
      else Ok(s, c.materials)
  }

  /** A learner who has bought a course may read its materials. */
  lemma PurchaseGrantsMaterials(cfg: Config, s: State, caller: string, courseId: string, secret: string,
                                purchaseUuid: string, paymentUuid: string, commissionUuid: string)
    requires caller in s.users
    requires LearnerRoutes.Purchase(cfg, s, caller, courseId, secret, purchaseUuid, paymentUuid, commissionUuid).Ok?
    ensures var s' := LearnerRoutes.Purchase(cfg, s, caller, courseId, secret, purchaseUuid, paymentUuid, commissionUuid).st;
      Materials(s', caller, courseId).Ok?
  {
    var s' := LearnerRoutes.Purchase(cfg, s, caller, courseId, secret, purchaseUuid, paymentUuid, commissionUuid).st;
    var students := s.courses[courseId].enrolledStudents;
    assert s'.courses[courseId].enrolledStudents == students + [caller];
    assert (students + [caller])[|students|] == caller;
  }
}

=== FILE: edit_course.dfy ===
/** The course editor's client-side checks: queueing a new quiz question, queueing a video or audio
    file, removing a queued item, and the rule that a course is saved only with at least ten quiz
    questions. These run in the browser before any request is sent. */
module EditCourse {
  import opened Wrappers
  import opened Text

  // ---------------------------------------------------------------------------------------------
  // Quiz questions

  /** A question as the editor holds it: text, options and the index of the right option. */
  datatype Question = Question(text: string, options: seq<string>, correctAnswer: int)

  /** The form's state after a question is queued. */
  const EmptyDraft: Question := Question("", ["", "", "", ""], 0)

  datatype AddQuestionResult =
    | QuestionAdded(queue: seq<Question>, draft: Question)
    | IncompleteQuestion      // 'Please fill in the question and all 4 options'
    | DuplicateQuestionText
    | DuplicateOptions

  /** Every option of `q`, position by position, is the same text as the draft's option there. */
  predicate SameOptions(q: Question, draft: Question)
    requires |q.options| <= |draft.options|
  {
    forall i :: 0 <= i < |q.options| ==> SameText(q.options[i], draft.options[i])
  }

  /** The form always holds four options, and so does every question the editor has loaded or queued. */
  predicate FourOptions(qs: seq<Question>) {
    forall k :: 0 <= k < |qs| ==> |qs[k].options| == 4
  }

  /** Some question among `qs` has the same text as `t`. */
  predicate TextTaken(qs: seq<Question>, t: string) {
    exists k :: 0 <= k < |qs| && SameText(qs[k].text, t)
  }

  /** Some question among `qs` has, position by position, the same options as the draft. */
  predicate OptionsTaken(qs: seq<Question>, draft: Question)
    requires FourOptions(qs) && |draft.options| == 4
  {
    exists k :: 0 <= k < |qs| && SameOptions(qs[k], draft)
  }

  /** `handleAddQuestion`: refuse an empty text or option, then a text already present among the
      course's questions and the queued ones, then a question whose options all match one already
      present; otherwise queue the draft and reset the form. */
  function AddQuestion(existing: seq<Question>, queued: seq<Question>, draft: Question): (r: AddQuestionResult)
    requires |draft.options| == 4 && FourOptions(existing) && FourOptions(queued)
    ensures r.QuestionAdded? <==>
      && draft.text != "" && "" !in draft.options
      && !TextTaken(existing + queued, draft.text) && !OptionsTaken(existing + queued, draft)
    ensures r.QuestionAdded? ==> r.queue == queued + [draft] && r.draft == EmptyDraft
    ensures r == IncompleteQuestion <==> draft.text == "" || "" in draft.options
    ensures r == DuplicateQuestionText <==>
      draft.text != "" && "" !in draft.options && TextTaken(existing + queued, draft.text)
  {
    var all := existing + queued;
    assert FourOptions(all) by {
      assert forall k :: 0 <= k < |all| ==> all[k] == if k < |existing| then existing[k] else queued[k - |existing|];
    }
    if draft.text == "" || "" in draft.options then IncompleteQuestion
    else if TextTaken(all, draft.text) then DuplicateQuestionText
    else if OptionsTaken(all, draft) then DuplicateOptions
    else QuestionAdded(queued + [draft], EmptyDraft)
  }

  /** No two questions among `qs` have the same text. */
  predicate TextsDistinct(qs: seq<Question>) {
    forall i, j :: 0 <= i < j < |qs| ==> !SameText(qs[i].text, qs[j].text)
  }

  /** Queueing keeps the course's and the queued questions' texts pairwise different. */
  lemma AddQuestionKeepsTextsDistinct(existing: seq<Question>, queued: seq<Question>, draft: Question)
    requires |draft.options| == 4 && FourOptions(existing) && FourOptions(queued)
    requires TextsDistinct(existing + queued)
    ensures var r := AddQuestion(existing, queued, draft);
      r.QuestionAdded? ==> TextsDistinct(existing + r.queue)
  {
    var r := AddQuestion(existing, queued, draft);
    if r.QuestionAdded? {
      var all := existing + queued;
      assert existing + r.queue == all + [draft];
      forall i, j | 0 <= i < j < |all| + 1
        ensures !SameText((all + [draft])[i].text, (all + [draft])[j].text)
      {
        if j == |all| {
          assert (all + [draft])[i] == all[i];
        } else {
          assert (all + [draft])[i] == all[i] && (all + [draft])[j] == all[j];
        }
      }
    }
  }

  /** The same question cannot be queued twice: the second try is refused on its text. */
  lemma AddQuestionTwiceRefused(existing: seq<Question>, queued: seq<Question>, draft: Question)
    requires |draft.options| == 4 && FourOptions(existing) && FourOptions(queued)
    requires AddQuestion(existing, queued, draft).QuestionAdded?
    ensures var q := AddQuestion(existing, queued, draft).queue;
      FourOptions(q) && AddQuestion(existing, q, draft) == DuplicateQuestionText
  {
    var q := AddQuestion(existing, queued, draft).queue;
    assert (existing + q)[|existing| + |queued|] == draft;
  }

  // ---------------------------------------------------------------------------------------------
  // Queued items

  /** `list.filter((_, i) => i !== index)`: the list without the element at `index`, if any. */
  function RemoveAt<T>(xs: seq<T>, index: int): (r: seq<T>)
    ensures 0 <= index < |xs| ==> |r| == |xs| - 1
    ensures !(0 <= index < |xs|) ==> r == xs
    ensures 0 <= index < |xs| ==> forall k :: 0 <= k < |r| ==> r[k] == (if k < index then xs[k] else xs[k + 1])
  {
    if 0 <= index < |xs| then xs[..index] + xs[index + 1..] else xs
  }

  /** Removing a queued question keeps the texts pairwise different. */
  lemma RemoveKeepsTextsDistinct(existing: seq<Question>, queued: seq<Question>, index: int)
    requires TextsDistinct(existing + queued)
    ensures TextsDistinct(existing + RemoveAt(queued, index))
  {
    if 0 <= index < |queued| {
      var all := existing + queued;
      assert existing + RemoveAt(queued, index) == RemoveAt(all, |existing| + index);
      RemoveAtKeepsTextsDistinct(all, |existing| + index);
    }
  }

  lemma RemoveAtKeepsTextsDistinct(qs: seq<Question>, p: int)
    requires TextsDistinct(qs)
    ensures TextsDistinct(RemoveAt(qs, p))
  {
    RemoveAtKeepsPairwise(qs, p, (a: Question, b: Question) => !SameText(a.text, b.text));
  }

  /** A relation that holds between every earlier and every later element still does after a removal:
      the remaining elements keep their order. */
  lemma RemoveAtKeepsPairwise<T>(xs: seq<T>, p: int, ok: (T, T) -> bool)
    requires forall i, j :: 0 <= i < j < |xs| ==> ok(xs[i], xs[j])
    ensures var r := RemoveAt(xs, p); forall i, j :: 0 <= i < j < |r| ==> ok(r[i], r[j])
  {
    var r := RemoveAt(xs, p);
    if 0 <= p < |xs| {
      forall i, j | 0 <= i < j < |r|
        ensures ok(r[i], r[j])
      {
        var oi := if i < p then i else i + 1;
        var oj := if j < p then j else j + 1;
        assert r[i] == xs[oi] && r[j] == xs[oj];
      }
    }
  }

  /** The submit gate: the course's questions and the queued ones number at least ten. */
  const MinQuestions: nat := 10

  function CanSubmit(existingCount: nat, queuedCount: nat): (ok: bool)
    ensures ok <==> existingCount + queuedCount >= MinQuestions
  {
    !(existingCount + queuedCount < MinQuestions)
  }

  /** Removing a question just queued undoes the queueing: the queue is as before, and the gate
      counts it once while it is queued. */
  lemma AddThenRemoveQuestion(existing: seq<Question>, queued: seq<Question>, draft: Question)
    requires |draft.options| == 4 && FourOptions(existing) && FourOptions(queued)
    requires AddQuestion(existing, queued, draft).QuestionAdded?
    ensures var q := AddQuestion(existing, queued, draft).queue;
      && RemoveAt(q, |queued|) == queued
      && (CanSubmit(|existing|, |q|) <==> |existing| + |queued| + 1 >= MinQuestions)
  {
    var q := AddQuestion(existing, queued, draft).queue;
    assert q[..|queued|] == queued;
  }

  // ---------------------------------------------------------------------------------------------
  // Video and audio files

  /** A chosen file: its name and the hash of its content. */
  datatype FileRef = FileRef(name: string, hash: string)

  /** The media form: the chosen file, if any, and the typed title. */
  datatype MediaDraft = MediaDraft(file: Option<FileRef>, title: string, description: string)

  /** A queued upload, remembered with its content hash. */
  datatype QueuedMedia = QueuedMedia(file: FileRef, title: string, description: string, hash: string)

  datatype AddMediaResult =
    | MediaAdded(queue: seq<QueuedMedia>)
    | NoFile
    | SameContent     // the same file content is already queued
    | SameTitle       // a saved material has that title

  /** The title a file is checked under: the typed one, or the file name when none is typed. */
  function ShownTitle(d: MediaDraft): string
    requires d.file.Some?
  {
    if d.title != "" then d.title else d.file.value.name
  }

  /** `handleAddVideo` (and `handleAddAudio`, which is the same): refuse without a file, then a file
      whose content is already queued, then a title a saved material of the course already has. */
  function AddMedia(savedTitles: seq<string>, queued: seq<QueuedMedia>, d: MediaDraft): (r: AddMediaResult)
    ensures r == NoFile <==> d.file.None?
    ensures r.MediaAdded? <==>
      && d.file.Some?
      && (forall k :: 0 <= k < |queued| ==> queued[k].hash != d.file.value.hash)
      && (forall k :: 0 <= k < |savedTitles| ==> !SameText(savedTitles[k], ShownTitle(d)))
    ensures r.MediaAdded? ==>
      r.queue == queued + [QueuedMedia(d.file.value, d.title, d.description, d.file.value.hash)]
    ensures r == SameContent ==> exists k :: 0 <= k < |queued| && queued[k].hash == d.file.value.hash
  {
    match d.file
    case None => NoFile
    case Some(f) =>
      if exists k :: 0 <= k < |queued| && queued[k].hash == f.hash then SameContent
      else if exists k :: 0 <= k < |savedTitles| && SameText(savedTitles[k], ShownTitle(d)) then SameTitle
      else MediaAdded(queued + [QueuedMedia(f, d.title, d.description, f.hash)])
  }

  /** Queued files have pairwise different content. */
  predicate HashesDistinct(q: seq<QueuedMedia>) {
    forall i, j :: 0 <= i < j < |q| ==> q[i].hash != q[j].hash
  }

  /** Queueing keeps the queued contents pairwise different, so a file, renamed or not, is queued
      at most once. */
  lemma AddMediaKeepsHashesDistinct(savedTitles: seq<string>, queued: seq<QueuedMedia>, d: MediaDraft)
    requires HashesDistinct(queued)
    ensures var r := AddMedia(savedTitles, queued, d);
      r.MediaAdded? ==> HashesDistinct(r.queue)
  {
  }

  /** A renamed copy of a queued file is refused. */
  lemma RenamedCopyRefused(savedTitles: seq<string>, queued: seq<QueuedMedia>, d: MediaDraft, newName: string,
                           newTitle: string)
    requires AddMedia(savedTitles, queued, d).MediaAdded?
    ensures var q := AddMedia(savedTitles, queued, d).queue;
            var copy := MediaDraft(Some(FileRef(newName, d.file.value.hash)), newTitle, d.description);
      AddMedia(savedTitles, q, copy) == SameContent
  {
    var q := AddMedia(savedTitles, queued, d).queue;
    assert q[|queued|].hash == d.file.value.hash;
  }
}

=== FILE: instructor_routes.dfy ===
/** The instructor handlers: course upload with the platform's upload payment, the acknowledgement
    of a sale payment, the earnings and pending-payment summaries, quiz questions, course edits and
    material removal. */
module InstructorRoutes {
  import opened Wrappers
  import opened BankAccount
  import opened Transactions
  import opened Courses
  import opened Lms
  import BankRoutes
  import LearnerRoutes
  import Text
  import Money

  /** Some course of `instructor` other than `except` has a title the requested one matches. */
  predicate HasTitle(courses: map<string, Course>, instructor: string, title: string, except: Option<string>) {
    exists id :: id in courses && Some(id) != except && courses[id].instructor == instructor
                 && Text.TitleMatches(courses[id].title, title)
  }

  // ---------------------------------------------------------------------------------------------
  // Upload

  /** The form fields of an upload; a numeric field that is absent or empty is `None`. */
  datatype CourseForm = CourseForm(title: string, description: string, price: Option<real>,
                                   category: string, duration: string)

  datatype UploadPaid = UploadPaid(amount: real, transactionId: string, newBalance: real)

  datatype Uploaded = Uploaded(course: Course, payment: Option<UploadPaid>)

  /** The guards of POST /upload-course, in the order the handler tests them. */
  function UploadChecks(s: State, caller: string, form: CourseForm): seq<Check>
    requires caller in s.users
  {
    [ Check(form.title == "" || form.description == "" || form.price.None?, MissingFields),
      Check(ActiveCount(s.courses) >= CourseLimit, CourseLimitReached),
      Check(HasTitle(s.courses, caller, form.title, None), DuplicateTitle),
      Check(s.users[caller].bankAccount == "", BankNotSetUp) ]
  }

  /** The upload payment, once the course is stored and both accounts are loaded: the LMS pays 5000
      into account `no` only when it holds that much, and one completed record is written. The two
      accounts are saved one after the other from the values loaded before, so if `no` is the LMS
      account itself the second save wins. */
  function PayForUpload(cfg: Config, s: State, caller: string, no: AccountNo, courseId: string, title: string,
                        uuid: string): (r: Reply<Option<UploadPaid>>)
    requires cfg.lmsAccount in s.accounts && no in s.accounts
    ensures r.st.courses == s.courses && r.st.users == s.users
    ensures r.st.certificates == s.certificates && r.st.attempts == s.attempts
    ensures r.Err? ==> r.error == ServerError && r.st.txns == s.txns
    ensures r == Ok(s, None) <==> s.accounts[cfg.lmsAccount].balance < UploadPayment
    ensures r.Err? ==> s.accounts[no].balance + UploadPayment < 0.0
    ensures r.Ok? && r.value.Some? ==> (
      && r.value.value.amount == UploadPayment
      && r.value.value.newBalance == s.accounts[no].balance + UploadPayment
      && r.st.accounts.Keys == s.accounts.Keys
      && r.st.accounts[no].balance == s.accounts[no].balance + UploadPayment
      && (no != cfg.lmsAccount ==> r.st.accounts[cfg.lmsAccount].balance == s.accounts[cfg.lmsAccount].balance - UploadPayment)
      && (forall n :: n in s.accounts && n != no && n != cfg.lmsAccount ==> r.st.accounts[n] == s.accounts[n])
      && |r.st.txns| == |s.txns| + 1 && r.st.txns[..|s.txns|] == s.txns
      && var t := r.st.txns[|s.txns|];
         && t.id == r.value.value.transactionId && t.kind == CourseUploadPayment && t.status == Completed
         && t.amount == UploadPayment && t.userId == Some(caller) && t.courseId == Some(courseId)
         && t.from == s.accounts[cfg.lmsAccount].number && t.to == s.accounts[no].number)
  {
    var lms := s.accounts[cfg.lmsAccount];
    var instr := s.accounts[no];
    if lms.balance < UploadPayment then Ok(s, None)
    else
      var a1 := s.accounts[cfg.lmsAccount := SaveBalance(cfg.hasher, lms, lms.balance - UploadPayment)];
      if instr.balance + UploadPayment < 0.0 then Err(s.(accounts := a1), ServerError)
      else
        var a2 := a1[no := SaveBalance(cfg.hasher, instr, instr.balance + UploadPayment)];
        var t := CompletedTransaction(uuid, lms.number, instr.number, UploadPayment, CourseUploadPayment,
                                      Some(courseId), Some(caller), "Payment for uploading course: " + title);
        var txns := s.txns + [t];
        assert txns[..|s.txns|] == s.txns;
        Ok(s.(accounts := a2, txns := txns), Some(UploadPaid(UploadPayment, t.id, instr.balance + UploadPayment)))
  }

  /** The accounts and records after a successful publish, against the state `s` before it. The LMS
      account exists, opened with 30000 if it was missing, and so does the caller's. When the LMS holds
      less than 5000 nothing is paid and nothing else changes. Otherwise the LMS pays 5000 into the
      caller's account, no other account changes, and one completed upload-payment record for the course
      is appended. */
  predicate PaidOnUpload(cfg: Config, s: State, s': State, caller: string, courseId: string,
                         payment: Option<UploadPaid>)
    requires caller in s.users
  {
    var a := EnsureLms(cfg, s, LmsSeedOnUpload).accounts;
    var no := s.users[caller].bankAccount;
    && no in a && cfg.lmsAccount in a
    && (payment.None? <==> a[cfg.lmsAccount].balance < UploadPayment)
    && (payment.None? ==> s'.accounts == a && s'.txns == s.txns)
    && (payment.Some? ==>
         && s'.accounts.Keys == a.Keys
         && s'.accounts[no].balance == a[no].balance + UploadPayment
         && (no != cfg.lmsAccount ==> s'.accounts[cfg.lmsAccount].balance == a[cfg.lmsAccount].balance - UploadPayment)
         && (forall n :: n in a && n != no && n != cfg.lmsAccount ==> s'.accounts[n] == a[n])
         && payment.value.amount == UploadPayment
         && |s'.txns| == |s.txns| + 1 && s'.txns[..|s.txns|] == s.txns
         && s'.txns[|s.txns|].kind == CourseUploadPayment && s'.txns[|s.txns|].status == Completed
         && s'.txns[|s.txns|].amount == UploadPayment && s'.txns[|s.txns|].userId == Some(caller)
         && s'.txns[|s.txns|].courseId == Some(courseId))
  }

  /** After the course is saved and recorded on the caller's profile: create the LMS account with
      30000 if it is missing, load the caller's account (a missing one fails only now), then pay. */
  function Publish(cfg: Config, s: State, caller: string, c: Course, uuid: string): (r: Reply<Uploaded>)
    requires caller in s.users
    ensures r.st.courses == s.courses && r.st.users == s.users
    ensures r.st.certificates == s.certificates && r.st.attempts == s.attempts
    ensures r.Ok? ==> r.value.course == c
    ensures r.Ok? ==> PaidOnUpload(cfg, s, r.st, caller, c.id, r.value.payment)
    ensures r.Err? ==> r.st.txns == s.txns
    ensures r.Err? ==> r.error == ServerError || r.error == InstructorBankNotFound
    ensures r.Err? && r.error == InstructorBankNotFound ==> r.st == EnsureLms(cfg, s, LmsSeedOnUpload)
  {
    var s2 := EnsureLms(cfg, s, LmsSeedOnUpload);
    var no := s.users[caller].bankAccount;
    if no !in s2.accounts then Err(s2, InstructorBankNotFound)
    else match PayForUpload(cfg, s2, caller, no, c.id, c.title, uuid)
      case Ok(s3, paid) => Ok(s3, Uploaded(c, paid))
      case Err(s3, e) => Err(s3, e)
  }

  /** Build the course (the schema may still refuse it), save it, record it on the caller's profile
      and publish it. */
  function StoreAndPublish(cfg: Config, s: State, caller: string, form: CourseForm, courseId: string, uuid: string)
    : (r: Reply<Uploaded>)
    requires caller in s.users && courseId !in s.courses && form.price.Some?
    ensures r.Ok? ==> (
      && r.st.courses == s.courses[courseId := r.value.course]
      && r.value.course.instructor == caller && r.value.course.title == Text.Trim(form.title)
      && r.value.course.isActive && Courses.Valid(r.value.course)
      && UploadRecorded(s.users, r.st.users, caller, courseId)
      && PaidOnUpload(cfg, s, r.st, caller, courseId, r.value.payment))
    ensures r.st.users == s.users || UploadRecorded(s.users, r.st.users, caller, courseId)
    ensures r.st.certificates == s.certificates && r.st.attempts == s.attempts
    ensures r.Err? ==> r.st.txns == s.txns
    ensures r.Err? ==> r.error == ServerError || r.error == InstructorBankNotFound
    ensures r.st.courses == s.courses || (courseId in r.st.courses && r.st.courses[courseId].isActive
                                          && r.st.courses == s.courses[courseId := r.st.courses[courseId]])
  {
    var c := NewCourse(courseId, form.title, form.description, form.price.value, caller, s.users[caller].name,
                       form.category, form.duration);
    if !Courses.Valid(c) then Err(s, ServerError)
    else
      var s1 := Store(s, caller, c);
      var r := Publish(cfg, s1, caller, c, uuid);
      PaidOnUploadIgnoresCatalogue(cfg, s, s1, r.st, caller, courseId, if r.Ok? then r.value.payment else None);
      r
  }

  /** The payment of a publish depends only on the accounts, the records and the caller's account
      number, so storing the course first does not change what it says. */
  lemma PaidOnUploadIgnoresCatalogue(cfg: Config, s: State, s1: State, s': State, caller: string, courseId: string,
                                     payment: Option<UploadPaid>)
    requires caller in s.users && caller in s1.users
    requires s1.accounts == s.accounts && s1.txns == s.txns
    requires s1.users[caller].bankAccount == s.users[caller].bankAccount
    ensures PaidOnUpload(cfg, s1, s', caller, courseId, payment) == PaidOnUpload(cfg, s, s', caller, courseId, payment)
  {
    assert EnsureLms(cfg, s1, LmsSeedOnUpload).accounts == EnsureLms(cfg, s, LmsSeedOnUpload).accounts;
  }

  /** Save the new course and append its id to the caller's `uploadedCourses`. */
  function Store(s: State, caller: string, c: Course): (r: State)
    requires caller in s.users
    ensures r == s.(courses := r.courses, users := r.users)
    ensures r.courses == s.courses[c.id := c]
    ensures UploadRecorded(s.users, r.users, caller, c.id)
  {
    var u := s.users[caller];
    s.(courses := s.courses[c.id := c], users := s.users[caller := u.(uploaded := u.uploaded + [c.id])])
  }

  /** POST /upload-course: the guards, then the course is stored and published. `courseId` is the
      new document's fresh id. */
  function UploadCourse(cfg: Config, s: State, caller: string, form: CourseForm, courseId: string, uuid: string)
    : (r: Reply<Uploaded>)
    requires caller in s.users && courseId !in s.courses
    ensures r.Ok? ==> ActiveCount(s.courses) < CourseLimit && !HasTitle(s.courses, caller, form.title, None)
    ensures r.Ok? ==> (
      && r.st.courses == s.courses[courseId := r.value.course]
      && r.value.course.instructor == caller && r.value.course.title == Text.Trim(form.title)
      && r.value.course.isActive && Courses.Valid(r.value.course)
      && UploadRecorded(s.users, r.st.users, caller, courseId)
      && PaidOnUpload(cfg, s, r.st, caller, courseId, r.value.payment))
    ensures r.st.users == s.users || UploadRecorded(s.users, r.st.users, caller, courseId)
    ensures r.st.certificates == s.certificates && r.st.attempts == s.attempts
    ensures r.Err? && r.error != InstructorBankNotFound && r.error != ServerError ==> r.st == s
    ensures r.Err? ==> r.st.txns == s.txns
    ensures r.st.courses == s.courses || (courseId in r.st.courses && r.st.courses[courseId].isActive
                                          && r.st.courses == s.courses[courseId := r.st.courses[courseId]])
  {
    match UploadGuard(s, caller, form)
    case Some(e) => Err(s, e)
    case None => StoreAndPublish(cfg, s, caller, form, courseId, uuid)
  }

  /** The upload's guards as the handler writes them, one after the other. */
  function UploadGuard(s: State, caller: string, form: CourseForm): Option<Error>
    requires caller in s.users
  {
    if form.title == "" || form.description == "" || form.price.None? then Some(MissingFields)
    else if ActiveCount(s.courses) >= CourseLimit then Some(CourseLimitReached)
    else if HasTitle(s.courses, caller, form.title, None) then Some(DuplicateTitle)
    else if s.users[caller].bankAccount == "" then Some(BankNotSetUp)
    else None
  }

  /** The reply of an upload is the first failing guard, and such a failure changes nothing. */
  lemma UploadReportsFirstFailure(cfg: Config, s: State, caller: string, form: CourseForm, courseId: string, uuid: string)
    requires caller in s.users && courseId !in s.courses
    ensures var r := UploadCourse(cfg, s, caller, form, courseId, uuid);
            var f := FirstFailure(UploadChecks(s, caller, form));
      f.Some? ==> r == Err(s, f.value)
  {
    UploadGuardIsFirstFailure(s, caller, form);
  }

  lemma UploadGuardIsFirstFailure(s: State, caller: string, form: CourseForm)
    requires caller in s.users
    ensures UploadGuard(s, caller, form) == FirstFailure(UploadChecks(s, caller, form))
  {
    var cs := UploadChecks(s, caller, form);
    FourGuards(cs[0], cs[1], cs[2], cs[3]);
  }

  /** The upload payment moves money between the LMS and the caller only: the total grows by exactly
      the opening balance of an LMS account the upload created (unless the caller's account is the
      LMS account, where the second save overwrites the first). */
  lemma UploadConserves(cfg: Config, s: State, caller: string, c: Course, uuid: string)
    requires caller in s.users && s.users[caller].bankAccount != cfg.lmsAccount
    requires Publish(cfg, s, caller, c, uuid).Ok?
    ensures Money.Total(Publish(cfg, s, caller, c, uuid).st.accounts)
         == Money.Total(s.accounts) + (if cfg.lmsAccount in s.accounts then 0.0 else LmsSeedOnUpload)
  {
    var s2 := EnsureLms(cfg, s, LmsSeedOnUpload);
    var no := s.users[caller].bankAccount;
    if cfg.lmsAccount !in s.accounts {
      Money.TotalAdd(s.accounts, cfg.lmsAccount, s2.accounts[cfg.lmsAccount]);
    }
    var lms, instr := s2.accounts[cfg.lmsAccount], s2.accounts[no];
    if lms.balance >= UploadPayment {
      var a1 := s2.accounts[cfg.lmsAccount := SaveBalance(cfg.hasher, lms, lms.balance - UploadPayment)];
      Money.TotalUpdate(s2.accounts, cfg.lmsAccount, a1[cfg.lmsAccount]);
      Money.TotalUpdate(a1, no, SaveBalance(cfg.hasher, instr, instr.balance + UploadPayment));
    }
  }

  /** Publishing keeps every stored balance at least 0 and every record amount at least 0. */
  lemma PublishKeepsLedgerOk(cfg: Config, s: State, caller: string, c: Course, uuid: string)
    requires caller in s.users && LedgerOk(s)
    ensures LedgerOk(Publish(cfg, s, caller, c, uuid).st)
  {
    var s2 := EnsureLms(cfg, s, LmsSeedOnUpload);
    assert LedgerOk(s2);
    var no := s.users[caller].bankAccount;
    if no in s2.accounts {
      PayKeepsLedgerOk(cfg, s2, caller, no, c.id, c.title, uuid);
    }
  }

  /** The upload payment saves only balances of at least 0 and a record of 5000. */
  lemma PayKeepsLedgerOk(cfg: Config, s: State, caller: string, no: AccountNo, courseId: string, title: string,
                         uuid: string)
    requires cfg.lmsAccount in s.accounts && no in s.accounts && LedgerOk(s)
    ensures LedgerOk(PayForUpload(cfg, s, caller, no, courseId, title, uuid).st)
  {
    var lms, instr := s.accounts[cfg.lmsAccount], s.accounts[no];
    if lms.balance >= UploadPayment {
      var a1 := s.accounts[cfg.lmsAccount := SaveBalance(cfg.hasher, lms, lms.balance - UploadPayment)];
      SaveKeepsAccountsOk(s.accounts, cfg.lmsAccount, a1[cfg.lmsAccount]);
      if instr.balance + UploadPayment >= 0.0 {
        SaveKeepsAccountsOk(a1, no, SaveBalance(cfg.hasher, instr, instr.balance + UploadPayment));
        var t := CompletedTransaction(uuid, lms.number, instr.number, UploadPayment, CourseUploadPayment,
                                      Some(courseId), Some(caller), "Payment for uploading course: " + title);
        AppendKeepsAmountsOk(s.txns, [t]);
      }
    }
  }

  /** Uploads never push the platform past its limit of active courses. */
  lemma UploadKeepsCourseLimit(cfg: Config, s: State, caller: string, form: CourseForm, courseId: string, uuid: string)
    requires caller in s.users && courseId !in s.courses
    requires ActiveCount(s.courses) <= CourseLimit
    ensures ActiveCount(UploadCourse(cfg, s, caller, form, courseId, uuid).st.courses) <= CourseLimit
  {
    var r := UploadCourse(cfg, s, caller, form, courseId, uuid);
    if r.st.courses != s.courses {
      ActiveCountAdd(s.courses, courseId, r.st.courses[courseId]);
    }
  }

  // ---------------------------------------------------------------------------------------------
  // Collecting a sale payment

  datatype Collected = Collected(payment: real, newBalance: real)

  /** The guards of POST /collect-payment/:transactionId, in the order the handler tests them. A
      transaction whose course is gone makes the ownership test throw. */
  function CollectChecks(cfg: Config, s: State, caller: string, txId: string, secret: string): seq<Check>
    requires caller in s.users
  {
    var found := Find(s.txns, txId);
    var t := if found.Some? then Some(s.txns[found.value]) else None;
    var course := if t.Some? && t.value.courseId.Some? && t.value.courseId.value in s.courses
                  then Some(s.courses[t.value.courseId.value]) else None;
    var instr := AccountOfUser(s, caller);
    [ Check(secret == "", MissingSecret),
      Check(t.None?, TransactionNotFound),
      Check(t.Some? && t.value.kind != InstructorPayment, InvalidTransactionType),
      Check(t.Some? && t.value.validated, PaymentAlreadyCollected),
      Check(course.None?, ServerError),
      Check(course.Some? && course.value.instructor != caller, NotAuthorized),
      Check(instr.None?, InstructorBankNotFound),
      Check(instr.Some? && !VerifySecret(cfg.hasher, instr.value, secret), InvalidSecret),
      Check(cfg.lmsAccount !in s.accounts, LmsAccountNotFound) ]
  }

  /** POST /collect-payment/:transactionId: acknowledge a sale payment. The money moved at purchase
      time, so only the transaction changes; the reply carries its amount and the unchanged balance. */
  function CollectPayment(cfg: Config, s: State, caller: string, txId: string, secret: string): (r: Reply<Collected>)
    requires caller in s.users
    ensures r.Err? ==> r.st == s
    ensures r.Ok? ==> (Find(s.txns, txId).Some?
      && var i := Find(s.txns, txId).value;
         && s.txns[i].kind == InstructorPayment && !s.txns[i].validated
         && s.txns[i].courseId.Some? && s.txns[i].courseId.value in s.courses
         && s.courses[s.txns[i].courseId.value].instructor == caller
         && r.value.payment == s.txns[i].amount
         && r.st == s.(txns := s.txns[i := s.txns[i].(validated := true, status := Validated)]))
    ensures r.Ok? ==> AccountOfUser(s, caller).Some? && r.value.newBalance == AccountOfUser(s, caller).value.balance
  {
    if secret == "" then Err(s, MissingSecret)
    else match Find(s.txns, txId)
      case None => Err(s, TransactionNotFound)
      case Some(i) =>
        var t := s.txns[i];
        if t.kind != InstructorPayment then Err(s, InvalidTransactionType)
        else if t.validated then Err(s, PaymentAlreadyCollected)
        else if t.courseId.None? || t.courseId.value !in s.courses then Err(s, ServerError)
        else if s.courses[t.courseId.value].instructor != caller then Err(s, NotAuthorized)
        else match AccountOfUser(s, caller)
          case None => Err(s, InstructorBankNotFound)
          case Some(instr) =>
            if !VerifySecret(cfg.hasher, instr, secret) then Err(s, InvalidSecret)
            else if cfg.lmsAccount !in s.accounts then Err(s, LmsAccountNotFound)
            else
              var t' := t.(validated := true, status := Validated);
              Ok(s.(txns := s.txns[i := t']), Collected(t.amount, instr.balance))
  }

  /** The reply of a collection is the first failing guard, and when none fails it goes through. */
  lemma CollectReportsFirstFailure(cfg: Config, s: State, caller: string, txId: string, secret: string)
    requires caller in s.users
    ensures var r := CollectPayment(cfg, s, caller, txId, secret);
            var f := FirstFailure(CollectChecks(cfg, s, caller, txId, secret));
      && (f.Some? ==> r == Err(s, f.value))
      && (f.None? ==> r.Ok?)
  {
    var cs := CollectChecks(cfg, s, caller, txId, secret);
    NineGuards(cs[0], cs[1], cs[2], cs[3], cs[4], cs[5], cs[6], cs[7], cs[8]);
  }

  /** Updating one record in place keeps the lookup of its id where it was. */
  lemma FindAfterUpdate(ts: seq<Transaction>, txId: string, t': Transaction)
    requires Find(ts, txId).Some? && t'.id == txId
    ensures Find(ts[Find(ts, txId).value := t'], txId) == Find(ts, txId)
  {
    var i := Find(ts, txId).value;
    var ts' := ts[i := t'];
    assert ts'[i].id == txId;
  }

  /** The two confirmation paths exclude each other: once a payment is collected, the bank's
      validation of the same transaction is refused, and so is a second collection. */
  lemma CollectThenValidateRefused(cfg: Config, s: State, caller: string, txId: string, secret: string,
                                   other: string, secret2: string)
    requires caller in s.users && other in s.users && txId != "" && secret2 != ""
    requires CollectPayment(cfg, s, caller, txId, secret).Ok?
    ensures var s' := CollectPayment(cfg, s, caller, txId, secret).st;
      && BankRoutes.Validate(cfg, s', other, txId, secret2) == Err(s', AlreadyValidated)
      && CollectPayment(cfg, s', other, txId, secret2) == Err(s', PaymentAlreadyCollected)
  {
    var i := Find(s.txns, txId).value;
    FindAfterUpdate(s.txns, txId, s.txns[i].(validated := true, status := Validated));
  }

  /** After the bank validated a transaction, collecting it is refused: a sale payment as already
      collected, any other record as the wrong type. */
  lemma ValidateThenCollectRefused(cfg: Config, s: State, caller: string, txId: string, secret: string,
                                   other: string, secret2: string)
    requires caller in s.users && other in s.users && secret2 != ""
    requires BankRoutes.Validate(cfg, s, caller, txId, secret).Ok?
    ensures var s' := BankRoutes.Validate(cfg, s, caller, txId, secret).st;
            var t := s.txns[Find(s.txns, txId).value];
      && other in s'.users
      && CollectPayment(cfg, s', other, txId, secret2)
         == Err(s', if t.kind != InstructorPayment then InvalidTransactionType else PaymentAlreadyCollected)
  {
    var i := Find(s.txns, txId).value;
    FindAfterUpdate(s.txns, txId, s.txns[i].(validated := true, status := Validated));
  }

  // ---------------------------------------------------------------------------------------------
  // Earnings and pending payments

  datatype Earnings = Earnings(uploadPayments: real, coursePayments: real, totalEarned: real, currentBalance: real,
                               transactions: seq<Transaction>)

  /** The caller's completed records of one kind. */
  function EarnedAs(caller: string, kind: TxKind): Transaction -> bool {
    (t: Transaction) => t.userId == Some(caller) && t.kind == kind && t.status == Completed
  }

  /** GET /earnings: the completed upload payments and the completed sale payments recorded under the
      caller, their sum, and the caller's balance (0 when the account is gone). */
  function InstructorEarnings(s: State, caller: string): (r: Reply<Earnings>)
    requires caller in s.users
    ensures r.st == s
    ensures r.Err? <==> s.users[caller].bankAccount == ""
    ensures r.Err? ==> r.error == BankNotSetUp
    ensures r.Ok? ==> r.value.totalEarned == r.value.uploadPayments + r.value.coursePayments
    ensures r.Ok? ==> (r.value.uploadPayments == SumIf(s.txns, EarnedAs(caller, CourseUploadPayment))
                       && r.value.coursePayments == SumIf(s.txns, EarnedAs(caller, InstructorPayment)))
    ensures r.Ok? ==> r.value.currentBalance == (if AccountOfUser(s, caller).Some? then AccountOfUser(s, caller).value.balance else 0.0)
    ensures r.Ok? ==> forall k :: 0 <= k < |r.value.transactions| ==>
      r.value.transactions[k].userId == Some(caller)
      && (r.value.transactions[k].kind == CourseUploadPayment || r.value.transactions[k].kind == InstructorPayment)
      && r.value.transactions[k] in s.txns
    ensures r.Ok? ==> forall k ::
      (0 <= k < |s.txns| && s.txns[k].userId == Some(caller)
       && (s.txns[k].kind == CourseUploadPayment || s.txns[k].kind == InstructorPayment))
      ==> s.txns[k] in r.value.transactions
  {
    var u := s.users[caller];
    if u.bankAccount == "" then Err(s, BankNotSetUp)
    else
      var mine := Filter(s.txns, (t: Transaction) => t.userId == Some(caller) && (t.kind == CourseUploadPayment || t.kind == InstructorPayment));
      var uploads := SumIf(mine, (t: Transaction) => t.kind == CourseUploadPayment && t.status == Completed);
      var sales := SumIf(mine, (t: Transaction) => t.kind == InstructorPayment && t.status == Completed);
      EarningsOverMine(s.txns, caller);
      var balance := match AccountOfUser(s, caller) case Some(a) => a.balance case None => 0.0;
      Ok(s, Earnings(uploads, sales, uploads + sales, balance, mine))
  }

  /** Summing over the caller's upload and sale records is summing over the whole collection with the
      caller and the kind in the condition. */
  lemma {:induction false} EarningsOverMine(ts: seq<Transaction>, caller: string)
    ensures var mine := Filter(ts, (t: Transaction) => t.userId == Some(caller) && (t.kind == CourseUploadPayment || t.kind == InstructorPayment));
      && SumIf(mine, (t: Transaction) => t.kind == CourseUploadPayment && t.status == Completed) == SumIf(ts, EarnedAs(caller, CourseUploadPayment))
      && SumIf(mine, (t: Transaction) => t.kind == InstructorPayment && t.status == Completed) == SumIf(ts, EarnedAs(caller, InstructorPayment))
    decreases |ts|
  {
    if |ts| > 0 {
      var n := |ts| - 1;
      var p := (t: Transaction) => t.userId == Some(caller) && (t.kind == CourseUploadPayment || t.kind == InstructorPayment);
      EarningsOverMine(ts[..n], caller);
      var head := Filter(ts[..n], p);
      var last := if p(ts[n]) then [ts[n]] else [];
      assert Filter(ts, p) == head + last;
      SumIfAppend(head, last, (t: Transaction) => t.kind == CourseUploadPayment && t.status == Completed);
      SumIfAppend(head, last, (t: Transaction) => t.kind == InstructorPayment && t.status == Completed);
      if p(ts[n]) {
        assert last[..0] == [];
      }
    }
  }

  /** Only completed records count: confirming a sale payment, by either path, removes its amount
      from the instructor's reported course payments. */
  lemma CollectLowersReportedEarnings(cfg: Config, s: State, caller: string, txId: string, secret: string)
    requires caller in s.users && s.users[caller].bankAccount != ""
    requires CollectPayment(cfg, s, caller, txId, secret).Ok?
    ensures var s' := CollectPayment(cfg, s, caller, txId, secret).st;
            var t := s.txns[Find(s.txns, txId).value];
            var before := InstructorEarnings(s, caller).value.coursePayments;
      && caller in s'.users
      && InstructorEarnings(s', caller).value.coursePayments
         == before - (if t.userId == Some(caller) && t.status == Completed then t.amount else 0.0)
  {
    var i := Find(s.txns, txId).value;
    var s' := CollectPayment(cfg, s, caller, txId, secret).st;
    var p := EarnedAs(caller, InstructorPayment);
    assert s.txns == s.txns[..i] + [s.txns[i]] + s.txns[i + 1..];
    assert s'.txns == s.txns[..i] + [s'.txns[i]] + s.txns[i + 1..];
    SumIfAppend(s.txns[..i] + [s.txns[i]], s.txns[i + 1..], p);
    SumIfAppend(s.txns[..i], [s.txns[i]], p);
    SumIfAppend(s.txns[..i] + [s'.txns[i]], s.txns[i + 1..], p);
    SumIfAppend(s.txns[..i], [s'.txns[i]], p);
    assert [s.txns[i]][..0] == [] && [s'.txns[i]][..0] == [];
  }

  /** A three-record sum, spelled out. */
  lemma SumIfThree(ts: seq<Transaction>, p: Transaction -> bool)
    requires |ts| == 3
    ensures SumIf(ts, p) == (if p(ts[0]) then ts[0].amount else 0.0) + (if p(ts[1]) then ts[1].amount else 0.0)
                            + (if p(ts[2]) then ts[2].amount else 0.0)
  {
    var a, b := ts[..1], ts[..2];
    assert b[..1] == a && a[..0] == [];
    assert SumIf(a, p) == (if p(ts[0]) then ts[0].amount else 0.0);
    assert SumIf(b, p) == SumIf(a, p) + (if p(ts[1]) then ts[1].amount else 0.0);
    assert ts[..2] == b;
  }

  /** A sale credits the course's instructor with exactly the 70% share in the reported course
      payments, and leaves the reported upload payments alone. */
  lemma PurchaseCreditsEarnings(cfg: Config, s: State, caller: string, courseId: string, secret: string,
                                purchaseUuid: string, paymentUuid: string, commissionUuid: string)
    requires caller in s.users
    requires LearnerRoutes.Purchase(cfg, s, caller, courseId, secret, purchaseUuid, paymentUuid, commissionUuid).Ok?
    ensures var s' := LearnerRoutes.Purchase(cfg, s, caller, courseId, secret, purchaseUuid, paymentUuid, commissionUuid).st;
            var instr := s.courses[courseId].instructor;
      && instr in s.users && instr in s'.users
      && InstructorEarnings(s, instr).Ok? && InstructorEarnings(s', instr).Ok?
      && InstructorEarnings(s', instr).value.coursePayments
         == InstructorEarnings(s, instr).value.coursePayments + s.courses[courseId].price * InstructorRate
      && InstructorEarnings(s', instr).value.uploadPayments == InstructorEarnings(s, instr).value.uploadPayments
  {
    var s' := LearnerRoutes.Purchase(cfg, s, caller, courseId, secret, purchaseUuid, paymentUuid, commissionUuid).st;
    var instr := s.courses[courseId].instructor;
    LearnerRoutes.PurchaseRecords(cfg, s, caller, courseId, secret, purchaseUuid, paymentUuid, commissionUuid);
    var n := |s.txns|;
    var added := s'.txns[n..];
    assert s'.txns == s.txns + added;
    SumIfAppend(s.txns, added, EarnedAs(instr, InstructorPayment));
    SumIfAppend(s.txns, added, EarnedAs(instr, CourseUploadPayment));
    SumIfThree(added, EarnedAs(instr, InstructorPayment));
    SumIfThree(added, EarnedAs(instr, CourseUploadPayment));
    assert SumIf(added, EarnedAs(instr, InstructorPayment)) == s.courses[courseId].price * InstructorRate;
    assert SumIf(added, EarnedAs(instr, CourseUploadPayment)) == 0.0;
  }

  /** A sale payment for one of the caller's courses that is not yet validated. */
  predicate AwaitsCollection(s: State, caller: string, t: Transaction) {
    && t.kind == InstructorPayment && !t.validated
    && t.courseId.Some? && t.courseId.value in s.courses && s.courses[t.courseId.value].instructor == caller
  }

  /** GET /pending-payments: the records awaiting the caller's collection, in collection order. */
  function PendingPayments(s: State, caller: string): (r: seq<Transaction>)
    ensures forall k :: 0 <= k < |r| ==> r[k] in s.txns && AwaitsCollection(s, caller, r[k])
    ensures forall k :: 0 <= k < |s.txns| && AwaitsCollection(s, caller, s.txns[k]) ==> s.txns[k] in r
  {
    Filter(s.txns, (t: Transaction) => AwaitsCollection(s, caller, t))
  }

  /** A collected payment is no longer pending; nothing else joins or leaves the list. */
  lemma CollectLeavesPending(cfg: Config, s: State, caller: string, txId: string, secret: string)
    requires caller in s.users
    requires CollectPayment(cfg, s, caller, txId, secret).Ok?
    ensures var s' := CollectPayment(cfg, s, caller, txId, secret).st;
            var i := Find(s.txns, txId).value;
      && s.txns[i] in PendingPayments(s, caller)
      && !AwaitsCollection(s', caller, s'.txns[i])
      && forall k :: 0 <= k < |s.txns| && k != i ==> s'.txns[k] == s.txns[k]
  {
  }

  // ---------------------------------------------------------------------------------------------
  // Quiz questions, course edits, materials

  /** POST /courses/:id/quiz. `options` is `None` when absent; `correctAnswer` when undefined. The
      save refuses an answer outside 0..3. `qid` is the new subdocument's fresh id. */
  function AddQuizQuestion(s: State, caller: string, courseId: string, question: string,
                           options: Option<seq<string>>, correctAnswer: Option<int>, qid: string)
    : (r: Reply<seq<QuizQuestion>>)
    ensures r.Err? ==> r.st == s
    ensures r.Ok? <==> && question != "" && options.Some? && |options.value| == 4 && correctAnswer.Some?
                       && courseId in s.courses && s.courses[courseId].instructor == caller
                       && Courses.Valid(s.courses[courseId].(quiz := s.courses[courseId].quiz
                            + [QuizQuestion(qid, question, options.value, correctAnswer.value)]))
    ensures r.Ok? ==> (r.value == s.courses[courseId].quiz + [QuizQuestion(qid, question, options.value, correctAnswer.value)]
      && 0 <= correctAnswer.value <= 3
      && r.st == s.(courses := s.courses[courseId := s.courses[courseId].(quiz := r.value)]))
  {
    if question == "" || options.None? || |options.value| != 4 || correctAnswer.None? then Err(s, InvalidQuizQuestion)
    else if courseId !in s.courses then Err(s, CourseNotFound)
    else
      var c := s.courses[courseId];
      if c.instructor != caller then Err(s, NotAuthorized)
      else
        var c' := c.(quiz := c.quiz + [QuizQuestion(qid, question, options.value, correctAnswer.value)]);
        if !Courses.Valid(c') then Err(s, ServerError)
        else
          assert c'.quiz[|c.quiz|] == QuizQuestion(qid, question, options.value, correctAnswer.value);
          Ok(s.(courses := s.courses[courseId := c']), c'.quiz)
  }

  /** A question added under a fresh id is the one a submission grades: the lookup by that id finds
      it, and an answer is right exactly when it picks the stored correct answer. */
  lemma AddedQuestionIsGraded(s: State, caller: string, courseId: string, question: string,
                              options: Option<seq<string>>, correctAnswer: Option<int>, qid: string, picked: int)
    requires AddQuizQuestion(s, caller, courseId, question, options, correctAnswer, qid).Ok?
    requires forall i :: 0 <= i < |s.courses[courseId].quiz| ==> s.courses[courseId].quiz[i].id != qid
    ensures var quiz := AddQuizQuestion(s, caller, courseId, question, options, correctAnswer, qid).st.courses[courseId].quiz;
      && FindQuestion(quiz, qid) == Some(QuizQuestion(qid, question, options.value, correctAnswer.value))
      && (LearnerRoutes.IsCorrect(quiz, LearnerRoutes.Answer(qid, picked)) <==> picked == correctAnswer.value)
  {
    var old_ := s.courses[courseId].quiz;
    var q := QuizQuestion(qid, question, options.value, correctAnswer.value);
    var quiz := AddQuizQuestion(s, caller, courseId, question, options, correctAnswer, qid).st.courses[courseId].quiz;
    assert quiz == old_ + [q];
    assert quiz[|old_|] == q;
    var f := FindQuestion(quiz, qid);
    assert f.Some?;
    assert f.value == q by {
      var k :| 0 <= k < |quiz| && quiz[k] == f.value;
      if k < |old_| {
        assert quiz[k] == old_[k];
      }
    }
  }

  /** The PUT /courses/:id body; `price` is `None` when undefined. */
  datatype CourseEdit = CourseEdit(title: string, description: string, price: Option<real>,
                                   category: string, duration: string)

  /** Apply the supplied fields: strings only when non-empty, the price whenever it is given. */
  function ApplyEdit(c: Course, e: CourseEdit): (r: Course)
    ensures r.title == (if e.title != "" then Text.Trim(e.title) else c.title)
    ensures r.description == (if e.description != "" then e.description else c.description)
    ensures r.price == (if e.price.Some? then e.price.value else c.price)
    ensures r.category == (if e.category != "" then e.category else c.category)
    ensures r.duration == (if e.duration != "" then e.duration else c.duration)
    ensures r.(title := c.title, description := c.description, price := c.price, category := c.category,
               duration := c.duration) == c
  {
    var c1 := if e.title != "" then SetTitle(c, e.title) else c;
    c1.(description := if e.description != "" then e.description else c.description,
        price := if e.price.Some? then e.price.value else c.price,
        category := if e.category != "" then e.category else c.category,
        duration := if e.duration != "" then e.duration else c.duration)
  }

  /** PUT /courses/:id (instructor): only the owner may edit; a title that changes is refused when
      another of the owner's courses already matches it; the edited course must pass the schema. */
  function UpdateCourse(s: State, caller: string, courseId: string, e: CourseEdit): (r: Reply<Course>)
    ensures r.Err? ==> r.st == s
    ensures r.Ok? <==> (courseId in s.courses && s.courses[courseId].instructor == caller
      && !(e.title != "" && Text.Trim(e.title) != s.courses[courseId].title
           && HasTitle(s.courses, caller, e.title, Some(courseId)))
      && Courses.Valid(ApplyEdit(s.courses[courseId], e)))
    ensures r.Ok? ==> r.value == ApplyEdit(s.courses[courseId], e)
    ensures r.Ok? ==> (courseId in s.courses && s.courses[courseId].instructor == caller
      && r.st == s.(courses := s.courses[courseId := r.value]) && Courses.Valid(r.value))
    ensures r.Ok? && e.title != "" && Text.Trim(e.title) != s.courses[courseId].title ==>
      !HasTitle(s.courses, caller, e.title, Some(courseId))
    ensures r.Err? ==> (r.error == DuplicateTitle <==>
      courseId in s.courses && s.courses[courseId].instructor == caller
      && e.title != "" && Text.Trim(e.title) != s.courses[courseId].title
      && HasTitle(s.courses, caller, e.title, Some(courseId)))
  {
    if courseId !in s.courses then Err(s, CourseNotFound)
    else
      var c := s.courses[courseId];
      if c.instructor != caller then Err(s, NotAuthorized)
      else if e.title != "" && Text.Trim(e.title) != c.title && HasTitle(s.courses, caller, e.title, Some(courseId)) then
        Err(s, DuplicateTitle)
      else
        var c' := ApplyEdit(c, e);
        if !Courses.Valid(c') then Err(s, ServerError)
        else Ok(s.(courses := s.courses[courseId := c']), c')
  }

  /** No two courses of `instructor` have the same title up to surrounding white space and case. */
  predicate OwnTitlesDistinct(courses: map<string, Course>, instructor: string) {
    forall a, b :: a in courses && b in courses && a != b
      && courses[a].instructor == instructor && courses[b].instructor == instructor
      ==> !Text.SameText(courses[a].title, courses[b].title)
  }

  /** A stored (trimmed) title that the requested one does not match is a different text from the
      title the request stores. */
  lemma UnmatchedIsDifferent(stored: string, requested: string)
    requires Text.Unpadded(stored) && !Text.TitleMatches(stored, requested)
    ensures !Text.SameText(stored, Text.Trim(requested))
  {
    Text.TrimUnpadded(stored);
    Text.TrimIdempotent(requested);
  }

  /** Replacing one course of the owner by a course whose title no other course of the owner has
      keeps the owner's titles pairwise different. */
  lemma ReplaceKeepsOwnTitlesDistinct(courses: map<string, Course>, instructor: string, id: string, c': Course)
    requires OwnTitlesDistinct(courses, instructor)
    requires id in courses && c'.instructor == courses[id].instructor
    requires forall b :: b in courses && b != id && courses[b].instructor == instructor
               ==> !Text.SameText(courses[b].title, c'.title)
    ensures OwnTitlesDistinct(courses[id := c'], instructor)
  {
    var m := courses[id := c'];
    forall a, b | a in m && b in m && a != b && m[a].instructor == instructor && m[b].instructor == instructor
      ensures !Text.SameText(m[a].title, m[b].title)
    {
      if a == id {
        assert !Text.SameText(courses[b].title, c'.title);
      } else if b == id {
        assert !Text.SameText(courses[a].title, c'.title);
      } else {
        assert m[a] == courses[a] && m[b] == courses[b];
      }
    }
  }

  /** The duplicate-title check keeps the owner's titles pairwise different: an edit that changes a
      title is accepted only when no other course of the owner matches the new one. */
  lemma UpdateKeepsOwnTitlesDistinct(s: State, caller: string, courseId: string, e: CourseEdit)
    requires forall id :: id in s.courses ==> Text.Unpadded(s.courses[id].title)
    requires OwnTitlesDistinct(s.courses, caller)
    requires UpdateCourse(s, caller, courseId, e).Ok?
    ensures OwnTitlesDistinct(UpdateCourse(s, caller, courseId, e).st.courses, caller)
  {
    var r := UpdateCourse(s, caller, courseId, e);
    var c := s.courses[courseId];
    var c' := ApplyEdit(c, e);
    assert r.st.courses == s.courses[courseId := c'];
    assert c'.instructor == c.instructor == caller;
    if c'.title == c.title {
      forall b | b in s.courses && b != courseId && s.courses[b].instructor == caller
        ensures !Text.SameText(s.courses[b].title, c'.title)
      {
        assert !Text.SameText(s.courses[b].title, c.title);
      }
    } else {
      assert !HasTitle(s.courses, caller, e.title, Some(courseId));
      forall b | b in s.courses && b != courseId && s.courses[b].instructor == caller
        ensures !Text.SameText(s.courses[b].title, c'.title)
      {
        assert !Text.TitleMatches(s.courses[b].title, e.title);
        UnmatchedIsDifferent(s.courses[b].title, e.title);
      }
    }
    ReplaceKeepsOwnTitlesDistinct(s.courses, caller, courseId, c');
  }

  /** A price of 0 is applied by this handler: any supplied price replaces the old one. */
  lemma UpdateAppliesZeroPrice(s: State, caller: string, courseId: string, e: CourseEdit)
    requires e.price == Some(0.0)
    requires UpdateCourse(s, caller, courseId, e).Ok?
    ensures UpdateCourse(s, caller, courseId, e).st.courses[courseId].price == 0.0
  {
  }

  /** DELETE /courses/:courseId/materials/:materialId: only the owner, only an existing material. */
  function DeleteMaterial(s: State, caller: string, courseId: string, materialId: string): (r: Reply<()>)
    ensures r.Err? ==> r.st == s
    ensures r.Ok? <==> courseId in s.courses && s.courses[courseId].instructor == caller
                       && HasMaterial(s.courses[courseId], materialId)
                       && Courses.Valid(s.courses[courseId].(materials := PullMaterial(s.courses[courseId].materials, materialId)))
    ensures r.Err? ==> r.error == (if courseId !in s.courses then CourseNotFound
                                  else if s.courses[courseId].instructor != caller then NotAuthorized
                                  else if !HasMaterial(s.courses[courseId], materialId) then MaterialNotFound
                                  else ServerError)
    ensures r.Ok? ==> (courseId in r.st.courses && r.st.courses.Keys == s.courses.Keys
      && forall k :: 0 <= k < |r.st.courses[courseId].materials| ==> r.st.courses[courseId].materials[k].id != materialId)
    ensures r.Ok? ==>
      r.st == s.(courses := s.courses[courseId := s.courses[courseId].(materials := PullMaterial(s.courses[courseId].materials, materialId))])
  {
    if courseId !in s.courses then Err(s, CourseNotFound)
    else
      var c := s.courses[courseId];
      if c.instructor != caller then Err(s, NotAuthorized)
      else if !HasMaterial(c, materialId) then Err(s, MaterialNotFound)
      else
        var c' := c.(materials := PullMaterial(c.materials, materialId));
        if !Courses.Valid(c') then Err(s, ServerError)
        else Ok(s.(courses := s.courses[courseId := c']), ())
  }

  /** With unique material ids, deleting a material removes exactly that one and keeps the others in order. */
  lemma DeleteMaterialRemovesOnlyThat(s: State, caller: string, courseId: string, i: nat)
    requires courseId in s.courses && i < |s.courses[courseId].materials|
    requires MaterialIdsDistinct(s.courses[courseId].materials)
    requires DeleteMaterial(s, caller, courseId, s.courses[courseId].materials[i].id).Ok?
    ensures var ms := s.courses[courseId].materials;
      DeleteMaterial(s, caller, courseId, ms[i].id).st.courses[courseId].materials == ms[..i] + ms[i + 1..]
  {
    PullRemovesOnlyThat(s.courses[courseId].materials, i);
  }
}

=== FILE: learner_routes.dfy ===
/** The learner handlers: course purchase with its 70/30 split, course completion, the quiz a
    learner is served, and quiz submission with scoring, completion and certificate issue.
    Bank set-up is `BankRoutes.CreateAccount`: the two handlers do the same thing. */
module LearnerRoutes {
  import opened Wrappers
  import opened BankAccount
  import opened Transactions
  import opened Courses
  import opened QuizAttempts
  import opened Lms
  import Money

  // ---------------------------------------------------------------------------------------------
  // Purchase

  /** The guards of POST /purchase/:courseId, in the order the handler tests them. The last two
      are checked after the LMS account was looked up and, if missing, created. */
  function PurchaseChecks(cfg: Config, s: State, caller: string, courseId: string, secret: string): seq<Check>
    requires caller in s.users
  {
    var u := s.users[caller];
    var learner := AccountOfUser(s, caller);
    var instrNo := if courseId in s.courses && s.courses[courseId].instructor in s.users
                   then s.users[s.courses[courseId].instructor].bankAccount else "";
    [ Check(secret == "", MissingSecret),
      Check(courseId !in s.courses, CourseNotFound),
      Check(IsEnrolled(u, courseId), AlreadyEnrolled),
      Check(u.bankAccount == "", BankNotSetUp),
      Check(learner.None?, BankAccountNotFound),
      Check(learner.Some? && !VerifySecret(cfg.hasher, learner.value, secret), InvalidSecret),
      Check(learner.Some? && courseId in s.courses && learner.value.balance < s.courses[courseId].price,
            InsufficientBalance),
      Check(instrNo == "", InstructorBankNotSetUp),
      Check(instrNo !in EnsureLms(cfg, s, LmsSeedOnPurchase).accounts, InstructorBankNotFound) ]
  }

  /** The three ledger entries of a sale of `course` for `p`: learner to LMS for the price,
      LMS to instructor for the 70% share, LMS to itself for the 30% commission. */
  function SaleRecords(courseId: string, course: Course, caller: string, learnerNo: AccountNo, lmsNo: AccountNo, instrNo: AccountNo,
                       purchaseUuid: string, paymentUuid: string, commissionUuid: string): (ts: seq<Transaction>)
    ensures |ts| == 3 && forall k :: 0 <= k < 3 ==> ts[k].status == Completed && !ts[k].validated
    ensures forall k :: 0 <= k < 3 ==> ts[k].courseId == Some(courseId)
    ensures ts[0].kind == CoursePurchase && ts[0].from == learnerNo && ts[0].to == lmsNo
            && ts[0].amount == course.price && ts[0].userId == Some(caller)
    ensures ts[1].kind == InstructorPayment && ts[1].from == lmsNo && ts[1].to == instrNo
            && ts[1].amount == course.price * InstructorRate && ts[1].userId == Some(course.instructor)
    ensures ts[2].kind == LmsCommission && ts[2].from == lmsNo && ts[2].to == lmsNo
            && ts[2].amount == course.price * CommissionRate && ts[2].userId == Some(caller)
  {
    var p := course.price;
    [ CompletedTransaction(purchaseUuid, learnerNo, lmsNo, p, CoursePurchase, Some(courseId), Some(caller),
                           "Purchase of course: " + course.title),
      CompletedTransaction(paymentUuid, lmsNo, instrNo, p * InstructorRate, InstructorPayment, Some(courseId),
                           Some(course.instructor), "70% payment for course: " + course.title),
      CompletedTransaction(commissionUuid, lmsNo, lmsNo, p * CommissionRate, LmsCommission, Some(courseId),
                           Some(caller), "30% commission for course: " + course.title) ]
  }

  /** POST /purchase/:courseId. The learner, instructor and LMS accounts are loaded as separate
      documents and saved in that order, each with the balance computed from what was loaded;
      a save that would store a negative balance, or a negative amount on the first ledger entry,
      fails `min: 0` after the earlier saves went through. The reply carries the learner's new balance. */
  function Purchase(cfg: Config, s: State, caller: string, courseId: string, secret: string,
                    purchaseUuid: string, paymentUuid: string, commissionUuid: string): (r: Reply<real>)
    requires caller in s.users
    ensures r.Ok? ==> courseId in s.courses && !IsEnrolled(s.users[caller], courseId)
    ensures r.Ok? ==> var no := s.users[caller].bankAccount;
      no in s.accounts && r.value == s.accounts[no].balance - s.courses[courseId].price && r.value >= 0.0
    ensures r.Ok? ==> (caller in r.st.users
      && r.st.users == s.users[caller := s.users[caller].(enrolled := s.users[caller].enrolled + [Enrollment(courseId, false)])]
      && IsEnrolled(r.st.users[caller], courseId))
    ensures r.st.certificates == s.certificates && r.st.attempts == s.attempts
    ensures r.Ok? ==> (courseId in r.st.courses
      && r.st.courses[courseId].enrolledStudents == s.courses[courseId].enrolledStudents + [caller])
    ensures r.Err? ==> r.st.users == s.users && r.st.courses == s.courses && r.st.txns == s.txns
    ensures r.Err? && r.error != InstructorBankNotSetUp && r.error != InstructorBankNotFound && r.error != ServerError
            ==> r.st == s
  {
    if secret == "" then Err(s, MissingSecret)
    else if courseId !in s.courses then Err(s, CourseNotFound)
    else if IsEnrolled(s.users[caller], courseId) then Err(s, AlreadyEnrolled)
    else if s.users[caller].bankAccount == "" then Err(s, BankNotSetUp)
    else Checkout(cfg, s, caller, courseId, secret, purchaseUuid, paymentUuid, commissionUuid)
  }

  /** The purchase after the checks on the request: the learner's account and balance, then the
      LMS account (created if missing), the instructor's account, and the sale. */
  function Checkout(cfg: Config, s: State, caller: string, courseId: string, secret: string,
                    purchaseUuid: string, paymentUuid: string, commissionUuid: string): (r: Reply<real>)
    requires caller in s.users && courseId in s.courses && !IsEnrolled(s.users[caller], courseId)
    requires s.users[caller].bankAccount != ""
    ensures r.Ok? ==> var no := s.users[caller].bankAccount;
      no in s.accounts && r.value == s.accounts[no].balance - s.courses[courseId].price && r.value >= 0.0
    ensures r.Ok? ==> (caller in r.st.users
      && r.st.users == s.users[caller := s.users[caller].(enrolled := s.users[caller].enrolled + [Enrollment(courseId, false)])]
      && IsEnrolled(r.st.users[caller], courseId))
    ensures r.st.certificates == s.certificates && r.st.attempts == s.attempts
    ensures r.Ok? ==> (courseId in r.st.courses
      && r.st.courses[courseId].enrolledStudents == s.courses[courseId].enrolledStudents + [caller])
    ensures r.Err? ==> r.st.users == s.users && r.st.courses == s.courses && r.st.txns == s.txns
    ensures r.Err? && r.error != InstructorBankNotSetUp && r.error != InstructorBankNotFound && r.error != ServerError
            ==> r.st == s
  {
    var course := s.courses[courseId];
    var u := s.users[caller];
    if u.bankAccount !in s.accounts then Err(s, BankAccountNotFound)
    else
      var learner := s.accounts[u.bankAccount];
      if !VerifySecret(cfg.hasher, learner, secret) then Err(s, InvalidSecret)
      else if learner.balance < course.price then Err(s, InsufficientBalance)
      else
        var s1 := EnsureLms(cfg, s, LmsSeedOnPurchase);
        if course.instructor !in s.users || s.users[course.instructor].bankAccount == "" then
          Err(s1, InstructorBankNotSetUp)
        else
          var instrNo := s.users[course.instructor].bankAccount;
          if instrNo !in s1.accounts then Err(s1, InstructorBankNotFound)
          else
            var r := Sell(cfg, s1, caller, courseId, instrNo, purchaseUuid, paymentUuid, commissionUuid);
            assert r.Ok? ==> r.st.users[caller].enrolled[|u.enrolled|].courseId == courseId;
            r
  }

  /** The sale once every guard passed and the three accounts are loaded: the learner's, the
      instructor's and the LMS balance are saved in that order, each computed from the loaded value,
      then the three records, the learner's enrolment and the course's student list are saved. */
  function Sell(cfg: Config, s: State, caller: string, courseId: string, instrNo: AccountNo,
                purchaseUuid: string, paymentUuid: string, commissionUuid: string): (r: Reply<real>)
    requires caller in s.users && courseId in s.courses
    requires s.users[caller].bankAccount in s.accounts && instrNo in s.accounts && cfg.lmsAccount in s.accounts
    ensures r.st.certificates == s.certificates && r.st.attempts == s.attempts
    ensures r.Err? ==> r.error == ServerError && r.st == s.(accounts := r.st.accounts)
    ensures var learnerNo, course := s.users[caller].bankAccount, s.courses[courseId];
            var lms, instr := s.accounts[cfg.lmsAccount], s.accounts[instrNo];
      r.Ok? <==> && instr.balance + course.price * InstructorRate >= 0.0
                 && lms.balance + course.price * CommissionRate >= 0.0 && course.price >= 0.0
    ensures var learnerNo, course, u := s.users[caller].bankAccount, s.courses[courseId], s.users[caller];
      r.Ok? ==> (
        && r.value == s.accounts[learnerNo].balance - course.price
        && r.st.accounts == SaleSaves(cfg.hasher, s.accounts, learnerNo, instrNo, cfg.lmsAccount, course.price)
        && r.st.txns == s.txns + SaleRecords(courseId, course, caller, s.accounts[learnerNo].number,
                                             s.accounts[cfg.lmsAccount].number, s.accounts[instrNo].number,
                                             purchaseUuid, paymentUuid, commissionUuid)
        && r.st.users == s.users[caller := u.(enrolled := u.enrolled + [Enrollment(courseId, false)])]
        && r.st.courses == s.courses[courseId := course.(enrolledStudents := course.enrolledStudents + [caller])])
  {
    var course := s.courses[courseId];
    var u := s.users[caller];
    var learner, instr, lms := s.accounts[u.bankAccount], s.accounts[instrNo], s.accounts[cfg.lmsAccount];
    var p := course.price;
    var saved := SaveSale(cfg.hasher, s.accounts, u.bankAccount, instrNo, cfg.lmsAccount, p);
    if !saved.1 || p < 0.0 then Err(s.(accounts := saved.0), ServerError)
    else
      var records := SaleRecords(courseId, course, caller, learner.number, lms.number, instr.number,
                                 purchaseUuid, paymentUuid, commissionUuid);
      var u' := u.(enrolled := u.enrolled + [Enrollment(courseId, false)]);
      var course' := course.(enrolledStudents := course.enrolledStudents + [caller]);
      Ok(s.(accounts := saved.0, txns := s.txns + records,
            users := s.users[caller := u'], courses := s.courses[courseId := course']), learner.balance - p)
  }

  /** The sale's three balance saves, in order: the learner's, the instructor's and the LMS's, each
      computed from the balance loaded before. A save that would store a negative balance fails, and
      the saves before it stay. The flag says whether all three went through. */
  function SaveSale(h: Hasher, m: map<AccountNo, Account>, learnerNo: AccountNo, instrNo: AccountNo,
                    lmsNo: AccountNo, p: real): (r: (map<AccountNo, Account>, bool))
    requires learnerNo in m && instrNo in m && lmsNo in m
    ensures r.1 <==> m[instrNo].balance + p * InstructorRate >= 0.0 && m[lmsNo].balance + p * CommissionRate >= 0.0
    ensures r.1 ==> r.0 == SaleSaves(h, m, learnerNo, instrNo, lmsNo, p)
    ensures AccountsOk(m) && m[learnerNo].balance >= p ==> AccountsOk(r.0)
  {
    var learner, instr, lms := m[learnerNo], m[instrNo], m[lmsNo];
    var a1 := m[learnerNo := SaveBalance(h, learner, learner.balance - p)];
    if instr.balance + p * InstructorRate < 0.0 then (a1, false)
    else
      var a2 := a1[instrNo := SaveBalance(h, instr, instr.balance + p * InstructorRate)];
      if lms.balance + p * CommissionRate < 0.0 then (a2, false)
      else (a2[lmsNo := SaveBalance(h, lms, lms.balance + p * CommissionRate)], true)
  }

  /** On a consistent ledger and catalogue, the reply of a purchase is the first failing guard, and
      when no guard fails the purchase goes through. */
  lemma PurchaseReportsFirstFailure(cfg: Config, s: State, caller: string, courseId: string, secret: string,
                                    purchaseUuid: string, paymentUuid: string, commissionUuid: string)
    requires caller in s.users && LedgerOk(s) && PricesOk(s)
    ensures var r := Purchase(cfg, s, caller, courseId, secret, purchaseUuid, paymentUuid, commissionUuid);
            var f := FirstFailure(PurchaseChecks(cfg, s, caller, courseId, secret));
      && (f.Some? ==> r.Err? && r.error == f.value)
      && (f.None? ==> r.Ok?)
  {
    var u := s.users[caller];
    if secret == "" || courseId !in s.courses || IsEnrolled(u, courseId) || u.bankAccount == "" {
      PurchaseRequestGuards(cfg, s, caller, courseId, secret, purchaseUuid, paymentUuid, commissionUuid);
    } else if u.bankAccount !in s.accounts || !VerifySecret(cfg.hasher, s.accounts[u.bankAccount], secret)
              || s.accounts[u.bankAccount].balance < s.courses[courseId].price {
      PurchaseLearnerGuards(cfg, s, caller, courseId, secret, purchaseUuid, paymentUuid, commissionUuid);
    } else {
      PurchaseInstructorGuards(cfg, s, caller, courseId, secret, purchaseUuid, paymentUuid, commissionUuid);
    }
  }

  /** The guards on the request, the course and the learner's profile. */
  lemma PurchaseRequestGuards(cfg: Config, s: State, caller: string, courseId: string, secret: string,
                              purchaseUuid: string, paymentUuid: string, commissionUuid: string)
    requires caller in s.users
    requires var u := s.users[caller];
      secret == "" || courseId !in s.courses || IsEnrolled(u, courseId) || u.bankAccount == ""
    ensures var f := FirstFailure(PurchaseChecks(cfg, s, caller, courseId, secret));
      f.Some? && Purchase(cfg, s, caller, courseId, secret, purchaseUuid, paymentUuid, commissionUuid) == Err(s, f.value)
  {
    var cs := PurchaseChecks(cfg, s, caller, courseId, secret);
    NineGuards(cs[0], cs[1], cs[2], cs[3], cs[4], cs[5], cs[6], cs[7], cs[8]);
  }

  /** The guards on the learner's bank account. */
  lemma PurchaseLearnerGuards(cfg: Config, s: State, caller: string, courseId: string, secret: string,
                              purchaseUuid: string, paymentUuid: string, commissionUuid: string)
    requires caller in s.users
    requires var u := s.users[caller];
      && secret != "" && courseId in s.courses && !IsEnrolled(u, courseId) && u.bankAccount != ""
      && (u.bankAccount !in s.accounts || !VerifySecret(cfg.hasher, s.accounts[u.bankAccount], secret)
          || s.accounts[u.bankAccount].balance < s.courses[courseId].price)
    ensures var f := FirstFailure(PurchaseChecks(cfg, s, caller, courseId, secret));
      f.Some? && Purchase(cfg, s, caller, courseId, secret, purchaseUuid, paymentUuid, commissionUuid) == Err(s, f.value)
  {
    var cs := PurchaseChecks(cfg, s, caller, courseId, secret);
    NineGuards(cs[0], cs[1], cs[2], cs[3], cs[4], cs[5], cs[6], cs[7], cs[8]);
  }

  /** The guards on the instructor, checked after the LMS account exists, and the payment itself. */
  lemma PurchaseInstructorGuards(cfg: Config, s: State, caller: string, courseId: string, secret: string,
                                 purchaseUuid: string, paymentUuid: string, commissionUuid: string)
    requires caller in s.users && LedgerOk(s) && PricesOk(s)
    requires var u := s.users[caller];
      && secret != "" && courseId in s.courses && !IsEnrolled(u, courseId) && u.bankAccount != ""
      && u.bankAccount in s.accounts && VerifySecret(cfg.hasher, s.accounts[u.bankAccount], secret)
      && s.accounts[u.bankAccount].balance >= s.courses[courseId].price
    ensures var r := Purchase(cfg, s, caller, courseId, secret, purchaseUuid, paymentUuid, commissionUuid);
            var f := FirstFailure(PurchaseChecks(cfg, s, caller, courseId, secret));
      && (f.Some? ==> r.Err? && r.error == f.value)
      && (f.None? ==> r.Ok?)
  {
    var cs := PurchaseChecks(cfg, s, caller, courseId, secret);
    NineGuards(cs[0], cs[1], cs[2], cs[3], cs[4], cs[5], cs[6], cs[7], cs[8]);
    var instructor := s.courses[courseId].instructor;
    if instructor in s.users && s.users[instructor].bankAccount != ""
       && s.users[instructor].bankAccount in EnsureLms(cfg, s, LmsSeedOnPurchase).accounts {
      PurchaseGoesThrough(cfg, s, caller, courseId, secret, purchaseUuid, paymentUuid, commissionUuid);
    }
  }

  /** With every guard passed, the saves cannot fail on a consistent ledger and catalogue. */
  lemma PurchaseGoesThrough(cfg: Config, s: State, caller: string, courseId: string, secret: string,
                            purchaseUuid: string, paymentUuid: string, commissionUuid: string)
    requires caller in s.users && LedgerOk(s) && PricesOk(s)
    requires var u := s.users[caller];
      && secret != "" && courseId in s.courses && !IsEnrolled(u, courseId) && u.bankAccount != ""
      && u.bankAccount in s.accounts && VerifySecret(cfg.hasher, s.accounts[u.bankAccount], secret)
      && s.accounts[u.bankAccount].balance >= s.courses[courseId].price
    requires var instructor := s.courses[courseId].instructor;
      && instructor in s.users && s.users[instructor].bankAccount != ""
      && s.users[instructor].bankAccount in EnsureLms(cfg, s, LmsSeedOnPurchase).accounts
    ensures Purchase(cfg, s, caller, courseId, secret, purchaseUuid, paymentUuid, commissionUuid).Ok?
  {
    var s1 := EnsureLms(cfg, s, LmsSeedOnPurchase);
    assert s1.accounts[cfg.lmsAccount].balance >= 0.0;
    assert s1.accounts[s.users[s.courses[courseId].instructor].bankAccount].balance >= 0.0;
  }

  /** A missing LMS account is created with a zero balance before the instructor's account is
      looked up, so it exists even when the purchase then fails on the instructor. */
  lemma PurchaseCreatesLmsBeforeInstructorCheck(cfg: Config, s: State, caller: string, courseId: string, secret: string,
                                                purchaseUuid: string, paymentUuid: string, commissionUuid: string)
    requires caller in s.users
    requires var r := Purchase(cfg, s, caller, courseId, secret, purchaseUuid, paymentUuid, commissionUuid);
      r.Err? && (r.error == InstructorBankNotSetUp || r.error == InstructorBankNotFound)
    ensures var r := Purchase(cfg, s, caller, courseId, secret, purchaseUuid, paymentUuid, commissionUuid);
      && cfg.lmsAccount in r.st.accounts
      && r.st.accounts.Keys == s.accounts.Keys + {cfg.lmsAccount}
      && (cfg.lmsAccount !in s.accounts ==> r.st.accounts[cfg.lmsAccount].balance == LmsSeedOnPurchase
                                            && r.st.accounts[cfg.lmsAccount].kind == LmsKind)
      && (forall n :: n in s.accounts ==> r.st.accounts[n] == s.accounts[n])
  {
  }

  /** A successful purchase debits the learner by the price, credits the instructor with 70% and the
      LMS with 30%, touches no other account, and when the three accounts are different keeps the
      total: the LMS account, if it had to be created, starts at zero. */
  lemma PurchaseSplit(cfg: Config, s: State, caller: string, courseId: string, secret: string,
                      purchaseUuid: string, paymentUuid: string, commissionUuid: string)
    requires caller in s.users
    requires Purchase(cfg, s, caller, courseId, secret, purchaseUuid, paymentUuid, commissionUuid).Ok?
    ensures var s' := Purchase(cfg, s, caller, courseId, secret, purchaseUuid, paymentUuid, commissionUuid).st;
            var p := s.courses[courseId].price;
            var learnerNo := s.users[caller].bankAccount;
            var instrNo := s.users[s.courses[courseId].instructor].bankAccount;
            var lmsBefore := if cfg.lmsAccount in s.accounts then s.accounts[cfg.lmsAccount].balance else LmsSeedOnPurchase;
      && s'.accounts.Keys == s.accounts.Keys + {cfg.lmsAccount}
      && (forall n :: n in s.accounts && n != learnerNo && n != instrNo && n != cfg.lmsAccount
                      ==> s'.accounts[n] == s.accounts[n])
      && (learnerNo != instrNo && learnerNo != cfg.lmsAccount && instrNo != cfg.lmsAccount ==>
            && s'.accounts[learnerNo].balance == s.accounts[learnerNo].balance - p
            && s'.accounts[instrNo].balance == s.accounts[instrNo].balance + p * InstructorRate
            && s'.accounts[cfg.lmsAccount].balance == lmsBefore + p * CommissionRate
            && Money.Total(s'.accounts) == Money.Total(s.accounts))
  {
    var s' := Purchase(cfg, s, caller, courseId, secret, purchaseUuid, paymentUuid, commissionUuid).st;
    var course := s.courses[courseId];
    var learnerNo := s.users[caller].bankAccount;
    var instrNo := s.users[course.instructor].bankAccount;
    var s1 := EnsureLms(cfg, s, LmsSeedOnPurchase);
    if cfg.lmsAccount !in s.accounts {
      Money.TotalAdd(s.accounts, cfg.lmsAccount, s1.accounts[cfg.lmsAccount]);
    }
    assert s'.accounts == SaleSaves(cfg.hasher, s1.accounts, learnerNo, instrNo, cfg.lmsAccount, course.price);
    if learnerNo != instrNo && learnerNo != cfg.lmsAccount && instrNo != cfg.lmsAccount {
      SaleSavesConserve(cfg.hasher, s1.accounts, learnerNo, instrNo, cfg.lmsAccount, course.price);
    }
  }

  /** The three balance saves of a sale, each computed from the balance loaded before any of them. */
  function SaleSaves(h: Hasher, m: map<AccountNo, Account>, learnerNo: AccountNo, instrNo: AccountNo,
                     lmsNo: AccountNo, p: real): (r: map<AccountNo, Account>)
    requires learnerNo in m && instrNo in m && lmsNo in m
    ensures r.Keys == m.Keys
    ensures forall n :: n in m && n != learnerNo && n != instrNo && n != lmsNo ==> r[n] == m[n]
  {
    var learner, instr, lms := m[learnerNo], m[instrNo], m[lmsNo];
    m[learnerNo := SaveBalance(h, learner, learner.balance - p)]
     [instrNo := SaveBalance(h, instr, instr.balance + p * InstructorRate)]
     [lmsNo := SaveBalance(h, lms, lms.balance + p * CommissionRate)]
  }

  /** On three different accounts the sale's saves move `p` from the learner, 70% of it to the
      instructor and 30% to the LMS, and keep the total. */
  lemma SaleSavesConserve(h: Hasher, m: map<AccountNo, Account>, learnerNo: AccountNo, instrNo: AccountNo,
                          lmsNo: AccountNo, p: real)
    requires learnerNo in m && instrNo in m && lmsNo in m
    requires learnerNo != instrNo && learnerNo != lmsNo && instrNo != lmsNo
    ensures var r := SaleSaves(h, m, learnerNo, instrNo, lmsNo, p);
      && r[learnerNo].balance == m[learnerNo].balance - p
      && r[instrNo].balance == m[instrNo].balance + p * InstructorRate
      && r[lmsNo].balance == m[lmsNo].balance + p * CommissionRate
      && Money.Total(r) == Money.Total(m)
  {
    var learner, instr, lms := m[learnerNo], m[instrNo], m[lmsNo];
    var a1 := m[learnerNo := SaveBalance(h, learner, learner.balance - p)];
    var a2 := a1[instrNo := SaveBalance(h, instr, instr.balance + p * InstructorRate)];
    Money.TotalUpdate(m, learnerNo, a1[learnerNo]);
    Money.TotalUpdate(a1, instrNo, a2[instrNo]);
    Money.TotalUpdate(a2, lmsNo, SaveBalance(h, lms, lms.balance + p * CommissionRate));
  }

  /** Whatever a purchase replies, the ledger stays consistent: the created LMS account starts at zero,
      and the saves refuse a negative balance or a negative price. */
  lemma PurchaseKeepsLedgerOk(cfg: Config, s: State, caller: string, courseId: string, secret: string,
                              purchaseUuid: string, paymentUuid: string, commissionUuid: string)
    requires caller in s.users && LedgerOk(s)
    ensures LedgerOk(Purchase(cfg, s, caller, courseId, secret, purchaseUuid, paymentUuid, commissionUuid).st)
  {
    if secret != "" && courseId in s.courses && !IsEnrolled(s.users[caller], courseId) && s.users[caller].bankAccount != "" {
      CheckoutKeepsLedgerOk(cfg, s, caller, courseId, secret, purchaseUuid, paymentUuid, commissionUuid);
    }
  }

  /** The checkout creates the LMS account at zero and then saves only what the sale saves. */
  lemma CheckoutKeepsLedgerOk(cfg: Config, s: State, caller: string, courseId: string, secret: string,
                              purchaseUuid: string, paymentUuid: string, commissionUuid: string)
    requires caller in s.users && courseId in s.courses && !IsEnrolled(s.users[caller], courseId)
    requires s.users[caller].bankAccount != "" && LedgerOk(s)
    ensures LedgerOk(Checkout(cfg, s, caller, courseId, secret, purchaseUuid, paymentUuid, commissionUuid).st)
  {
    var s1 := EnsureLms(cfg, s, LmsSeedOnPurchase);
    assert LedgerOk(s1);
    var course := s.courses[courseId];
    var learnerNo := s.users[caller].bankAccount;
    if learnerNo in s.accounts && VerifySecret(cfg.hasher, s.accounts[learnerNo], secret)
       && s.accounts[learnerNo].balance >= course.price
       && course.instructor in s.users && s.users[course.instructor].bankAccount in s1.accounts {
      var instrNo := s.users[course.instructor].bankAccount;
      assert s1.accounts[learnerNo] == s.accounts[learnerNo];
      SellKeepsLedgerOk(cfg, s1, caller, courseId, instrNo, purchaseUuid, paymentUuid, commissionUuid);
    }
  }

  /** The sale's saves keep every stored balance and amount at least 0, given that the learner can pay. */
  lemma SellKeepsLedgerOk(cfg: Config, s: State, caller: string, courseId: string, instrNo: AccountNo,
                          purchaseUuid: string, paymentUuid: string, commissionUuid: string)
    requires caller in s.users && courseId in s.courses
    requires s.users[caller].bankAccount in s.accounts && instrNo in s.accounts && cfg.lmsAccount in s.accounts
    requires LedgerOk(s) && s.accounts[s.users[caller].bankAccount].balance >= s.courses[courseId].price
    ensures LedgerOk(Sell(cfg, s, caller, courseId, instrNo, purchaseUuid, paymentUuid, commissionUuid).st)
  {
    var r := Sell(cfg, s, caller, courseId, instrNo, purchaseUuid, paymentUuid, commissionUuid);
    if r.Ok? {
      var course, learnerNo := s.courses[courseId], s.users[caller].bankAccount;
      AppendKeepsAmountsOk(s.txns, SaleRecords(courseId, course, caller, s.accounts[learnerNo].number,
                                               s.accounts[cfg.lmsAccount].number, s.accounts[instrNo].number,
                                               purchaseUuid, paymentUuid, commissionUuid));
    }
  }

  /** A successful purchase appends exactly the three sale records, in order, after the existing ones. */
  lemma PurchaseRecords(cfg: Config, s: State, caller: string, courseId: string, secret: string,
                        purchaseUuid: string, paymentUuid: string, commissionUuid: string)
    requires caller in s.users
    requires Purchase(cfg, s, caller, courseId, secret, purchaseUuid, paymentUuid, commissionUuid).Ok?
    ensures var s' := Purchase(cfg, s, caller, courseId, secret, purchaseUuid, paymentUuid, commissionUuid).st;
            var course := s.courses[courseId];
            var n := |s.txns|;
      && |s'.txns| == n + 3 && s'.txns[..n] == s.txns
      && s'.txns[n].kind == CoursePurchase && s'.txns[n].amount == course.price && s'.txns[n].userId == Some(caller)
      && s'.txns[n + 1].kind == InstructorPayment && s'.txns[n + 1].amount == course.price * InstructorRate
      && s'.txns[n + 1].userId == Some(course.instructor)
      && s'.txns[n + 2].kind == LmsCommission && s'.txns[n + 2].amount == course.price * CommissionRate
      && (forall k :: n <= k < n + 3 ==> s'.txns[k].status == Completed && s'.txns[k].courseId == Some(courseId))
      && s'.txns[n].amount == s'.txns[n + 1].amount + s'.txns[n + 2].amount
  {
  }

  /** Buying the same course a second time is refused as already enrolled, and changes nothing. */
  lemma PurchaseTwiceFails(cfg: Config, s: State, caller: string, courseId: string, secret: string,
                           purchaseUuid: string, paymentUuid: string, commissionUuid: string,
                           secret2: string, uuid1: string, uuid2: string, uuid3: string)
    requires caller in s.users && secret2 != ""
    requires Purchase(cfg, s, caller, courseId, secret, purchaseUuid, paymentUuid, commissionUuid).Ok?
    ensures var s' := Purchase(cfg, s, caller, courseId, secret, purchaseUuid, paymentUuid, commissionUuid).st;
      caller in s'.users && Purchase(cfg, s', caller, courseId, secret2, uuid1, uuid2, uuid3) == Err(s', AlreadyEnrolled)
  {
  }

  // ---------------------------------------------------------------------------------------------
  // Completion

  /** POST /complete/:courseId: mark the caller's enrolment completed and issue a certificate. The
      enrolment is saved before the course is used, so a deleted course leaves the flag set and
      fails with a server error; a certificate with an empty name or title fails `required`. */
  function Complete(s: State, caller: string, courseId: string, certId: string): (r: Reply<Certificate>)
    requires caller in s.users
    ensures r.Ok? <==> && FindEnrollment(s.users[caller].enrolled, courseId).Some?
                       && !CompletedIn(s, caller, courseId)
                       && courseId in s.courses && s.courses[courseId].title != "" && s.users[caller].name != ""
    ensures r.Ok? ==> (r.st.certificates == s.certificates + [r.value]
      && r.value.userId == caller && r.value.courseId == courseId && r.value.courseTitle == s.courses[courseId].title)
    ensures r.Err? && r.error != ServerError ==> r.st == s
    ensures r.Err? ==> r.st.certificates == s.certificates
    ensures r.Ok? || (r.Err? && r.error == ServerError) ==> CompletedIn(r.st, caller, courseId)
    ensures r.Ok? || (r.Err? && r.error == ServerError) ==>
      r.st == s.(users := r.st.users, certificates := r.st.certificates) && MarkedCompleted(s, r.st, caller, courseId)
  {
    var u := s.users[caller];
    match FindEnrollment(u.enrolled, courseId)
    case None => Err(s, NotEnrolled)
    case Some(i) =>
      if u.enrolled[i].completed then Err(s, AlreadyCompleted)
      else
        var es := u.enrolled[i := u.enrolled[i].(completed := true)];
        FindEnrollmentSameIds(u.enrolled, es, courseId);
        var s1 := s.(users := s.users[caller := u.(enrolled := es)]);
        if courseId !in s.courses then Err(s1, ServerError)
        else
          var c := Certificate(certId, caller, u.name, courseId, s.courses[courseId].title);
          if u.name == "" || c.courseTitle == "" then Err(s1, ServerError)
          else Ok(s1.(certificates := s.certificates + [c]), c)
  }

  /** Marking one enrolment completed keeps every completed enrolment completed. */
  lemma MarkCompletedKeeps(s: State, caller: string, i: nat, uid: string, courseId: string)
    requires caller in s.users && i < |s.users[caller].enrolled|
    requires CompletedIn(s, uid, courseId)
    ensures var u := s.users[caller];
            var s' := s.(users := s.users[caller := u.(enrolled := u.enrolled[i := u.enrolled[i].(completed := true)])]);
      CompletedIn(s', uid, courseId)
  {
    var u := s.users[caller];
    FindEnrollmentSameIds(u.enrolled, u.enrolled[i := u.enrolled[i].(completed := true)], courseId);
  }

  /** Completion keeps certificates unique per learner and course and backed by a completed enrolment. */
  lemma CompleteKeepsCertificatesOk(s: State, caller: string, courseId: string, certId: string)
    requires caller in s.users && CertificatesOk(s)
    ensures CertificatesOk(Complete(s, caller, courseId, certId).st)
  {
    var r := Complete(s, caller, courseId, certId);
    var u := s.users[caller];
    var k := FindEnrollment(u.enrolled, courseId);
    if k.Some? && !u.enrolled[k.value].completed {
      forall j | 0 <= j < |s.certificates|
        ensures CompletedIn(r.st, s.certificates[j].userId, s.certificates[j].courseId)
      {
        MarkCompletedKeeps(s, caller, k.value, s.certificates[j].userId, s.certificates[j].courseId);
      }
      if r.Ok? {
        assert !CompletedIn(s, caller, courseId);
        assert forall j :: 0 <= j < |s.certificates| ==>
          s.certificates[j].userId != caller || s.certificates[j].courseId != courseId;
        assert r.st.certificates[|s.certificates|] == r.value;
      }
    }
  }

  // ---------------------------------------------------------------------------------------------
  // Quiz

  /** A question as served to a learner: no correct answer, and its position in the served list. */
  datatype QuestionView = QuestionView(id: string, question: string, options: seq<string>, index: nat)

  /** `order` lists each position of a sequence of length `n` exactly once. */
  predicate IsPermutation(order: seq<nat>, n: nat) {
    && |order| == n
    && (forall k :: 0 <= k < n ==> order[k] < n)
    && (forall j, k :: 0 <= j < k < n ==> order[j] != order[k])
  }

  /** GET /courses/:id/quiz. The shuffle is supplied as `order`, a permutation of the course's
      question positions; the first ten of the shuffled questions are served. */
  function QuizQuestions(s: State, caller: string, courseId: string, order: seq<nat>): (r: Reply<seq<QuestionView>>)
    requires caller in s.users
    requires courseId in s.courses ==> IsPermutation(order, |s.courses[courseId].quiz|)
    ensures r.st == s
    ensures r.Ok? <==> courseId in s.courses && IsEnrolled(s.users[caller], courseId)
                       && |s.courses[courseId].quiz| >= QuizSize
    ensures r.Err? ==> r.error == (if courseId !in s.courses then CourseNotFound
                                  else if !IsEnrolled(s.users[caller], courseId) then MustPurchase
                                  else NotEnoughQuestions(|s.courses[courseId].quiz|))
    ensures r.Ok? ==> (|r.value| == QuizSize
      && forall k :: 0 <= k < QuizSize ==>
           r.value[k].index == k && ServedAs(s.courses[courseId].quiz[order[k]], r.value[k]))
    ensures r.Ok? ==> forall j, k :: 0 <= j < k < QuizSize ==> order[j] != order[k]
  {
    if courseId !in s.courses then Err(s, CourseNotFound)
    else if !IsEnrolled(s.users[caller], courseId) then Err(s, MustPurchase)
    else
      var quiz := s.courses[courseId].quiz;
      if |quiz| < QuizSize then Err(s, NotEnoughQuestions(|quiz|))
      else
        var views := seq(QuizSize, k requires 0 <= k < QuizSize =>
                           QuestionView(quiz[order[k]].id, quiz[order[k]].question, quiz[order[k]].options, k));
        Ok(s, views)
  }

  /** A served view shows exactly the question's id, text and options. */
  predicate ServedAs(q: QuizQuestion, v: QuestionView) {
    v.id == q.id && v.question == q.question && v.options == q.options
  }

  /** One submitted answer: the question it names and the option picked. */
  datatype Answer = Answer(questionId: string, selectedAnswer: int)

  /** An answer is right when its id names a question of the course and the picked option is that
      question's correct answer; an unknown id counts as wrong. */
  predicate IsCorrect(quiz: seq<QuizQuestion>, a: Answer) {
    var q := FindQuestion(quiz, a.questionId);
    q.Some? && q.value.correctAnswer == a.selectedAnswer
  }

  /** The answers as recorded on the attempt. */
  function Grade(quiz: seq<QuizQuestion>, answers: seq<Answer>): (rs: seq<AnswerRecord>)
    ensures |rs| == |answers|
    ensures forall k :: 0 <= k < |answers| ==>
      rs[k].questionId == answers[k].questionId && rs[k].selectedAnswer == answers[k].selectedAnswer
      && (rs[k].correct <==> exists i :: 0 <= i < |quiz| && quiz[i].id == answers[k].questionId
                                         && quiz[i].correctAnswer == answers[k].selectedAnswer
                                         && forall j :: 0 <= j < i ==> quiz[j].id != answers[k].questionId)
  {
    var rs := seq(|answers|, k requires 0 <= k < |answers| =>
                    AnswerRecord(answers[k].questionId, answers[k].selectedAnswer, IsCorrect(quiz, answers[k])));
    assert forall k :: 0 <= k < |answers| ==> (rs[k].correct <==> IsCorrect(quiz, answers[k]));
    forall k | 0 <= k < |answers| ensures IsCorrect(quiz, answers[k]) <==>
      exists i :: 0 <= i < |quiz| && quiz[i].id == answers[k].questionId
                  && quiz[i].correctAnswer == answers[k].selectedAnswer
                  && forall j :: 0 <= j < i ==> quiz[j].id != answers[k].questionId
    {
      FirstQuestion(quiz, answers[k].questionId);
    }
    rs
  }

  /** `FindQuestion` returns the first question carrying the id. */
  lemma {:induction false} FirstQuestion(qs: seq<QuizQuestion>, qid: string)
    ensures FindQuestion(qs, qid).Some? ==>
      exists i :: 0 <= i < |qs| && qs[i] == FindQuestion(qs, qid).value && forall j :: 0 <= j < i ==> qs[j].id != qid
    ensures forall i :: 0 <= i < |qs| && qs[i].id == qid && (forall j :: 0 <= j < i ==> qs[j].id != qid)
                        ==> FindQuestion(qs, qid) == Some(qs[i])
    decreases |qs|
  {
    if |qs| > 0 && qs[0].id != qid {
      FirstQuestion(qs[1..], qid);
      var r := FindQuestion(qs[1..], qid);
      if r.Some? {
        var i :| 0 <= i < |qs[1..]| && qs[1..][i] == r.value && forall j :: 0 <= j < i ==> qs[1..][j].id != qid;
        assert qs[i + 1] == r.value;
      }
      forall i | 0 <= i < |qs| && qs[i].id == qid && (forall j :: 0 <= j < i ==> qs[j].id != qid)
        ensures FindQuestion(qs, qid) == Some(qs[i])
      {
        assert qs[1..][i - 1] == qs[i];
      }
    }
  }

  /** The number of answers recorded as correct: `correctCount`. */
  function Score(rs: seq<AnswerRecord>): (n: nat)
    ensures n <= |rs|
  {
    if |rs| == 0 then 0
    else Score(rs[..|rs| - 1]) + (if rs[|rs| - 1].correct then 1 else 0)
  }

  /** The score counts the positions of the correct answers. */
  lemma {:induction false} ScoreCountsCorrect(rs: seq<AnswerRecord>)
    ensures Score(rs) == |set k | 0 <= k < |rs| && rs[k].correct|
    decreases |rs|
  {
    if |rs| > 0 {
      var n := |rs| - 1;
      ScoreCountsCorrect(rs[..n]);
      var before := set k | 0 <= k < n && rs[..n][k].correct;
      var all := set k | 0 <= k < |rs| && rs[k].correct;
      if rs[n].correct {
        assert all == before + {n};
      } else {
        assert all == before;
      }
    }
  }

  datatype QuizResult = QuizResult(score: nat, totalQuestions: nat, passed: bool)

  /** POST /courses/:id/quiz/submit. The attempt is recorded whether or not the caller is enrolled;
      an attempt scoring above ten fails the score's `max: 10` before anything is saved; a missing
      answer list throws. On a pass, the caller's first enrolment for the course is marked completed
      if it is not already, and then a certificate is issued unless one exists for the pair. */
  function SubmitQuiz(s: State, caller: string, courseId: string, answers: Option<seq<Answer>>, certId: string)
    : (r: Reply<QuizResult>)
    requires caller in s.users
    ensures r.Err? && r.error != ServerError ==> r.st == s && r.error == CourseNotFound
    ensures r.st.accounts == s.accounts && r.st.txns == s.txns && r.st.courses == s.courses
    ensures r.Ok? ==> (courseId in s.courses && answers.Some?
      && r.value.score == |set k | 0 <= k < |answers.value| && IsCorrect(s.courses[courseId].quiz, answers.value[k])|
      && r.value.score <= 10 && (r.value.passed <==> r.value.score >= PassMark)
      && r.value.totalQuestions == QuizSize)
    ensures r.Ok? ==> (|r.st.attempts| == |s.attempts| + 1 && r.st.attempts[..|s.attempts|] == s.attempts
      && r.st.attempts[|s.attempts|].score == r.value.score && QuizAttempts.Valid(r.st.attempts[|s.attempts|]))
    ensures r.Ok? && !r.value.passed ==> r.st == s.(attempts := r.st.attempts)
    ensures |s.certificates| <= |r.st.certificates| <= |s.certificates| + 1
            && r.st.certificates[..|s.certificates|] == s.certificates
    ensures |r.st.certificates| == |s.certificates| + 1 ==>
      r.Ok? && r.value.passed && r.st.certificates[|s.certificates|].userId == caller
      && r.st.certificates[|s.certificates|].courseId == courseId
      && !HasCertificate(s.certificates, caller, courseId) && FindEnrollment(s.users[caller].enrolled, courseId).Some?
    ensures r.Ok? && r.value.passed && !CompletionDue(s, caller, courseId) ==> r.st == s.(attempts := r.st.attempts)
    ensures r.Ok? && r.value.passed && CompletionDue(s, caller, courseId) ==> MarkedCompleted(s, r.st, caller, courseId)
    ensures r.Ok? && r.value.passed && HasCertificate(s.certificates, caller, courseId) ==>
      r.st.certificates == s.certificates
    ensures r.Ok? && r.value.passed && CompletionDue(s, caller, courseId) && !HasCertificate(s.certificates, caller, courseId) ==>
      r.st.certificates == s.certificates + [PassCertificate(s, caller, courseId, certId)]
    ensures r.Err? && r.error == ServerError ==>
      && r.st.certificates == s.certificates
      && (r.st == s || (CompletionDue(s, caller, courseId) && MarkedCompleted(s, r.st, caller, courseId)))
    ensures r.Err? && r.error == ServerError && r.st != s ==>
      && courseId in s.courses && CompletionDue(s, caller, courseId) && !HasCertificate(s.certificates, caller, courseId)
      && (s.users[caller].name == "" || s.courses[courseId].title == "")
  {
    if courseId !in s.courses then Err(s, CourseNotFound)
    else if answers.None? then Err(s, ServerError)
    else
      var course := s.courses[courseId];
      var graded := Grade(course.quiz, answers.value);
      var score := Score(graded);
      GradeCounts(course.quiz, answers.value);
      if score > 10 then Err(s, ServerError)
      else
        var attempt := QuizAttempt(caller, courseId, score, DefaultTotalQuestions, score >= PassMark, graded);
        var s1 := s.(attempts := s.attempts + [attempt]);
        var result := QuizResult(score, QuizSize, score >= PassMark);
        if !result.passed then Ok(s1, result)
        else CompleteOnPass(s1, caller, courseId, certId, result)
  }

  /** The score of the recorded answers is the number of answers that are right. */
  lemma GradeCounts(quiz: seq<QuizQuestion>, answers: seq<Answer>)
    ensures Score(Grade(quiz, answers)) == |set k | 0 <= k < |answers| && IsCorrect(quiz, answers[k])|
  {
    var graded := Grade(quiz, answers);
    ScoreCountsCorrect(graded);
    assert (set k | 0 <= k < |graded| && graded[k].correct)
        == (set k | 0 <= k < |answers| && IsCorrect(quiz, answers[k]));
  }

  /** The caller has an enrolment for the course and the first one is not yet completed: the case in
      which a pass completes it. */
  predicate CompletionDue(s: State, caller: string, courseId: string)
    requires caller in s.users
  {
    FindEnrollment(s.users[caller].enrolled, courseId).Some? && !CompletedIn(s, caller, courseId)
  }

  /** The certificate a pass issues to the caller for the course. */
  function PassCertificate(s: State, caller: string, courseId: string, certId: string): (c: Certificate)
    requires caller in s.users && courseId in s.courses
    ensures c.userId == caller && c.courseId == courseId
    ensures c.userName == s.users[caller].name && c.courseTitle == s.courses[courseId].title
  {
    Certificate(certId, caller, s.users[caller].name, courseId, s.courses[courseId].title)
  }

  /** `s'` is `s` with the caller's first enrolment for the course, not completed in `s`, now completed. */
  predicate MarkedCompleted(s: State, s': State, caller: string, courseId: string)
    requires caller in s.users
  {
    var u := s.users[caller];
    match FindEnrollment(u.enrolled, courseId)
    case None => false
    case Some(i) =>
      && !u.enrolled[i].completed
      && s'.users == s.users[caller := u.(enrolled := u.enrolled[i := u.enrolled[i].(completed := true)])]
  }

  /** The pass branch of a submission: the caller's first enrolment for the course, when there is one
      and it is not completed, is marked completed, and then a certificate is issued unless one exists
      for the pair. A certificate with an empty name or title fails `required`. */
  function CompleteOnPass(s: State, caller: string, courseId: string, certId: string, result: QuizResult)
    : (r: Reply<QuizResult>)
    requires caller in s.users && courseId in s.courses
    ensures r.st.attempts == s.attempts && r.st.accounts == s.accounts && r.st.txns == s.txns
            && r.st.courses == s.courses
    ensures r.Ok? ==> r.value == result
    ensures r.Err? ==> r.error == ServerError
    ensures r.st.users == s.users || MarkedCompleted(s, r.st, caller, courseId)
    ensures |s.certificates| <= |r.st.certificates| <= |s.certificates| + 1
            && r.st.certificates[..|s.certificates|] == s.certificates
    ensures |r.st.certificates| == |s.certificates| + 1 ==>
      r.Ok? && r.st.users != s.users && r.st.certificates[|s.certificates|].userId == caller
      && r.st.certificates[|s.certificates|].courseId == courseId
      && !HasCertificate(s.certificates, caller, courseId) && FindEnrollment(s.users[caller].enrolled, courseId).Some?
    ensures !CompletionDue(s, caller, courseId) ==> r == Ok(s, result)
    ensures CompletionDue(s, caller, courseId) ==> MarkedCompleted(s, r.st, caller, courseId)
    ensures CompletionDue(s, caller, courseId) && HasCertificate(s.certificates, caller, courseId) ==>
      r.Ok? && r.st.certificates == s.certificates
    ensures CompletionDue(s, caller, courseId) && !HasCertificate(s.certificates, caller, courseId) ==>
      && (r.Ok? <==> s.users[caller].name != "" && s.courses[courseId].title != "")
      && (r.Ok? ==> r.st.certificates == s.certificates + [PassCertificate(s, caller, courseId, certId)])
    ensures r.Err? ==> r.st.certificates == s.certificates
  {
    var u := s.users[caller];
    match FindEnrollment(u.enrolled, courseId)
    case None => Ok(s, result)
    case Some(i) =>
      if u.enrolled[i].completed then Ok(s, result)
      else
        var u' := u.(enrolled := u.enrolled[i := u.enrolled[i].(completed := true)]);
        assert u' != u by { assert u'.enrolled[i] != u.enrolled[i]; }
        var s2 := s.(users := s.users[caller := u']);
        if HasCertificate(s.certificates, caller, courseId) then Ok(s2, result)
        else
          var c := PassCertificate(s, caller, courseId, certId);
          if u.name == "" || c.courseTitle == "" then Err(s2, ServerError)
          else Ok(s2.(certificates := s.certificates + [c]), result)
  }

  /** As written, the score counts answers and not distinct questions: ten copies of one right answer
      pass the quiz. */
  lemma ScoreCountsRepeats(s: State, caller: string, courseId: string, i: nat, certId: string)
    requires caller in s.users && courseId in s.courses
    requires i < |s.courses[courseId].quiz|
    requires forall j :: 0 <= j < i ==> s.courses[courseId].quiz[j].id != s.courses[courseId].quiz[i].id
    requires s.users[caller].name != "" && s.courses[courseId].title != ""
    ensures var q := s.courses[courseId].quiz[i];
            var r := SubmitQuiz(s, caller, courseId, Some(seq(QuizSize, _ => Answer(q.id, q.correctAnswer))), certId);
      r.Ok? && r.value.score == QuizSize && r.value.passed
  {
    var quiz := s.courses[courseId].quiz;
    var q := quiz[i];
    var answers := seq(QuizSize, _ => Answer(q.id, q.correctAnswer));
    FirstQuestion(quiz, q.id);
    assert IsCorrect(quiz, Answer(q.id, q.correctAnswer));
    ScoreAllCorrect(Grade(quiz, answers));
  }

  /** When every answer is right the score is the number of answers. */
  lemma {:induction false} ScoreAllCorrect(rs: seq<AnswerRecord>)
    requires forall k :: 0 <= k < |rs| ==> rs[k].correct
    ensures Score(rs) == |rs|
    decreases |rs|
  {
    if |rs| > 0 {
      ScoreAllCorrect(rs[..|rs| - 1]);
    }
  }

  /** Submitting a quiz keeps certificates unique per learner and course and backed by a completed
      enrolment: a certificate is issued only together with the completion, and only if none exists. */
  lemma SubmitKeepsCertificatesOk(s: State, caller: string, courseId: string, answers: Option<seq<Answer>>, certId: string)
    requires caller in s.users && CertificatesOk(s)
    ensures CertificatesOk(SubmitQuiz(s, caller, courseId, answers, certId).st)
  {
    var r := SubmitQuiz(s, caller, courseId, answers, certId);
    if MarkedCompleted(s, r.st, caller, courseId) {
      var u := s.users[caller];
      var i := FindEnrollment(u.enrolled, courseId).value;
      var s2 := s.(users := s.users[caller := u.(enrolled := u.enrolled[i := u.enrolled[i].(completed := true)])]);
      MarkKeepsCertificatesOk(s, caller, courseId, i);
      if r.st.certificates == s.certificates {
        CertificatesOkFrame(r.st, s2);
      } else {
        var c := PassCertificate(s, caller, courseId, certId);
        assert r.st.certificates == s.certificates + [c];
        AppendCertificateKeepsOk(s2, c);
        CertificatesOkFrame(r.st, s2.(certificates := s.certificates + [c]));
      }
    } else {
      CertificatesOkFrame(r.st, s);
    }
  }

  /** The pass branch keeps certificates unique per learner and course and backed by a completed
      enrolment. */
  lemma CompleteOnPassKeepsCertificatesOk(s: State, caller: string, courseId: string, certId: string, result: QuizResult)
    requires caller in s.users && courseId in s.courses && CertificatesOk(s)
    ensures CertificatesOk(CompleteOnPass(s, caller, courseId, certId, result).st)
  {
    var r := CompleteOnPass(s, caller, courseId, certId, result);
    if CompletionDue(s, caller, courseId) {
      var u := s.users[caller];
      var i := FindEnrollment(u.enrolled, courseId).value;
      var s2 := s.(users := s.users[caller := u.(enrolled := u.enrolled[i := u.enrolled[i].(completed := true)])]);
      MarkKeepsCertificatesOk(s, caller, courseId, i);
      if r.st.certificates == s.certificates {
        CertificatesOkFrame(r.st, s2);
      } else {
        var c := PassCertificate(s, caller, courseId, certId);
        AppendCertificateKeepsOk(s2, c);
        CertificatesOkFrame(r.st, s2.(certificates := s.certificates + [c]));
      }
    }
  }

  /** The certificate invariant reads only the users and the certificates. */
  lemma CertificatesOkFrame(a: State, b: State)
    requires a.users == b.users && a.certificates == b.certificates
    ensures CertificatesOk(a) == CertificatesOk(b)
  {
    forall uid, courseId
      ensures CompletedIn(a, uid, courseId) == CompletedIn(b, uid, courseId)
    {
    }
  }

  /** Marking the caller's first enrolment for the course completed keeps certificates unique and
      backed, and makes the pair completed. */
  lemma MarkKeepsCertificatesOk(s: State, caller: string, courseId: string, i: nat)
    requires caller in s.users && CertificatesOk(s)
    requires FindEnrollment(s.users[caller].enrolled, courseId) == Some(i)
    ensures var u := s.users[caller];
            var s2 := s.(users := s.users[caller := u.(enrolled := u.enrolled[i := u.enrolled[i].(completed := true)])]);
      CertificatesOk(s2) && CompletedIn(s2, caller, courseId)
  {
    var u := s.users[caller];
    var es := u.enrolled[i := u.enrolled[i].(completed := true)];
    var s2 := s.(users := s.users[caller := u.(enrolled := es)]);
    forall j | 0 <= j < |s.certificates|
      ensures CompletedIn(s2, s.certificates[j].userId, s.certificates[j].courseId)
    {
      MarkCompletedKeeps(s, caller, i, s.certificates[j].userId, s.certificates[j].courseId);
    }
    FindEnrollmentSameIds(u.enrolled, es, courseId);
  }

  /** Appending a certificate for a completed pair that has none keeps certificates unique and backed. */
  lemma AppendCertificateKeepsOk(s: State, c: Certificate)
    requires CertificatesOk(s) && CompletedIn(s, c.userId, c.courseId)
    requires !HasCertificate(s.certificates, c.userId, c.courseId)
    ensures CertificatesOk(s.(certificates := s.certificates + [c]))
  {
    var cs := s.certificates + [c];
    assert forall j :: 0 <= j < |s.certificates| ==>
      s.certificates[j].userId != c.userId || s.certificates[j].courseId != c.courseId;
    assert forall j :: 0 <= j < |s.certificates| ==> cs[j] == s.certificates[j];
  }

  /** A purchase keeps certificates unique and backed: it only appends an enrolment for a course the
      learner had none for, so no existing certificate can name that course for them. */
  lemma PurchaseKeepsCertificatesOk(cfg: Config, s: State, caller: string, courseId: string, secret: string,
                                    purchaseUuid: string, paymentUuid: string, commissionUuid: string)
    requires caller in s.users && CertificatesOk(s)
    ensures CertificatesOk(Purchase(cfg, s, caller, courseId, secret, purchaseUuid, paymentUuid, commissionUuid).st)
  {
    var r := Purchase(cfg, s, caller, courseId, secret, purchaseUuid, paymentUuid, commissionUuid);
    if r.Ok? {
      var es := s.users[caller].enrolled;
      forall j | 0 <= j < |s.certificates|
        ensures CompletedIn(r.st, s.certificates[j].userId, s.certificates[j].courseId)
      {
        var c := s.certificates[j];
        assert CompletedIn(s, c.userId, c.courseId);
        if c.userId == caller {
          FindEnrollmentAppend(es, Enrollment(courseId, false), c.courseId);
        }
      }
    }
  }
}

=== FILE: lms.dfy ===
/** The whole persisted state the route handlers read and write, the handlers' error replies,
    and the small lookups several handlers share. */
module Lms {
  import opened Wrappers
  import opened BankAccount
  import opened Transactions
  import opened Courses
  import opened QuizAttempts

  datatype Role = Learner | Instructor | Admin

  /** One entry of a user's `enrolledCourses`. */
  datatype Enrollment = Enrollment(courseId: string, completed: bool)

  /** A user document: `bankAccount` is the account-number pointer, "" when it was never set. */
  datatype User = User(
    name: string,
    role: Role,
    bankAccount: AccountNo,
    bankSetup: bool,
    enrolled: seq<Enrollment>,
    uploaded: seq<string>)

  datatype Certificate = Certificate(id: string, userId: string, userName: string, courseId: string, courseTitle: string)

  /** Accounts are keyed by account number, users and courses by id; transactions, certificates and
      quiz attempts are kept in insertion order. */
  datatype State = State(
    accounts: map<AccountNo, Account>,
    txns: seq<Transaction>,
    users: map<string, User>,
    courses: map<string, Course>,
    certificates: seq<Certificate>,
    attempts: seq<QuizAttempt>)

  /** What the process environment supplies: the LMS account number and the secret hasher. */
  datatype Config = Config(lmsAccount: AccountNo, hasher: Hasher)

  /** The instructor's share of a sale, and of a validated payment. */
  const InstructorRate: real := 0.7
  /** The LMS's share of a sale. */
  const CommissionRate: real := 0.3
  /** What the LMS pays an instructor for uploading a course. */
  const UploadPayment: real := 5000.0
  /** Opening balance of an LMS account created lazily by a purchase. */
  const LmsSeedOnPurchase: real := 0.0
  /** Opening balance of an LMS account created lazily by a course upload. */
  const LmsSeedOnUpload: real := 30000.0
  const LmsHolder: string := "LMS Organization"
  const LmsSecret: string := "lms-secret-key"
  /** At most this many active courses, platform-wide. */
  const CourseLimit: nat := 5
  /** Questions a learner is served, and questions a course needs before it can be served. */
  const QuizSize: nat := 10

  /** The handlers' failure replies, one per distinct message. */
  datatype Error =
    | MissingFields            // 'Please provide all required fields'
    | MissingAccountFields     // 'Please provide account number and secret'
    | MissingValidationFields  // 'Please provide transaction ID and secret'
    | MissingSecret            // 'Please provide your bank secret'
    | MissingMaterialFields    // 'Please provide material type and title'
    | InvalidQuizQuestion      // 'Please provide question, 4 options, and correct answer (0-3)'
    | AccountExists            // 'Account number already exists'
    | CourseNotFound
    | AlreadyEnrolled
    | BankNotSetUp             // 'Please set up your bank account first' / 'Bank account not set up'
    | BankAccountNotFound
    | InvalidSecret
    | InsufficientBalance
    | InstructorBankNotSetUp   // 'Instructor bank account not found' with status 400
    | InstructorBankNotFound   // 'Instructor bank account not found' with status 404
    | SenderNotFound
    | ReceiverNotFound
    | TransactionNotFound
    | AlreadyValidated         // 'Transaction already validated'
    | PaymentAlreadyCollected
    | InvalidTransactionType
    | NotAuthorized
    | LmsAccountNotFound
    | InsufficientLmsBalance
    | CourseLimitReached
    | DuplicateTitle
    | NotEnrolled
    | AlreadyCompleted
    | MustPurchase             // 'You must purchase this course first'
    | MustEnroll               // 'You must be enrolled in this course to access materials'
    | NotEnoughQuestions(count: nat)
    | MaterialNotFound
    | ServerError              // an exception caught by the handler's catch block

  /** The HTTP status each failure is sent with. */
  function Status(e: Error): int {
    match e
    case InvalidSecret => 401
    case NotAuthorized | MustPurchase | MustEnroll => 403
    case CourseNotFound | BankAccountNotFound | InstructorBankNotFound | SenderNotFound
      | ReceiverNotFound | TransactionNotFound | LmsAccountNotFound | MaterialNotFound => 404
    case ServerError => 500
    case _ => 400
  }

  /** A handler's outcome. Both arms carry the state after the request, because some handlers
      save documents before they reach a failing check. */
  datatype Reply<T> = Ok(st: State, value: T) | Err(st: State, error: Error)

  /** One fail-fast guard of a handler: whether it fails, and the reply it then sends. */
  datatype Check = Check(fails: bool, error: Error)

  /** The error of the first failing guard, if any: the order in which a handler reports failures. */
  function FirstFailure(cs: seq<Check>): (r: Option<Error>)
    ensures r.Some? ==> |cs| > 0
    ensures |cs| > 0 && cs[0].fails ==> r == Some(cs[0].error)
  {
    if |cs| == 0 then None
    else if cs[0].fails then Some(cs[0].error)
    else FirstFailure(cs[1..])
  }

  /** When guard `i` fails and none before it does, its error is the reply. */
  lemma {:induction false} FirstFailureIs(cs: seq<Check>, i: nat)
    requires i < |cs| && cs[i].fails && forall j :: 0 <= j < i ==> !cs[j].fails
    ensures FirstFailure(cs) == Some(cs[i].error)
    decreases i
  {
    if i > 0 {
      assert forall j :: 0 <= j < i - 1 ==> cs[1..][j] == cs[j + 1];
      FirstFailureIs(cs[1..], i - 1);
    }
  }

  /** When no guard fails, there is no failure to report. */
  lemma {:induction false} NoFailure(cs: seq<Check>)
    requires forall j :: 0 <= j < |cs| ==> !cs[j].fails
    ensures FirstFailure(cs) == None
    decreases |cs|
  {
    if |cs| > 0 {
      assert forall j :: 0 <= j < |cs| - 1 ==> cs[1..][j] == cs[j + 1];
      NoFailure(cs[1..]);
    }
  }

  /** A handler's guards checked one after the other report like the `if` chain that checks them:
      these lemmas unfold `FirstFailure` on guard lists of the lengths the handlers use. */
  lemma FourGuards(c0: Check, c1: Check, c2: Check, c3: Check)
    ensures FirstFailure([c0, c1, c2, c3])
         == if c0.fails then Some(c0.error)
            else if c1.fails then Some(c1.error)
            else if c2.fails then Some(c2.error)
            else if c3.fails then Some(c3.error)
            else None
  {
    var cs := [c0, c1, c2, c3];
    if c0.fails {
      FirstFailureIs(cs, 0);
    } else if c1.fails {
      FirstFailureIs(cs, 1);
    } else if c2.fails {
      FirstFailureIs(cs, 2);
    } else if c3.fails {
      FirstFailureIs(cs, 3);
    } else {
      NoFailure(cs);
    }
  }

  lemma FiveGuards(c0: Check, c1: Check, c2: Check, c3: Check, c4: Check)
    ensures FirstFailure([c0, c1, c2, c3, c4])
         == if c0.fails then Some(c0.error)
            else if c1.fails then Some(c1.error)
            else if c2.fails then Some(c2.error)
            else if c3.fails then Some(c3.error)
            else if c4.fails then Some(c4.error)
            else None
  {
    var cs := [c0, c1, c2, c3, c4];
    if c0.fails {
      FirstFailureIs(cs, 0);
    } else if c1.fails {
      FirstFailureIs(cs, 1);
    } else if c2.fails {
      FirstFailureIs(cs, 2);
    } else if c3.fails {
      FirstFailureIs(cs, 3);
    } else if c4.fails {
      FirstFailureIs(cs, 4);
    } else {
      NoFailure(cs);
    }
  }

  lemma SevenGuards(c0: Check, c1: Check, c2: Check, c3: Check, c4: Check, c5: Check, c6: Check)
    ensures FirstFailure([c0, c1, c2, c3, c4, c5, c6])
         == if c0.fails then Some(c0.error)
            else if c1.fails then Some(c1.error)
            else if c2.fails then Some(c2.error)
            else if c3.fails then Some(c3.error)
            else if c4.fails then Some(c4.error)
            else if c5.fails then Some(c5.error)
            else if c6.fails then Some(c6.error)
            else None
  {
    var cs := [c0, c1, c2, c3, c4, c5, c6];
    if c0.fails {
      FirstFailureIs(cs, 0);
    } else if c1.fails {
      FirstFailureIs(cs, 1);
    } else if c2.fails {
      FirstFailureIs(cs, 2);
    } else if c3.fails {
      FirstFailureIs(cs, 3);
    } else if c4.fails {
      FirstFailureIs(cs, 4);
    } else if c5.fails {
      FirstFailureIs(cs, 5);
    } else if c6.fails {
      FirstFailureIs(cs, 6);
    } else {
      NoFailure(cs);
    }
  }

  lemma NineGuards(c0: Check, c1: Check, c2: Check, c3: Check, c4: Check, c5: Check, c6: Check, c7: Check, c8: Check)
    ensures FirstFailure([c0, c1, c2, c3, c4, c5, c6, c7, c8])
         == if c0.fails then Some(c0.error)
            else if c1.fails then Some(c1.error)
            else if c2.fails then Some(c2.error)
            else if c3.fails then Some(c3.error)
            else if c4.fails then Some(c4.error)
            else if c5.fails then Some(c5.error)
            else if c6.fails then Some(c6.error)
            else if c7.fails then Some(c7.error)
            else if c8.fails then Some(c8.error)
            else None
  {
    var cs := [c0, c1, c2, c3, c4, c5, c6, c7, c8];
    if c0.fails {
      FirstFailureIs(cs, 0);
    } else if c1.fails {
      FirstFailureIs(cs, 1);
    } else if c2.fails {
      FirstFailureIs(cs, 2);
    } else if c3.fails {
      FirstFailureIs(cs, 3);
    } else if c4.fails {
      FirstFailureIs(cs, 4);
    } else if c5.fails {
      FirstFailureIs(cs, 5);
    } else if c6.fails {
      FirstFailureIs(cs, 6);
    } else if c7.fails {
      FirstFailureIs(cs, 7);
    } else if c8.fails {
      FirstFailureIs(cs, 8);
    } else {
      NoFailure(cs);
    }
  }

  /** The reported error belongs to a failing guard with none failing before it, and nothing is
      reported exactly when every guard passes. */
  lemma FirstFailureMeans(cs: seq<Check>)
    ensures FirstFailure(cs).None? <==> forall i :: 0 <= i < |cs| ==> !cs[i].fails
    ensures FirstFailure(cs).Some? ==>
      exists i :: 0 <= i < |cs| && cs[i].fails && cs[i].error == FirstFailure(cs).value
                  && forall j :: 0 <= j < i ==> !cs[j].fails
  {
    if forall i :: 0 <= i < |cs| ==> !cs[i].fails {
      NoFailure(cs);
    } else {
      var i :| 0 <= i < |cs| && cs[i].fails && forall j :: 0 <= j < i ==> !cs[j].fails by {
        FirstFailing(cs);
      }
      FirstFailureIs(cs, i);
    }
  }

  /** Some guard fails first. */
  lemma {:induction false} FirstFailing(cs: seq<Check>)
    requires exists i :: 0 <= i < |cs| && cs[i].fails
    ensures exists i :: 0 <= i < |cs| && cs[i].fails && forall j :: 0 <= j < i ==> !cs[j].fails
    decreases |cs|
  {
    if !cs[0].fails {
      var k :| 0 <= k < |cs| && cs[k].fails;
      assert cs[1..][k - 1].fails;
      FirstFailing(cs[1..]);
      var i :| 0 <= i < |cs| - 1 && cs[1..][i].fails && forall j :: 0 <= j < i ==> !cs[1..][j].fails;
      assert cs[i + 1].fails;
      forall j | 0 <= j < i + 1 ensures !cs[j].fails {
        if j > 0 { assert cs[j] == cs[1..][j - 1]; }
      }
    }
  }

  /** What the schema validators keep true of the money documents: every account is stored under its
      own number with a balance of at least 0 (`min: 0`), and every transaction amount is at least 0. */
  predicate LedgerOk(s: State) {
    AccountsOk(s.accounts) && AmountsOk(s.txns)
  }

  /** Every account is stored under its own number, and the schema's `min: 0` holds on its balance. */
  predicate AccountsOk(m: map<AccountNo, Account>) {
    forall n :: n in m ==> m[n].number == n && m[n].balance >= 0.0
  }

  /** The schema's `min: 0` holds on every record's amount. */
  predicate AmountsOk(ts: seq<Transaction>) {
    forall i :: 0 <= i < |ts| ==> ts[i].amount >= 0.0
  }

  /** Saving one account under its own number with a balance of at least 0 keeps the accounts consistent. */
  lemma SaveKeepsAccountsOk(m: map<AccountNo, Account>, n: AccountNo, a: Account)
    requires AccountsOk(m) && a.number == n && a.balance >= 0.0
    ensures AccountsOk(m[n := a])
  {
  }

  /** Appending records whose amounts are at least 0 keeps every amount at least 0. */
  lemma AppendKeepsAmountsOk(ts: seq<Transaction>, more: seq<Transaction>)
    requires AmountsOk(ts) && AmountsOk(more)
    ensures AmountsOk(ts + more)
  {
    var all := ts + more;
    assert forall i :: |ts| <= i < |all| ==> all[i] == more[i - |ts|];
  }

  /** The course schema's `min: 0` on every stored price. */
  predicate PricesOk(s: State) {
    forall id :: id in s.courses ==> s.courses[id].price >= 0.0
  }

  /** Look up the LMS account and create it with `seed` if it does not exist yet. */
  function EnsureLms(cfg: Config, s: State, seed: real): (s': State)
    ensures cfg.lmsAccount in s'.accounts
    ensures cfg.lmsAccount in s.accounts ==> s' == s
    ensures cfg.lmsAccount !in s.accounts ==>
              s' == s.(accounts := s.accounts[cfg.lmsAccount := s'.accounts[cfg.lmsAccount]])
              && s'.accounts[cfg.lmsAccount].balance == seed
              && s'.accounts[cfg.lmsAccount].kind == LmsKind
  {
    if cfg.lmsAccount in s.accounts then s
    else
      var lms := NewAccount(cfg.hasher, cfg.lmsAccount, None, LmsHolder, LmsSecret, seed, LmsKind);
      s.(accounts := s.accounts[cfg.lmsAccount := lms])
  }

  /** `user.enrolledCourses.find(ec => ec.courseId === courseId)`: the first matching position. */
  function FindEnrollment(es: seq<Enrollment>, courseId: string): (r: Option<nat>)
    ensures r.Some? ==> r.value < |es| && es[r.value].courseId == courseId
    ensures r.Some? ==> forall j :: 0 <= j < r.value ==> es[j].courseId != courseId
    ensures r.None? <==> forall j :: 0 <= j < |es| ==> es[j].courseId != courseId
  {
    FirstWhere(es, (e: Enrollment) => e.courseId == courseId)
  }

  /** Appending an enrolment for another course leaves the lookup of every course id as it was. */
  lemma FindEnrollmentAppend(es: seq<Enrollment>, e: Enrollment, courseId: string)
    requires e.courseId != courseId || FindEnrollment(es, courseId).Some?
    ensures FindEnrollment(es + [e], courseId) == FindEnrollment(es, courseId)
  {
    var xs := es + [e];
    assert forall j :: 0 <= j < |es| ==> xs[j] == es[j];
  }

  /** The lookup reads only the course ids, so changing a completed flag does not move it. */
  lemma FindEnrollmentSameIds(es: seq<Enrollment>, es': seq<Enrollment>, courseId: string)
    requires |es| == |es'| && forall k :: 0 <= k < |es| ==> es[k].courseId == es'[k].courseId
    ensures FindEnrollment(es, courseId) == FindEnrollment(es', courseId)
  {
    var r, r' := FindEnrollment(es, courseId), FindEnrollment(es', courseId);
    if r.Some? && r'.Some? {
      assert !(r.value < r'.value) && !(r'.value < r.value);
    }
  }

  /** `user.enrolledCourses.some(ec => ec.courseId === courseId)`. */
  predicate IsEnrolled(u: User, courseId: string) {
    exists i :: 0 <= i < |u.enrolled| && u.enrolled[i].courseId == courseId
  }

  /** `users'` is `users` with `courseId` pushed onto the caller's `uploadedCourses`: the same users,
      every other profile and every other field of the caller's unchanged. */
  predicate UploadRecorded(users: map<string, User>, users': map<string, User>, caller: string, courseId: string)
    requires caller in users
  {
    && users'.Keys == users.Keys
    && (forall uid :: uid in users && uid != caller ==> users'[uid] == users[uid])
    && users'[caller] == users[caller].(uploaded := users[caller].uploaded + [courseId])
  }

  /** The user's first enrolment for the course exists and is marked completed. */
  predicate CompletedIn(s: State, uid: string, courseId: string) {
    && uid in s.users
    && var k := FindEnrollment(s.users[uid].enrolled, courseId);
       k.Some? && s.users[uid].enrolled[k.value].completed
  }

  /** `Certificate.findOne({ userId, courseId })` finds something. */
  predicate HasCertificate(cs: seq<Certificate>, uid: string, courseId: string) {
    exists i :: 0 <= i < |cs| && cs[i].userId == uid && cs[i].courseId == courseId
  }

  /** Certificates are issued once per learner and course, and only for a completed enrolment. */
  predicate CertificatesOk(s: State) {
    && (forall i, j :: 0 <= i < j < |s.certificates| ==>
          s.certificates[i].userId != s.certificates[j].userId || s.certificates[i].courseId != s.certificates[j].courseId)
    && (forall i :: 0 <= i < |s.certificates| ==> CompletedIn(s, s.certificates[i].userId, s.certificates[i].courseId))
  }

  /** The ids of the active courses. */
  function ActiveIds(courses: map<string, Course>): (r: set<string>)
    ensures forall k :: k in r <==> k in courses && courses[k].isActive
  {
    set k | k in courses && courses[k].isActive
  }

  /** `Course.countDocuments({ isActive: true })`. */
  function ActiveCount(courses: map<string, Course>): nat {
    |ActiveIds(courses)|
  }

  /** Storing a course under `id`, new or replacing, changes the active count by the change of that
      one entry's `isActive`. */
  lemma ActiveCountUpdate(courses: map<string, Course>, id: string, c: Course)
    ensures ActiveCount(courses[id := c])
         == ActiveCount(courses) - (if id in courses && courses[id].isActive then 1 else 0) + (if c.isActive then 1 else 0)
  {
    var before, after := ActiveIds(courses), ActiveIds(courses[id := c]);
    var added := if c.isActive then {id} else {};
    forall k
      ensures k in after <==> k in before - {id} + added
    {
      if k != id {
        assert (k in after <==> k in courses && courses[k].isActive);
      }
    }
    assert after == before - {id} + added;
    SwapOne(before, id, c.isActive);
  }

  /** Taking `x` out of a set and putting it back or not changes the size by those two steps. */
  lemma SwapOne<T>(a: set<T>, x: T, add: bool)
    ensures |a - {x} + (if add then {x} else {})| == |a| - (if x in a then 1 else 0) + (if add then 1 else 0)
  {
    var rest := a - {x};
    if x in a {
      assert a == rest + {x};
    }
  }

  /** Adding a new course raises the active count by one exactly when it is active. */
  lemma ActiveCountAdd(courses: map<string, Course>, id: string, c: Course)
    requires id !in courses
    ensures ActiveCount(courses[id := c]) == ActiveCount(courses) + (if c.isActive then 1 else 0)
  {
    ActiveCountUpdate(courses, id, c);
  }

  /** Removing a course lowers the active count by one exactly when it was active. */
  lemma ActiveCountRemove(courses: map<string, Course>, id: string)
    ensures ActiveCount(courses - {id}) == ActiveCount(courses) - (if id in courses && courses[id].isActive then 1 else 0)
  {
    var before, after := ActiveIds(courses), ActiveIds(courses - {id});
    assert ActiveCount(courses) == |before| && ActiveCount(courses - {id}) == |after|;
    assert id !in after;
    if id in courses && courses[id].isActive {
      assert before == after + {id};
    } else {
      assert before == after;
    }
  }

  /** `BankAccount.findOne({ accountNumber: user.bankAccount.accountNumber })` for a user id;
      an unset pointer finds nothing. */
  function AccountOfUser(s: State, uid: string): (r: Option<Account>)
    ensures r.Some? <==> uid in s.users && s.users[uid].bankAccount != "" && s.users[uid].bankAccount in s.accounts
    ensures r.Some? ==> r.value == s.accounts[s.users[uid].bankAccount]
  {
    if uid in s.users && s.users[uid].bankAccount != "" && s.users[uid].bankAccount in s.accounts
    then Some(s.accounts[s.users[uid].bankAccount])
    else None
  }
}

=== FILE: money.dfy ===
/** The total of all account balances, and how single-account writes change it. Used to state
    money conservation of the ledger handlers. */
module Money {
  import opened BankAccount

  /** The sum of the balances of the accounts whose numbers are in `keys`. */
  ghost function SumOver(m: map<AccountNo, Account>, keys: set<AccountNo>): real
    requires keys <= m.Keys
    decreases keys
  {
    if keys == {} then 0.0
    else
      var k :| k in keys;
      m[k].balance + SumOver(m, keys - {k})
  }

  /** The money held by all accounts together. */
  ghost function Total(m: map<AccountNo, Account>): real {
    SumOver(m, m.Keys)
  }

  /** Any key can be taken out of the sum first, whichever one the definition picks. */
  lemma {:induction false} SumOverRemove(m: map<AccountNo, Account>, keys: set<AccountNo>, k: AccountNo)
    requires keys <= m.Keys && k in keys
    ensures SumOver(m, keys) == m[k].balance + SumOver(m, keys - {k})
    decreases keys
  {
    var j :| j in keys && SumOver(m, keys) == m[j].balance + SumOver(m, keys - {j});
    if j != k {
      SumOverRemove(m, keys - {j}, k);
      SumOverRemove(m, keys - {k}, j);
      assert keys - {j} - {k} == keys - {k} - {j};
    }
  }

  /** The sum over keys that two maps agree on is the same in both. */
  lemma {:induction false} SumOverAgree(m: map<AccountNo, Account>, m': map<AccountNo, Account>, keys: set<AccountNo>)
    requires keys <= m.Keys && keys <= m'.Keys
    requires forall k :: k in keys ==> m[k].balance == m'[k].balance
    ensures SumOver(m, keys) == SumOver(m', keys)
    decreases keys
  {
    if keys != {} {
      var k :| k in keys && SumOver(m, keys) == m[k].balance + SumOver(m, keys - {k});
      SumOverRemove(m', keys, k);
      SumOverAgree(m, m', keys - {k});
    }
  }

  /** Overwriting one account changes the total by exactly the change of that account's balance. */
  lemma TotalUpdate(m: map<AccountNo, Account>, k: AccountNo, a: Account)
    requires k in m
    ensures Total(m[k := a]) == Total(m) - m[k].balance + a.balance
  {
    var m' := m[k := a];
    assert m'.Keys == m.Keys;
    SumOverRemove(m, m.Keys, k);
    SumOverRemove(m', m.Keys, k);
    SumOverAgree(m, m', m.Keys - {k});
  }

  /** Adding a new account adds its balance to the total. */
  lemma TotalAdd(m: map<AccountNo, Account>, k: AccountNo, a: Account)
    requires k !in m
    ensures Total(m[k := a]) == Total(m) + a.balance
  {
    var m' := m[k := a];
    assert m'.Keys - {k} == m.Keys;
    SumOverRemove(m', m'.Keys, k);
    SumOverAgree(m, m', m.Keys);
  }
}

=== FILE: quiz_attempt.dfy ===
/** The quiz-attempt document: a score out of ten, a pass flag and the graded answers. */
module QuizAttempts {

  /** One submitted answer as recorded: the question it names, the option picked, and whether it was right. */
  datatype AnswerRecord = AnswerRecord(questionId: string, selectedAnswer: int, correct: bool)

  datatype QuizAttempt = QuizAttempt(
    userId: string,
    courseId: string,
    score: int,
    totalQuestions: int,
    passed: bool,
    answers: seq<AnswerRecord>)

  const DefaultTotalQuestions: int := 10

  /** Score needed to pass. */
  const PassMark: int := 8

  /** The schema's `min: 0, max: 10` on the score. */
  predicate Valid(a: QuizAttempt) {
    0 <= a.score <= 10
  }
}

=== FILE: status_reset.dfy ===
/** The maintenance script that resets the status of instructor-payment records: every such record
    that is pending or validated is set to completed, when there is at least one. */
module StatusReset {
  import opened Wrappers
  import opened Transactions
  import opened Lms
  import InstructorRoutes

  /** The records the script's update selects. */
  predicate NeedsReset(t: Transaction) {
    t.kind == InstructorPayment && (t.status == Pending || t.status == Validated)
  }

  /** `$set: { status: 'completed' }` on a selected record. */
  function Reset(t: Transaction): (r: Transaction)
    ensures !NeedsReset(r)
    ensures r.(status := t.status) == t
    ensures NeedsReset(t) ==> r.status == Completed
    ensures !NeedsReset(t) ==> r == t
  {
    if NeedsReset(t) then t.(status := Completed) else t
  }

  /** The update applied to the whole collection, in order. */
  function ResetAll(ts: seq<Transaction>): (r: seq<Transaction>)
    ensures |r| == |ts|
    ensures forall k :: 0 <= k < |ts| ==> r[k] == Reset(ts[k])
  {
    if |ts| == 0 then []
    else ResetAll(ts[..|ts| - 1]) + [Reset(ts[|ts| - 1])]
  }

  function OfStatus(st: TxStatus): Transaction -> bool {
    (t: Transaction) => t.kind == InstructorPayment && t.status == st
  }

  /** The printed summary: pending, completed and validated instructor payments. */
  datatype Summary = Summary(pending: nat, completed: nat, validated: nat)

  datatype Outcome = Outcome(summary: Summary, modified: nat)

  /** The script run on the state: count, then update only if something is pending or validated. */
  function FixPending(s: State): (r: (State, Outcome))
    ensures r.0.accounts == s.accounts && r.0.users == s.users && r.0.courses == s.courses
            && r.0.certificates == s.certificates && r.0.attempts == s.attempts
    ensures |r.0.txns| == |s.txns|
    ensures forall k :: 0 <= k < |s.txns| ==> !NeedsReset(r.0.txns[k])
    ensures forall k :: 0 <= k < |s.txns| ==> r.0.txns[k].(status := s.txns[k].status) == s.txns[k]
    ensures forall k :: 0 <= k < |s.txns| && !NeedsReset(s.txns[k]) ==> r.0.txns[k] == s.txns[k]
    ensures forall k :: 0 <= k < |s.txns| && NeedsReset(s.txns[k]) ==> r.0.txns[k].status == Completed
    ensures r.1.modified == CountIf(s.txns, NeedsReset)
    ensures r.1.summary == Summary(CountIf(s.txns, OfStatus(Pending)), CountIf(s.txns, OfStatus(Completed)),
                                   CountIf(s.txns, OfStatus(Validated)))
  {
    var summary := Summary(CountIf(s.txns, OfStatus(Pending)), CountIf(s.txns, OfStatus(Completed)),
                           CountIf(s.txns, OfStatus(Validated)));
    if summary.pending > 0 || summary.validated > 0 then
      SelectedAreCounted(s.txns);
      (s.(txns := ResetAll(s.txns)), Outcome(summary, summary.pending + summary.validated))
    else
      SelectedAreCounted(s.txns);
      NoneSelected(s.txns);
      (s, Outcome(summary, 0))
  }

  /** The update's filter selects exactly the records the two counts count. */
  lemma {:induction false} SelectedAreCounted(ts: seq<Transaction>)
    ensures CountIf(ts, NeedsReset) == CountIf(ts, OfStatus(Pending)) + CountIf(ts, OfStatus(Validated))
    decreases |ts|
  {
    if |ts| > 0 {
      SelectedAreCounted(ts[..|ts| - 1]);
    }
  }

  /** With nothing selected, no record needs a reset. */
  lemma {:induction false} NoneSelected(ts: seq<Transaction>)
    requires CountIf(ts, NeedsReset) == 0
    ensures forall k :: 0 <= k < |ts| ==> !NeedsReset(ts[k])
    decreases |ts|
  {
    if |ts| > 0 {
      NoneSelected(ts[..|ts| - 1]);
      assert forall k :: 0 <= k < |ts| - 1 ==> ts[k] == ts[..|ts| - 1][k];
    }
  }

  /** Running the script a second time finds nothing to fix and changes nothing. */
  lemma FixPendingIdempotent(s: State)
    ensures var s' := FixPending(s).0;
      && FixPending(s').0 == s'
      && FixPending(s').1.modified == 0
      && FixPending(s').1.summary.pending == 0 && FixPending(s').1.summary.validated == 0
  {
    var s' := FixPending(s).0;
    NothingToReset(s'.txns);
    SelectedAreCounted(s'.txns);
  }

  /** A collection in which nothing is selected counts zero. */
  lemma {:induction false} NothingToReset(ts: seq<Transaction>)
    requires forall k :: 0 <= k < |ts| ==> !NeedsReset(ts[k])
    ensures CountIf(ts, NeedsReset) == 0
    decreases |ts|
  {
    if |ts| > 0 {
      NothingToReset(ts[..|ts| - 1]);
    }
  }

  /** Resetting brings collected payments back into the earnings summary, which sums completed
      records only: afterwards every instructor payment of the caller that has not failed counts. */
  lemma {:induction false} ResetCountsCollected(ts: seq<Transaction>, caller: string)
    ensures SumIf(ResetAll(ts), InstructorRoutes.EarnedAs(caller, InstructorPayment))
         == SumIf(ts, (t: Transaction) => t.userId == Some(caller) && t.kind == InstructorPayment && t.status != Failed)
    decreases |ts|
  {
    if |ts| > 0 {
      var n := |ts| - 1;
      ResetCountsCollected(ts[..n], caller);
      assert ResetAll(ts)[..n] == ResetAll(ts[..n]);
    }
  }
}

=== FILE: text.dfy ===
/** String normalisation as the source uses it: `String.prototype.trim`, `toLowerCase`,
    and the case-insensitive `^title$` match that the course-title duplicate checks build. */
module Text {

  /** The white-space characters `trim` removes (the ASCII ones, NBSP, BOM and the two line separators). */
  predicate IsSpace(c: char) {
    c == ' ' || c == '\t' || c == '\n' || c == '\r' || c == '\U{B}' || c == '\U{C}'
    || c == '\U{A0}' || c == '\U{FEFF}' || c == '\U{2028}' || c == '\U{2029}'
  }

  function TrimStart(s: string): (r: string)
    ensures |r| <= |s| && r == s[|s| - |r|..]
    ensures forall i :: 0 <= i < |s| - |r| ==> IsSpace(s[i])
    ensures r == [] || !IsSpace(r[0])
  {
    if |s| > 0 && IsSpace(s[0]) then TrimStart(s[1..]) else s
  }

  function TrimEnd(s: string): (r: string)
    ensures |r| <= |s| && r == s[..|r|]
    ensures forall i :: |r| <= i < |s| ==> IsSpace(s[i])
    ensures r == [] || !IsSpace(r[|r| - 1])
  {
    if |s| > 0 && IsSpace(s[|s| - 1]) then TrimEnd(s[..|s| - 1]) else s
  }

  /** `s.trim()`: white space dropped at both ends. */
  function Trim(s: string): (r: string)
    ensures |r| <= |s|
    ensures r == [] || (!IsSpace(r[0]) && !IsSpace(r[|r| - 1]))
  {
    TrimEnd(TrimStart(s))
  }

  /** What is left after trimming is a slice of the input with only white space around it. */
  lemma TrimIsSlice(s: string)
    ensures exists i, j :: 0 <= i <= j <= |s| && Trim(s) == s[i..j]
              && (forall k :: 0 <= k < i ==> IsSpace(s[k]))
              && (forall k :: j <= k < |s| ==> IsSpace(s[k]))
  {
    var i, j := TrimBounds(s);
  }

  /** Where the trimmed text starts and ends in the input. */
  lemma TrimBounds(s: string) returns (i: nat, j: nat)
    ensures i <= j <= |s| && Trim(s) == s[i..j]
    ensures forall k :: 0 <= k < i ==> IsSpace(s[k])
    ensures forall k :: j <= k < |s| ==> IsSpace(s[k])
  {
    var t := TrimStart(s);
    var r := TrimEnd(t);
    i := |s| - |t|;
    j := i + |r|;
    assert t == s[i..] && r == t[..|r|];
    forall k | j <= k < |s| ensures IsSpace(s[k]) {
      assert s[k] == t[k - i];
    }
  }

  /** Trimming an already trimmed string changes nothing (the schema's `trim: true` is stable). */
  lemma TrimIdempotent(s: string)
    ensures Trim(Trim(s)) == Trim(s)
  {
    var t := Trim(s);
    assert TrimStart(t) == t;
    assert TrimEnd(t) == t;
  }

  /** ASCII lower-casing of one character. */
  function LowerChar(c: char): char {
    if 'A' <= c <= 'Z' then (c as int + 32) as char else c
  }

  /** `s.toLowerCase()`. */
  function Lower(s: string): (r: string)
    ensures |r| == |s|
    ensures forall i :: 0 <= i < |s| ==> r[i] == LowerChar(s[i])
  {
    seq(|s|, i requires 0 <= i < |s| => LowerChar(s[i]))
  }

  /** `s.trim().toLowerCase()`: the key on which the source compares titles and quiz texts. */
  function Norm(s: string): string {
    Lower(Trim(s))
  }

  /** Two strings are the same text up to surrounding white space and letter case. */
  predicate SameText(a: string, b: string) {
    Norm(a) == Norm(b)
  }

  /** Lower-casing never turns a visible character into white space or back. */
  lemma LowerCharKeepsSpace(c: char)
    ensures IsSpace(LowerChar(c)) <==> IsSpace(c)
  {
  }

  /** No white space at either end: the shape of every trimmed string. */
  predicate Unpadded(l: string) {
    l == [] || (!IsSpace(l[0]) && !IsSpace(l[|l| - 1]))
  }

  /** A string with no white space at either end is its own trim. */
  lemma TrimUnpadded(l: string)
    requires Unpadded(l)
    ensures Trim(l) == l
  {
    assert TrimStart(l) == l;
    assert TrimEnd(l) == l;
  }

  lemma LowerIdempotent(l: string)
    ensures Lower(Lower(l)) == Lower(l)
  {
  }

  /** Normalising is stable: comparing normalised keys again gives the same answer. */
  lemma NormIdempotent(s: string)
    ensures Norm(Norm(s)) == Norm(s)
  {
    var t := Trim(s);
    var l := Lower(t);
    if l != [] {
      LowerCharKeepsSpace(t[0]);
      LowerCharKeepsSpace(t[|t| - 1]);
    }
    TrimUnpadded(l);
    LowerIdempotent(t);
  }

  /** The match built as `new RegExp('^' + title.trim() + '$', 'i')` against a stored (already trimmed)
      title, for a title without regular-expression metacharacters. */
  predicate TitleMatches(stored: string, requested: string) {
    Lower(stored) == Lower(Trim(requested))
  }

  /** Since stored titles are trimmed (no white space at either end), the regex match is the same
      relation as `SameText`. */
  lemma TitleMatchesIsSameText(stored: string, requested: string)
    requires Unpadded(stored)
    ensures TitleMatches(stored, requested) <==> SameText(stored, requested)
  {
    TrimUnpadded(stored);
    assert Norm(stored) == Lower(stored);
  }
}

=== FILE: transaction.dfy ===
/** The transaction document and the folds over the transaction collection that the
    earnings, pending-payments and admin-statistics handlers compute. */
module Transactions {
  import opened Wrappers

  datatype TxKind = CoursePurchase | InstructorPayment | CourseUploadPayment | LmsCommission

  /** The enum value the schema stores for each kind. */
  function KindName(k: TxKind): string {
    match k
    case CoursePurchase => "course_purchase"
    case InstructorPayment => "instructor_payment"
    case CourseUploadPayment => "course_upload_payment"
    case LmsCommission => "lms_commission"
  }

  /** The schema's `type` enum applied to a request string: it names a kind exactly when it is that
      kind's enum value; any other string fails validation when the record is saved. */
  function ParseTxKind(name: string): (r: Option<TxKind>)
    ensures r.Some? ==> KindName(r.value) == name
    ensures r.None? <==> forall k: TxKind :: KindName(k) != name
  {
    if name == "course_purchase" then Some(CoursePurchase)
    else if name == "instructor_payment" then Some(InstructorPayment)
    else if name == "course_upload_payment" then Some(CourseUploadPayment)
    else if name == "lms_commission" then Some(LmsCommission)
    else None
  }

  /** Every kind's enum value parses back to that kind. */
  lemma ParseKindName(k: TxKind)
    ensures ParseTxKind(KindName(k)) == Some(k)
  {
  }

  predicate IsHexDigit(c: char) {
    '0' <= c <= '9' || 'a' <= c <= 'f' || 'A' <= c <= 'F'
  }

  /** The text form an ObjectId field accepts when a string is cast to it: 24 hexadecimal digits. */
  predicate IsObjectIdText(s: string) {
    |s| == 24 && forall i :: 0 <= i < |s| ==> IsHexDigit(s[i])
  }

  datatype TxStatus = Pending | Completed | Failed | Validated

  const DefaultStatus: TxStatus := Pending

  /** Every generated transaction id is this prefix followed by a fresh uuid. */
  const IdPrefix: string := "TXN-"

  datatype Transaction = Transaction(
    id: string,
    from: string,
    to: string,
    amount: real,
    kind: TxKind,
    status: TxStatus,
    courseId: Option<string>,
    userId: Option<string>,
    validated: bool,
    description: string)

  /** `new Transaction({...})` with no status given: the schema defaults apply. */
  function NewTransaction(uuid: string, from: string, to: string, amount: real, kind: TxKind,
                          courseId: Option<string>, userId: Option<string>, description: string): (t: Transaction)
    ensures t.id == IdPrefix + uuid && IdPrefix <= t.id
    ensures t.status == DefaultStatus && t.status == Pending && !t.validated
    ensures t.from == from && t.to == to && t.amount == amount && t.kind == kind
    ensures t.courseId == courseId && t.userId == userId
  {
    Transaction(IdPrefix + uuid, from, to, amount, kind, DefaultStatus, courseId, userId, false, description)
  }

  /** A record written by a handler that sets `status: 'completed'` explicitly. */
  function CompletedTransaction(uuid: string, from: string, to: string, amount: real, kind: TxKind,
                                courseId: Option<string>, userId: Option<string>, description: string): (t: Transaction)
    ensures t.id == IdPrefix + uuid && t.status == Completed && !t.validated
    ensures t.from == from && t.to == to && t.amount == amount && t.kind == kind
    ensures t.courseId == courseId && t.userId == userId
  {
    NewTransaction(uuid, from, to, amount, kind, courseId, userId, description).(status := Completed)
  }

  /** The schema's `min: 0` on the amount. */
  predicate Valid(t: Transaction) {
    t.amount >= 0.0
  }

  /** `unique: true` on `transactionId`. */
  predicate IdsDistinct(ts: seq<Transaction>) {
    forall i, j :: 0 <= i < j < |ts| ==> ts[i].id != ts[j].id
  }

  /** No transaction in `ts` carries the id `IdPrefix + uuid`. */
  predicate FreshId(ts: seq<Transaction>, uuid: string) {
    forall i :: 0 <= i < |ts| ==> ts[i].id != IdPrefix + uuid
  }

  /** `Transaction.findOne({ transactionId })`: the position of the first record with that id. */
  function Find(ts: seq<Transaction>, id: string): (r: Option<nat>)
    ensures r.Some? ==> r.value < |ts| && ts[r.value].id == id
    ensures r.Some? ==> forall j :: 0 <= j < r.value ==> ts[j].id != id
    ensures r.None? <==> forall j :: 0 <= j < |ts| ==> ts[j].id != id
  {
    FirstWhere(ts, (t: Transaction) => t.id == id)
  }

  /** The sum of the amounts of the records that satisfy `p`, in collection order. */
  function SumIf(ts: seq<Transaction>, p: Transaction -> bool): real
  {
    if |ts| == 0 then 0.0
    else SumIf(ts[..|ts| - 1], p) + (if p(ts[|ts| - 1]) then ts[|ts| - 1].amount else 0.0)
  }

  /** The number of records that satisfy `p`. */
  function CountIf(ts: seq<Transaction>, p: Transaction -> bool): (n: nat)
    ensures n <= |ts|
  {
    if |ts| == 0 then 0
    else CountIf(ts[..|ts| - 1], p) + (if p(ts[|ts| - 1]) then 1 else 0)
  }

  /** The records that satisfy `p`, in order (`Transaction.find(query)`). */
  function Filter(ts: seq<Transaction>, p: Transaction -> bool): (r: seq<Transaction>)
    ensures |r| <= |ts|
    ensures forall i :: 0 <= i < |r| ==> p(r[i]) && r[i] in ts
    ensures forall i :: 0 <= i < |ts| && p(ts[i]) ==> ts[i] in r
  {
    if |ts| == 0 then []
    else Filter(ts[..|ts| - 1], p) + (if p(ts[|ts| - 1]) then [ts[|ts| - 1]] else [])
  }

  /** Folding over a concatenation is folding over each part. */
  lemma {:induction false} SumIfAppend(a: seq<Transaction>, b: seq<Transaction>, p: Transaction -> bool)
    ensures SumIf(a + b, p) == SumIf(a, p) + SumIf(b, p)
    decreases |b|
  {
    if |b| == 0 {
      assert a + b == a;
    } else {
      var b' := b[..|b| - 1];
      assert (a + b)[..|a + b| - 1] == a + b';
      assert (a + b)[|a + b| - 1] == b[|b| - 1];
      SumIfAppend(a, b', p);
    }
  }

  lemma {:induction false} CountIfAppend(a: seq<Transaction>, b: seq<Transaction>, p: Transaction -> bool)
    ensures CountIf(a + b, p) == CountIf(a, p) + CountIf(b, p)
    decreases |b|
  {
    if |b| == 0 {
      assert a + b == a;
    } else {
      var b' := b[..|b| - 1];
      assert (a + b)[..|a + b| - 1] == a + b';
      assert (a + b)[|a + b| - 1] == b[|b| - 1];
      CountIfAppend(a, b', p);
    }
  }

  /** Two predicates that agree on every record give the same sum. */
  lemma {:induction false} SumIfCongruent(ts: seq<Transaction>, p: Transaction -> bool, q: Transaction -> bool)
    requires forall i :: 0 <= i < |ts| ==> p(ts[i]) == q(ts[i])
    ensures SumIf(ts, p) == SumIf(ts, q)
    decreases |ts|
  {
    if |ts| > 0 {
      SumIfCongruent(ts[..|ts| - 1], p, q);
    }
  }

  /** Amounts are non-negative, so every partial sum is. */
  lemma {:induction false} SumIfNonNegative(ts: seq<Transaction>, p: Transaction -> bool)
    requires forall i :: 0 <= i < |ts| ==> Valid(ts[i])
    ensures SumIf(ts, p) >= 0.0
    decreases |ts|
  {
    if |ts| > 0 {
      SumIfNonNegative(ts[..|ts| - 1], p);
    }
  }
}

=== FILE: wrappers.dfy ===
/** Optional values, standing in for JavaScript's `undefined` and for lookups that may miss. */
module Wrappers {

  datatype Option<+T> = None | Some(value: T) {

    /** The value if present, otherwise `default` (JavaScript's `x || default` on a present value). */
    function GetOr(default: T): T {
      match this
      case Some(v) => v
      case None => default
    }
  }

  /** The position of the first element satisfying `p`, if there is one: the shape of every
      `findOne` and `Array.find` over a collection kept in insertion order. */
  function FirstWhere<T>(xs: seq<T>, p: T -> bool): (r: Option<nat>)
    ensures r.Some? ==> r.value < |xs| && p(xs[r.value])
    ensures r.Some? ==> forall j :: 0 <= j < r.value ==> !p(xs[j])
    ensures r.None? <==> forall j :: 0 <= j < |xs| ==> !p(xs[j])
  {
    if |xs| == 0 then None
    else if p(xs[0]) then Some(0)
    else match FirstWhere(xs[1..], p)
      case None => None
      case Some(k) => Some(k + 1)
  }
}
